=== FILE: README.md ===
# vnpy bar reconciliation and alerting, modelled in Dafny

This project models four pieces of sequential decision logic from the vnpy
trading platform (the toptang fork) and proves properties about them.

- **Bar-series reconciliation** (`mongoDataChecker` and `okexMongoDataChecker` in
  `vnpy/trader/app/dataRecorder/drChecker.py`).
  - A run loads its settings and fixes `now` as the current minute minus two
    minutes. It then scans each recorded symbol's collection.
  - The scan reports two things: the grid points of the window that no
    stored bar carries, and the timestamps that carry more than one bar.
  - Three flag-gated corrective phases follow, always in the order
    de-duplicate, backfill, replace. Each writes to the store and mirrors
    every write into the symbol's "active" alias collection.
  - Remote bars are fetched at most once per symbol per checker.
  - Modules: `Bars`, `Store`, `Scanner`, `Corrective`, `Convergence`, `Checker`.
- **Delta-hedge monitor** (`DeltaCalculator` in
  `vnpy/trader/app/alertService/deltaCalculator.py`).
  - A tick-counter scheduler and a readiness latch.
  - A per-strategy alert budget.
  - Long/short netting of futures holdings.
  - Account-name slicing into a spot symbol.
  - Module: `Delta`.
- **Event gating** (`AlertEngine` in `vnpy/trader/app/alertService/alertEngine.py`).
  - The guards that decide which order, position, account, tick and timer
    events reach the calculator and the alerters.
  - The timer-registration latch and the "not running" latch.
  - Module: `Alerts`.
- **SMS payloads** (`aliyun_clients.py` under `vnpy/trader/app/alertService/alerter/aliyun/`).
  - The template-parameter string and the order-notification fields.
  - The status and template mappings.
  - The V1/V2 request maps, the canonical string-to-sign fed to HMAC-SHA1,
    and the per-recipient send loop.
  - Percent-encoding follows Python 2 `urllib.quote(s, safe='')`: letters,
    digits and `_.-` pass through, every other byte becomes `%XX` (section
    2.1 of RFC 3986, upper-case hex).
  - Modules: `Sms`, `Percent`.
- Shared modules: `Wrappers` (Option, Result), `Text` (split, join, prefix,
  upper-casing, string order) and `Events` (order, position, account and
  tick payloads).

**Representation.**
- Timestamps are integer seconds on the naive local clock. Truncating one
  zeroes only its seconds, even for the `1day` period.
- Bar prices and volumes are opaque values compared by equality.
- The document store is a map from collection name to the records in
  insertion order.
  - A query keeps the records at or after `since`, sorted stably by time.
  - `delete_one` removes the first matching record.
  - Without a client, the model's queries return nothing and its writes are no-ops. This is a modelling choice: the code's no-client branches log through a call that raises (see "## Left out").
- Corrective phases return a write log, which is applied to the store.
- An exception that aborts a Python method is an error result. State changed
  before the raise persists.
- Python 2 dictionaries have no defined iteration order. Symbols and
  strategies are therefore visited in settings order, and request items in
  the order the source lists them.

**Behaviour of the code that the model keeps:**
- The scan grid includes `until`. A window shorter than one step still checks its single start point.
- The corrective phases run phase by phase over all symbols (de-duplicate, fill, fix), not symbol by symbol.
- A missing alias entry raises `KeyError` and aborts the run. It is not a per-symbol failure.
- The safety lag is a fixed two minutes, whatever the period.
- One exception: the scan's store query starts at `since` with its seconds cleared, where the code queries from the raw `since`. The difference is recorded under "## Findings".

## Model

| member | source | states |
|---|---|---|
| Bars.ParsePeriod | vnpy/trader/app/dataRecorder/drChecker.py:12-13 | exactly `1min` and `1day` are known periods, and a parsed period prints back as its key |
| Bars.TimeDelta | vnpy/trader/app/dataRecorder/drChecker.py:13 | every period's step is positive |
| Bars.Truncate | vnpy/trader/app/dataRecorder/drChecker.py:37 | the result is a whole minute at most 59 seconds before the input: seconds are cleared and nothing else |
| Bars.TimesOcc | vnpy/trader/app/dataRecorder/drChecker.py:150 | a timestamp is among the stored `datetime`s iff some record carries it |
| Bars.LastAt | vnpy/trader/app/dataRecorder/drChecker.py:233-237 | the record a timestamp keys after the query is filed is the last record carrying it, and none iff no record carries it |
| Store.Query | vnpy/trader/app/dataRecorder/drChecker.py:269-270 | the query is sorted by time; at each timestamp at or after `since` it holds exactly the collection's records there, in stored order; before `since`, and with no client, it holds nothing |
| Store.SortByTime | vnpy/trader/app/dataRecorder/drChecker.py:101 | sorting by `datetime` yields a time-ordered permutation |
| Store.SortByTimeOcc | vnpy/trader/app/dataRecorder/drChecker.py:101 | the sort is stable: the records at each timestamp keep their stored order |
| Store.DeleteOneRemovesFirst | vnpy/trader/app/dataRecorder/drChecker.py:222-225 | `delete_one` removes exactly the first record matching the filter |
| Store.DeleteOneNoMatch | vnpy/trader/app/dataRecorder/drChecker.py:222-225 | a filter that matches nothing leaves the collection unchanged |
| Store.ApplyAllRecords | vnpy/trader/app/dataRecorder/drChecker.py:198-204 | applying a write log changes a collection exactly by the writes addressed to it, and only with a client |
| Store.OccReplay | vnpy/trader/app/dataRecorder/drChecker.py:222-225 | writes act per timestamp: a timestamp's records after replay are its records replayed under the writes pinned to it |
| Scanner.GridShape | vnpy/trader/app/dataRecorder/drChecker.py:147-161 | the i-th point checked is `s + i*Δ`; the last is within `until` and the next would not be |
| Scanner.GridMembers | vnpy/trader/app/dataRecorder/drChecker.py:155-161 | a timestamp is checked iff it lies in `[s, until]`, both ends included, on the Δ-lattice from `s` |
| Scanner.GridShortWindow | vnpy/trader/app/dataRecorder/drChecker.py:155-161 | a window shorter than one step still checks its single start point |
| Scanner.WalkGrid | vnpy/trader/app/dataRecorder/drChecker.py:151-160 | the loop counts every grid point from its start up to `until` and reports, in order, those absent from the stored timestamps |
| Scanner.CheckMissing | vnpy/trader/app/dataRecorder/drChecker.py:146-163 | reports, strictly ascending, exactly the lattice points from `since` with seconds cleared up to `until` inclusive that no stored record carries; the missing counter is their number and the total counter the number of points checked |
| Scanner.AbsentPlusPresent | vnpy/trader/app/dataRecorder/drChecker.py:155-161 | missing points plus found points equals the number of points checked |
| Scanner.MissedPoints | vnpy/trader/app/dataRecorder/drChecker.py:146-163 | the reported points, described without the loop: ascending, on the grid, carried by no record |
| Scanner.AbsentMembers | vnpy/trader/app/dataRecorder/drChecker.py:157-158 | a grid point is reported iff it is not among the stored timestamps |
| Scanner.AbsentTwice | vnpy/trader/app/dataRecorder/drChecker.py:119-123 | rescanning what one scan reported, against the remote's timestamps, equals scanning the grid against any store covering both |
| Scanner.CheckDuplicates | vnpy/trader/app/dataRecorder/drChecker.py:166-189 | returns the duplicate groups of the query, and the counter is its length minus its number of distinct timestamps |
| Scanner.DuplicateGroupsMeaning | vnpy/trader/app/dataRecorder/drChecker.py:166-189 | a timestamp has a group iff at least two records carry it, and the group is a permutation of exactly those records |
| Scanner.DupScanDone | vnpy/trader/app/dataRecorder/drChecker.py:175-189 | after the whole query, each group lists the second record seen first, the first record second, and the rest in order |
| Scanner.TimeSetBound | vnpy/trader/app/dataRecorder/drChecker.py:189 | there are never more distinct timestamps than records, so the duplicate counter is a natural number |
| Corrective.Selected | vnpy/trader/app/dataRecorder/drChecker.py:196-197 | the bars chosen for backfill are, at each timestamp, the remote's bars there when it was missed and none otherwise |
| Corrective.PersistWrites | vnpy/trader/app/dataRecorder/drChecker.py:192-205 | the collection receives one insert per remote bar stamped at a missed point, in remote order, and the alias the same inserts; the counter counts the primary inserts |
| Corrective.PersistEffect | vnpy/trader/app/dataRecorder/drChecker.py:192-205 | after backfill each timestamp holds its old records followed by the remote bars selected there |
| Corrective.ReplayInserts | vnpy/trader/app/dataRecorder/drChecker.py:198 | inserting a sequence of bars appends them in order |
| Corrective.MirroredStep | vnpy/trader/app/dataRecorder/drChecker.py:199-201 | a mirrored write block addresses the collection with exactly the primary writes and the alias with the same writes retargeted |
| Corrective.RemoveDuplicatesWrites | vnpy/trader/app/dataRecorder/drChecker.py:208-229 | de-duplication writes to the collection exactly the unmirrored deletes, mirrors each to the alias, and counts the primary deletes |
| Corrective.RemoveDuplicatesMembers | vnpy/trader/app/dataRecorder/drChecker.py:208-229 | a delete is issued iff it names the volume and time of a group member whose volume differs from the remote bar at that time; groups without a remote bar get none |
| Corrective.DropOthersMembers | vnpy/trader/app/dataRecorder/drChecker.py:216-226 | within one group, a delete is issued exactly for each member whose volume differs from the remote volume |
| Corrective.ReplayDropOthers | vnpy/trader/app/dataRecorder/drChecker.py:216-226 | replaying one group's deletes on that timestamp's records leaves exactly those carrying the remote volume |
| Corrective.RemoveDuplicatesAt | vnpy/trader/app/dataRecorder/drChecker.py:208-229 | with one remote bar per timestamp, the only deletes at a timestamp are its group thinned against that bar |
| Corrective.FixWrites | vnpy/trader/app/dataRecorder/drChecker.py:232-262 | the fix writes to the collection exactly the replacement pairs, and the alias receives the same pairs retargeted |
| Corrective.FixCounts | vnpy/trader/app/dataRecorder/drChecker.py:232-262 | one delete-then-insert pair per discrepancy; discrepancies ≤ compared points ≤ remote bars |
| Corrective.FixQuiet | vnpy/trader/app/dataRecorder/drChecker.py:241-256 | the fix writes nothing iff every remote bar either has no local record or agrees with the last one on volume and close |
| Corrective.FixAt | vnpy/trader/app/dataRecorder/drChecker.py:241-256 | the only writes at a timestamp replace its last local record by the remote bar there, exactly when they differ |
| Corrective.PersistMissing | vnpy/trader/app/dataRecorder/drChecker.py:192-205 | backfill inserts only bars at missed points, at most one per remote bar, with one write per counted bar and one more when the alias is set |
| Corrective.RemoveDuplicates | vnpy/trader/app/dataRecorder/drChecker.py:208-229 | de-duplication writes one delete per counted record, two with an alias, and nothing without remote bars or groups |
| Corrective.FixDifferent | vnpy/trader/app/dataRecorder/drChecker.py:232-262 | the fix log is a sequence of pairs, each a volume-and-close delete followed by an insert at the same time |
| Convergence.ScanAligned | vnpy/trader/app/dataRecorder/drChecker.py:146-163 | the corrected scan reports a point iff it is on the grid from `since` with seconds cleared, within `until`, and carried by no stored record |
| Convergence.AlignedScansAgree | vnpy/trader/app/dataRecorder/drChecker.py:100-104 | on a whole-minute `since` the scan as written and the corrected scan coincide |
| Convergence.UnalignedWindowDuplicates | vnpy/trader/app/dataRecorder/drChecker.py:100-104 | as written, a bar stored at second 0 is reported missing by the window 30..60, and backfilling that report stores a second bar at second 0 |
| Convergence.AlignedFillNoDuplicates | vnpy/trader/app/dataRecorder/drChecker.py:192-205 | after the corrected scan, backfill leaves each timestamp either untouched or, having had no record, holding exactly the remote's bars |
| Convergence.FillConverges | vnpy/trader/app/dataRecorder/drChecker.py:192-205 | backfilling the corrected scan's report and scanning again reports exactly the missed points the remote had no bar for |
| Convergence.DedupConverges | vnpy/trader/app/dataRecorder/drChecker.py:208-229 | de-duplication leaves, at a duplicated timestamp the remote knows, exactly the records with the remote volume, and every other timestamp unchanged |
| Convergence.FixIdempotent | vnpy/trader/app/dataRecorder/drChecker.py:232-262 | after one fix, a fresh query gives a second fix nothing to write |
| Convergence.FixSettles | vnpy/trader/app/dataRecorder/drChecker.py:232-262 | after the fix, the last local record at each remote bar's time is absent or agrees with it |
| Checker.FirstEntryWins | vnpy/trader/app/dataRecorder/drChecker.py:62-70 | the registered symbols are exactly those listed, each with its first entry, visited once each |
| Checker.RegisterBarsShape | vnpy/trader/app/dataRecorder/drChecker.py:62-70 | a symbol is registered exactly when some entry names it, and the visiting order lists each registered symbol once |
| Checker.RegisterBarsFirst | vnpy/trader/app/dataRecorder/drChecker.py:62-70 | the entry registered for a symbol is the first entry that names it |
| Checker.InvertAliasesMeaning | vnpy/trader/app/dataRecorder/drChecker.py:72-74 | the inverted alias map is keyed by exactly the aliased symbols, each mapped to its last listed alias |
| Checker.InvertAliasesRoundTrip | vnpy/trader/app/dataRecorder/drChecker.py:72-74 | with distinct targets, each listed pair is recovered from the inversion |
| Checker.LoadSettings | vnpy/trader/app/dataRecorder/drChecker.py:46-74 | a missing or unknown period is an error; otherwise the flags default to false, the symbols and their entries are the `bar` section registered first-entry-first, and the aliases are the `active` section inverted; absent sections leave them empty |
| Checker.LoadSettingsMeaning | vnpy/trader/app/dataRecorder/drChecker.py:62-74 | a loaded file lists exactly the symbols some `bar` entry names, each once and with its first entry, and maps each aliased symbol to the last alias naming it |
| Checker.Now | vnpy/trader/app/dataRecorder/drChecker.py:37 | `now` is a whole minute, at least two and less than three minutes before the clock |
| Checker.OkexMaxDelta | vnpy/trader/app/dataRecorder/drChecker.py:342-343 | the okex lookback is two days for `1min` and absent for `1day` |
| Checker.Lookback | vnpy/trader/app/dataRecorder/drChecker.py:84-90 | a period with no lookback entry is the `KeyError`; a zero lookback falls back to four weeks; otherwise `since = now − lookback` |
| Checker.ResolveOkexFutureVtSymbol | vnpy/trader/app/dataRecorder/drChecker.py:314-316 | resolves iff the symbol has exactly three `:`-fields, giving the first two |
| Checker.ResolveRoundTrip | vnpy/trader/app/dataRecorder/drChecker.py:314-316 | `symbol:contract:rest` with no further `:` resolves to (symbol, contract) |
| Checker.RequestRemoteFutureData | vnpy/trader/app/dataRecorder/drChecker.py:298-311 | an unresolvable symbol or a failed request yields no rows; otherwise the rows the kline URL answers with |
| Checker.ToBars | vnpy/trader/app/dataRecorder/drChecker.py:319-339 | one bar per row, carrying the row's time and prices, the symbol, and the gateway marked back-filled |
| Checker.NewChecker | vnpy/trader/app/dataRecorder/drChecker.py:23-43 | a checker exists iff its settings load; it starts with an empty cache, no findings and no writes |
| Checker.GetRemoteBarData | vnpy/trader/app/dataRecorder/drChecker.py:137-143 | a cached symbol is answered from the cache with nothing changed; an uncached symbol fails iff it is unknown or spot, and otherwise is answered and cached with the bars converted from the rows the kline request returns; cached entries are never changed |
| Checker.GetRemoteBarDataSound | vnpy/trader/app/dataRecorder/drChecker.py:137-143 | each symbol is fetched at most once per checker, and cached exactly when fetched |
| Checker.ScanCollections | vnpy/trader/app/dataRecorder/drChecker.py:99-109 | the scan touches neither the store, the write log nor the cache |
| Checker.ScanKeepsNonEmpty | vnpy/trader/app/dataRecorder/drChecker.py:106-109 | only non-empty findings are ever recorded |
| Checker.ScanRecordsMissing | vnpy/trader/app/dataRecorder/drChecker.py:100-109 | after the scan a symbol's recorded missing points are the corrected scan's report when it is non-empty, and otherwise whatever was there before |
| Checker.ScanRecordsDuplicates | vnpy/trader/app/dataRecorder/drChecker.py:100-109 | the same for the duplicate groups |
| Checker.ScanOne | vnpy/trader/app/dataRecorder/drChecker.py:100-109 | scanning one symbol changes only its own entries in the findings, and records an entry only when it is non-empty |
| Checker.RecordIf | vnpy/trader/app/dataRecorder/drChecker.py:106-109 | an entry is stored under the key exactly when asked to, and every other key is unchanged |
| Checker.RunCheckBetween | vnpy/trader/app/dataRecorder/drChecker.py:94-98 | a window with `since >= until` returns at once, with no query, fetch or write |
| Checker.ScanOnlyRun | vnpy/trader/app/dataRecorder/drChecker.py:111-134 | with every corrective flag off, a run leaves the store, the write log and the cache unchanged and raises nothing |
| Checker.RunCheckBetweenSound | vnpy/trader/app/dataRecorder/drChecker.py:94-134 | an empty window changes nothing; otherwise the log is the scan's log, then exactly the de-duplication stage's writes, then exactly the backfill stage's writes, then the fix writes, and the cache stays sound |
| Checker.FlagsGateWrites | vnpy/trader/app/dataRecorder/drChecker.py:111-134 | a write of a run is a volume-only delete only when `removeDuplicates` is set, a volume-and-close delete only when `fixDifference` is set, and an insert only when `fillData` or `fixDifference` is set |
| Checker.StageBounds | vnpy/trader/app/dataRecorder/drChecker.py:111-134 | a run's log after the scan splits into de-duplication, backfill and fix segments, and each segment is empty when its flag is off |
| Checker.CorrectSound | vnpy/trader/app/dataRecorder/drChecker.py:111-134 | the corrective part of a run has the de-duplication stage's log as its first segment and the backfill stage's log as its second, with deletes, then inserts, then replacement writes, and keeps the cache invariant |
| Checker.ChainOrdered | vnpy/trader/app/dataRecorder/drChecker.py:111-134 | three phases run in sequence produce a log split into their writes in phase order |
| Checker.DedupPhaseSound | vnpy/trader/app/dataRecorder/drChecker.py:111-115 | the de-duplication phase appends only deletes |
| Checker.DedupPhaseKeepsFindings | vnpy/trader/app/dataRecorder/drChecker.py:111-115 | the de-duplication phase leaves the recorded missing points and duplicate groups as the scan left them |
| Checker.DedupPhase | vnpy/trader/app/dataRecorder/drChecker.py:111-115 | de-duplication changes only the store, the log and the cache, fails only for an unknown, spot or unaliased symbol, and on success has fetched every duplicated symbol |
| Checker.FillPhase | vnpy/trader/app/dataRecorder/drChecker.py:119-123 | backfill changes only the store, the log and the cache, fails only for an unknown, spot or unaliased symbol, and on success has fetched every symbol with missing points |
| Checker.FixPhase | vnpy/trader/app/dataRecorder/drChecker.py:127-132 | the fix changes only the store, the log and the cache, fails only for an unknown, spot or unaliased symbol, and on success has fetched every listed symbol |
| Checker.Correct | vnpy/trader/app/dataRecorder/drChecker.py:111-134 | the corrective part keeps the settings and `now`, fails only for an unknown, spot or unaliased symbol, and with every flag off is the scan itself |
| Checker.FillPhaseSound | vnpy/trader/app/dataRecorder/drChecker.py:119-123 | the backfill phase appends only inserts |
| Checker.FixPhaseSound | vnpy/trader/app/dataRecorder/drChecker.py:127-132 | the fix phase appends only replacement writes |
| Checker.BestEffortRun | vnpy/trader/app/dataRecorder/drChecker.py:84-91 | for `1day` the okex checker raises before scanning; for `1min` it checks the last two days up to `now` |
| Checker.BestEffortWindowAligned | vnpy/trader/app/dataRecorder/drChecker.py:84-91 | the best-effort window starts on a whole minute, so its scan is the corrected one |
| Delta.OrDefault | vnpy/trader/app/alertService/deltaCalculator.py:35-36 | a missing or zero setting takes the default, any other value is kept |
| Delta.InitialBudgetMeaning | vnpy/trader/app/alertService/deltaCalculator.py:37-38 | every configured strategy, and nothing else, starts with its `maxAlertTimes` |
| Delta.LoadSettings | vnpy/trader/app/alertService/deltaCalculator.py:24-38 | each missing key is the `KeyError` in source order; otherwise the calculator starts unready, with counter 0 and the given or default timing |
| Delta.TimeToRun | vnpy/trader/app/alertService/deltaCalculator.py:100-105 | the counter advances, fires exactly on reaching warming + frequency, and then resets to warming |
| Delta.SchedulerCount | vnpy/trader/app/alertService/deltaCalculator.py:100-105 | after n calls from 0 the counter is n before the first firing and warming + (n − warming) mod frequency after it |
| Delta.SchedulerFires | vnpy/trader/app/alertService/deltaCalculator.py:100-105 | from 0, call n fires iff n ≥ warming + frequency and n − warming is a multiple of the frequency |
| Delta.ToSpotVtSymbol | vnpy/trader/app/alertService/deltaCalculator.py:96-97 | defined iff the name has at least three `.`-fields |
| Delta.ToSpotVtSymbolOfJoin | vnpy/trader/app/alertService/deltaCalculator.py:96-97 | the spot symbol is the first and third `.`-fields joined by `.` |
| Delta.UpdateExchangeAccountInfo | vnpy/trader/app/alertService/deltaCalculator.py:64-83 | records balance and margin under the account id and changes nothing else |
| Delta.UpdatePrices | vnpy/trader/app/alertService/deltaCalculator.py:60-61 | records the tick's last price under its symbol and changes nothing else |
| Delta.UpdateExchangePositionInfo | vnpy/trader/app/alertService/deltaCalculator.py:47-55 | stores the position under its name; the holdings of `symbol.future.exchange` are its old names, kept in order, plus this name appended once if it was new; other accounts and books are unchanged |
| Delta.PositionUpdateSound | vnpy/trader/app/alertService/deltaCalculator.py:52-55 | holdings stay duplicate-free and name only known positions |
| Delta.PositionUpdateIdempotent | vnpy/trader/app/alertService/deltaCalculator.py:47-55 | applying the same position update twice equals applying it once |
| Delta.NeedPrice | vnpy/trader/app/alertService/deltaCalculator.py:86-93 | true when some position name starts with the tick's symbol, else true iff some balance account's spot symbol equals it; a malformed account name raises |
| Delta.ReadyMeaning | vnpy/trader/app/alertService/deltaCalculator.py:108-119 | an unready calculator becomes ready iff every strategy's account has a balance and every balance account's spot symbol has a live price |
| Delta.AreYouReady | vnpy/trader/app/alertService/deltaCalculator.py:108-119 | once ready, it answers ready without checking; a ready answer latches the flag; a not-ready answer changes nothing |
| Delta.NetIsLongMinusOther | vnpy/trader/app/alertService/deltaCalculator.py:138-144 | the net future position is the sum of long holdings minus the sum of all other holdings |
| Delta.NetFuturePosition | vnpy/trader/app/alertService/deltaCalculator.py:139-140 | it raises iff some holding names an unknown position |
| Delta.Budget | vnpy/trader/app/alertService/deltaCalculator.py:161-170 | alerts iff abs(percentDiff) > threshold and budget remains, and the budget drops by one exactly then |
| Delta.BudgetNeverNegative | vnpy/trader/app/alertService/deltaCalculator.py:161-170 | over any sequence of checks from a non-negative budget, the number of alerts is the smaller of the budget and the exceeding checks, and the budget never goes below zero |
| Delta.RunDeltaCheckFromMeaning | vnpy/trader/app/alertService/deltaCalculator.py:122-175 | a completed check gives one result per strategy, in order; each alerts iff its difference exceeds its threshold with budget left, and only then is its budget spent |
| Delta.CheckStrategyNets | vnpy/trader/app/alertService/deltaCalculator.py:125-159 | a successful result carries the account's net future position over its known holdings |
| Delta.CheckStrategy | vnpy/trader/app/alertService/deltaCalculator.py:124-174 | a missing budget, local position, balance, spot symbol, live price or holdings list is reported in that source order; a result carries the strategy, local position, balance, live spot price and net future position, and alerts iff the difference exceeds the threshold and budget remains |
| Delta.RunDeltaCheckKeepsBudget | vnpy/trader/app/alertService/deltaCalculator.py:161-170 | every budget stays non-negative across a check |
| Alerts.NewEngine | vnpy/trader/app/alertService/alertEngine.py:16-30 | the engine exists iff the calculator's settings load, and starts with no timer and no latch set |
| Alerts.OrderNotifiesIffFilled | vnpy/trader/app/alertService/alertEngine.py:44-51 | an order event notifies each alerter of the order iff the order is fully traded; any other status notifies nobody |
| Alerts.FillNotices | vnpy/trader/app/alertService/alertEngine.py:50-51 | one fill notice per alerter, in alerter order |
| Alerts.PositionGuard | vnpy/trader/app/alertService/alertEngine.py:54-56 | a position reaches the calculator iff its size and its price are both positive; otherwise nothing changes |
| Alerts.AccountSound | vnpy/trader/app/alertService/alertEngine.py:59-67 | a non-positive balance changes nothing; a positive one records the account in the calculator; the timer starts ticking iff it already was or the balance is positive |
| Alerts.OnAccount | vnpy/trader/app/alertService/alertEngine.py:59-67 | a non-positive balance leaves the engine as it was; a positive one updates the calculator's account books and nothing else of the calculator; the alerters and the latch are kept |
| Alerts.ProcessSound | vnpy/trader/app/alertService/alertEngine.py:44-103 | every event keeps the single timer registration, the budget floor and the latches; ticking starts only on an account event with positive balance |
| Alerts.TraceSound | vnpy/trader/app/alertService/alertEngine.py:44-103 | over any event trace the timer is registered at most once, budgets stay non-negative and latches stay set |
| Alerts.TickGuard | vnpy/trader/app/alertService/alertEngine.py:70-73 | a tick updates the live price iff the calculator needs it; otherwise the engine is unchanged |
| Alerts.OnTick | vnpy/trader/app/alertService/alertEngine.py:70-73 | raises iff the price check does; the live price of the tick's symbol is updated iff the calculator needs it; nothing but the books changes |
| Alerts.OnTimer | vnpy/trader/app/alertService/alertEngine.py:76-77 | before the first positive-balance account event, timer events do nothing |
| Alerts.MonitorSound | vnpy/trader/app/alertService/alertEngine.py:87-103 | the monitor keeps the latches and never registers the timer |
| Alerts.RunDeltaMonitor | vnpy/trader/app/alertService/alertEngine.py:87-103 | when the scheduler does not fire only the counter advances; a notice is sent only when it fires on a ready calculator; the latch changes only when it fires on an unready one |
| Alerts.MonitorIdle | vnpy/trader/app/alertService/alertEngine.py:88 | a timer event whose scheduler does not fire advances the counter and does nothing else |
| Alerts.MonitorNotices | vnpy/trader/app/alertService/alertEngine.py:87-97 | when the scheduler fires on a calculator that is or becomes ready and the check completes, the notices are exactly (alerter, result) for each result asking for an alert, in the order the hedge-notice lemmas state |
| Alerts.HedgeNoticesMeaning | vnpy/trader/app/alertService/alertEngine.py:92-97 | a hedge notice exists iff its result asks for an alert and its alerter is registered |
| Alerts.HedgeNoticesAppend | vnpy/trader/app/alertService/alertEngine.py:92-97 | results are handled in order: the notices of consecutive results follow one another |
| Alerts.HedgeNoticesOne | vnpy/trader/app/alertService/alertEngine.py:93-97 | a result asking for an alert notifies each alerter once, in alerter order, and any other result notifies nobody |
| Alerts.NotReadyLatches | vnpy/trader/app/alertService/alertEngine.py:98-103 | when the scheduler fires on an unready calculator, the "not running" latch is set and nothing is sent |
| Percent.Quote | vnpy/trader/app/alertService/alerter/aliyun/aliyun_clients.py:39-42 | quoting succeeds iff every character fits a byte, and never shortens the text |
| Percent.QuoteUnreserved | vnpy/trader/app/alertService/alerter/aliyun/aliyun_clients.py:39-42 | letters, digits and `_.-` quote to themselves |
| Percent.QuoteAlphabet | vnpy/trader/app/alertService/alerter/aliyun/aliyun_clients.py:39-42 | quoted text holds only unreserved characters and `%` |
| Percent.UnquoteQuote | vnpy/trader/app/alertService/alerter/aliyun/aliyun_clients.py:39-42 | unquoting undoes quoting |
| Percent.QuoteInjective | vnpy/trader/app/alertService/alerter/aliyun/aliyun_clients.py:39-42 | distinct texts never quote alike |
| Percent.QuoteAppend | vnpy/trader/app/alertService/alerter/aliyun/aliyun_clients.py:42 | quoting distributes over concatenation |
| Sms.GenerateParamString | vnpy/trader/app/alertService/alerter/aliyun/aliyun_clients.py:293-304 | the template parameter string starts with `{` and ends with `}` |
| Sms.ParamStringRoundTrip | vnpy/trader/app/alertService/alerter/aliyun/aliyun_clients.py:293-304 | for items and hostname without `"`, parsing the string gives back each `"k":"v"` entry in order, followed by `host` with the first ≤15 characters of the hostname |
| Sms.StatusCode | vnpy/trader/app/alertService/alerter/aliyun/aliyun_clients.py:127-132 | `Opn` iff not traded, `Esc` iff cancelled, `Done` for every other status |
| Sms.OrderType | vnpy/trader/app/alertService/alerter/aliyun/aliyun_clients.py:124-125 | the type is defined iff the symbol has at least two `:`-fields |
| Sms.OrderExchange | vnpy/trader/app/alertService/alerter/aliyun/aliyun_clients.py:124-126 | the exchange is defined iff the third `:`-field exists and has a second `.`-field |
| Sms.OrderFillItems | vnpy/trader/app/alertService/alerter/aliyun/aliyun_clients.py:119-136 | the message items exist iff type and exchange do; they are `#`-prefixed id, traded quantity with status code, price, exchange, total and type |
| Sms.OrderFillOfParts | vnpy/trader/app/alertService/alerter/aliyun/aliyun_clients.py:124-126 | for `sym:contract:venue.exchange`, the exchange is `exchange` and the type is sym `_` upper of contract's first two characters `_` upper of the direction's first character |
| Sms.SendOrderFillNotify | vnpy/trader/app/alertService/alerter/aliyun/aliyun_clients.py:119-136 | a message is sent iff the symbol yields both type and exchange |
| Sms.PriceTemplate | vnpy/trader/app/alertService/alerter/aliyun/aliyun_clients.py:174-179 | `GE` picks the up template, `LE` the down template, anything else the empty code |
| Sms.VersionsAgree | vnpy/trader/app/alertService/alerter/aliyun/aliyun_clients.py:52-92 | the V1 and V2 maps agree on every key except the version-specific ones |
| Sms.VersionsDiffer | vnpy/trader/app/alertService/alerter/aliyun/aliyun_clients.py:52-92 | V1 carries `RecNum`, `ParamString` and version 2016-09-27; V2 carries `PhoneNumbers`, `TemplateParam` and version 2017-05-25; neither carries the other's recipient key |
| Sms.FullParams | vnpy/trader/app/alertService/alerter/aliyun/aliyun_clients.py:309-312 | the chosen map carries the template and the recipient under the version's key, and no signature yet |
| Sms.SortByKey | vnpy/trader/app/alertService/alerter/aliyun/aliyun_clients.py:38 | sorting keeps exactly the same items |
| Sms.SortByKeyAscending | vnpy/trader/app/alertService/alerter/aliyun/aliyun_clients.py:38 | with distinct keys the sorted items are in strictly ascending key order |
| Sms.AscendingUnique | vnpy/trader/app/alertService/alerter/aliyun/aliyun_clients.py:38 | two key-ascending arrangements of the same items are identical |
| Sms.SlashQuoted | vnpy/trader/app/alertService/alerter/aliyun/aliyun_clients.py:43 | the literal `%2F` is `/` quoted |
| Sms.StringToSignShape | vnpy/trader/app/alertService/alerter/aliyun/aliyun_clients.py:36-43 | the string-to-sign is the method, `&%2F&`, and text that unquotes to the `&`-joined `key=quote(value)` segments in ascending key order |
| Sms.StringToSignOrderFree | vnpy/trader/app/alertService/alerter/aliyun/aliyun_clients.py:36-43 | the string-to-sign depends only on the items, not on the order the dictionary visits them in |
| Sms.BuildMySign | vnpy/trader/app/alertService/alerter/aliyun/aliyun_clients.py:36-49 | the signature is the HMAC keyed with secret + `&` over the string-to-sign, and fails iff the string-to-sign does |
| Sms.SignedRequest | vnpy/trader/app/alertService/alerter/aliyun/aliyun_clients.py:307-314 | a recipient's request fails iff its map cannot be quoted; otherwise it names that recipient and the template, and ends with the signature over everything before it |
| Sms.SendLoop | vnpy/trader/app/alertService/alerter/aliyun/aliyun_clients.py:307-320 | the requests sent are a prefix of the prepared ones; an HTTP error only for a request made; an unquotable map ends the loop before it is sent, a transport failure right after; every recipient is reached unless the loop ends in a failure |
| Sms.SendSms | vnpy/trader/app/alertService/alerter/aliyun/aliyun_clients.py:307-320 | request k goes to recipient k and is that recipient's signed request; an unquotable map stops the loop at the recipient whose request it is; without a failure every recipient is reached |
| Sms.LoopReachesEveryone | vnpy/trader/app/alertService/alerter/aliyun/aliyun_clients.py:307-320 | when no request raises, every prepared request is sent once, in order, HTTP errors included |
| Sms.LoopStopsAtFailure | vnpy/trader/app/alertService/alerter/aliyun/aliyun_clients.py:307-320 | the first request that raises ends the loop: the earlier ones are sent and no later one is tried |
| Sms.SendReachesEveryone | vnpy/trader/app/alertService/alerter/aliyun/aliyun_clients.py:307-320 | when every request can be signed and sent, each recipient receives exactly one correctly signed request, and an HTTP error on one does not skip the rest |
| Sms.UniqidNameErrorSendsNothing | vnpy/trader/app/alertService/alerter/aliyun/aliyun_clients.py:94-97 | with at least one recipient, `_sendSMS` as written sends no request and ends in the nonce failure, while the intended loop reaches every recipient whose request can be signed and sent |
| Text.SplitJoin | vnpy/trader/app/alertService/deltaCalculator.py:97 | splitting a join of separator-free fields gives the fields back |
| Text.Split | vnpy/trader/app/alertService/deltaCalculator.py:97 | splitting yields at least one separator-free field, and joining them gives the input back |
| Text.Take | vnpy/trader/app/alertService/alerter/aliyun/aliyun_clients.py:302 | a slice `[:n]` is the prefix of length min(n, len) |
| Text.LessTransitive | vnpy/trader/app/alertService/alerter/aliyun/aliyun_clients.py:38 | Python's string order, which `sorted` uses, is transitive |
| Text.LessTotal | vnpy/trader/app/alertService/alerter/aliyun/aliyun_clients.py:38 | Python's string order is total on distinct strings |

## Left out

- I/O is not modelled. This covers opening the settings files, JSON parsing, logging (`vtLogger.py`), `datetime.now()` and the wall clock. The parsed settings and the clock reading are parameters; logging has no effect.
- `vnpy/db/MongoDbClient.py` is not part of this model. It is replaced by the abstract store described above: a sorted range query, insert, and `delete_one` of the first match. Without a client, queries are empty and writes are no-ops.
- The no-client branches of `MongoDbClient` (lines 40, 50, 60 and 79) call `self.logger.error(msg)` with one argument, but the `VtLogger` that `runDataChecking.py` passes in requires an `error_id` as well, so those branches raise `TypeError`. The model does not carry this: its empty query and no-op writes are the branches as their authors evidently meant them, and the store module is not part of this model.
- The HTTP transport is not modelled. `requests.get` in `requestRemoteFutureData` becomes a map from URL to answered rows; a missing URL is a non-200 answer or a transport error. The tornado transport `exhange_rest.py` becomes a `respond` function with sent, HTTP-error and transport-failure answers.
- Checker.ToBars: the epoch-millisecond to local-time conversion and float parsing are left out. Rows carry integer timestamps and opaque price values.
- The float arithmetic of `runDeltaCheck` is left out: `round`, the deltas, and the division by `exchangeDelta`, which can divide by zero. The percentage difference is a parameter of the check.
- Numeric formatting in SMS messages is left out. Order quantities and prices (`round(float(...))`) are carried as their already-formatted text.
- `getPersistedLocalPosition` is a database query. It is a parameter returning the local position or nothing; nothing stands for the `IndexError` that `[0]` raises on the empty query result.
- HMAC-SHA1 (RFC 2104), base64 (section 4 of RFC 4648), the intended `uniqid` and the UTC `Timestamp` are parameters. `uniqid` as written always raises; see "## Findings". The model stops at the string-to-sign and the HMAC key.
- `requestRemoteSpotData` and the base class's abstract methods raise `NotImplementedError`. They are modelled only as the error a spot symbol's fetch returns.
- `runCheckUntilNow` only forwards to `runCheckBetween` with `now` and has no separate member.
- `klineLoader.py` and `runDataChecking.py` are not part of this model. They are a download loop and a sleep-based scheduler that calls `bestEffortRun`.
- `sendDeltaHedgeNotify`, `sendMarketDataErrorNotify` and their `_send…` helpers are left out. They only format fields into `_generateParamString` and `_sendSMS`, which are modelled.
- The texts of the platform's status and direction constants are left out. Statuses and directions are datatypes.
- `AlertEngine.__init__`'s wiring is left out: event-engine registration and alerter instances. Events arrive as a trace, alerters are names, and a notice stands for a call on an alerter.
- The `except Exception` branch of `updateExchangePositionInfo` is left out. Nothing in its pure part can raise.
- Python 2 dictionary iteration order is left out. Symbols, strategies and request items are visited in a fixed order: settings order, strategy list order and source order.
- Alerts.MonitorNotices: assumes every alerter call returns. In the code, `sendDeltaHedgeNotify` reaches `_sendSMS`, which raises NameError from `uniqid` (see "## Findings"), and a transport failure or an unquotable map raises too. Such an exception leaves `runDeltaMonitor` after the first call, so later alerters and later results are not notified. The model's notices are the calls the loop makes when none raises.
- Sms.SendPriceNotify has no contract of its own. Its template choice is stated by `Sms.PriceTemplate` and its sending by `Sms.SendReachesEveryone`.

- Checker.ScanRecordsMissing: states the findings of the corrected scan, whose store query starts at `since` with its seconds cleared. The code queries from the raw `since` (drChecker.py line 101); that behaviour is `Convergence.ScanAsWritten`, under "## Findings".
- Checker.ScanRecordsDuplicates: the duplicate groups come from the corrected query from `since` with its seconds cleared, not from the raw `since` of drChecker.py line 101.
- Checker.RunCheckBetween: its scan phase (`Checker.ScanOne`) uses the corrected query described under "## Findings", so for an unaligned `since` it does not reproduce the spurious missing point and the second stored bar of the code as written. With an aligned `since`, as `bestEffortRun` always passes, the two agree (`Convergence.AlignedScansAgree`).
- Convergence.FixIdempotent: relies on the modelled store returning records with equal `datetime` in insertion order, so a replacement bar is the last one at its time. MongoDB's `.sort(sortKey)` leaves the order of ties unspecified, and the model does not cover other tie orders.
- Convergence.FixSettles: relies on the same stable tie order as `Convergence.FixIdempotent`.
- Convergence.LastAfterReplace: assumes a replacement is appended after the other records at its time, which is the stable tie order above.
- Alerts.OrderNotifiesIffFilled: the log line of `processOrderEvent` is not modelled. It passes `json.dumps(event.__dict__)`, and the event carries an order object, which the JSON encoder is likely to reject with `TypeError` before any alerter is called. The event classes are not part of this model, so the lemma states the notification the handler goes on to make. It also assumes every `sendOrderFillNotify` call returns; a raising call would end the loop over alerters.
- Sms.SendReachesEveryone: states the intended loop, with a nonce that can always be drawn. As written, `uniqid` raises NameError on every call; see "## Findings" and `Sms.UniqidNameErrorSendsNothing`.

## Findings

| source | as written | input that shows it | evidently intended | confidence | as-written member | corrected member |
|---|---|---|---|---|---|---|
| vnpy/trader/app/dataRecorder/drChecker.py:101-147 | `runCheckBetween` queries the store from the raw `since`, but the missing-point grid starts at `since` with its seconds cleared. A record stored at that first minute is outside the query, so it is reported missing, and backfill stores a second record there. | A bar stored at second 0, with the window from second 30 to second 60 (period `1min`) | the query starts where the grid starts, so a stored point is never reported missing | not executed | `Convergence.ScanAsWritten`, shown by `Convergence.UnalignedWindowDuplicates` | `Convergence.ScanAligned`, with `Convergence.AlignedFillNoDuplicates` and `Convergence.FillConverges`; `Checker.ScanOne` uses it |
| vnpy/trader/app/alertService/alerter/aliyun/aliyun_clients.py:94-97 | `uniqid` calls `time.time()`, but the module imports neither `time` nor a module that provides it. Every `getFullParamsV1`/`getFullParamsV2` call therefore raises NameError, and `_sendSMS` stops at its first recipient before any request is signed or sent. | any `_sendSMS` call with at least one number in `REC_TEL_NO` | the module imports `time`, so every recipient receives one signed request | not executed | `Sms.SendSmsAsWritten`, shown by `Sms.UniqidNameErrorSendsNothing` | `Sms.SendSms`, with `Sms.SendReachesEveryone` |

=== FILE: alerts.dfy ===
/** `AlertEngine` as a state machine over an event trace: which events reach
    the delta calculator, which produce notices for the alerters, and the
    two one-shot latches (timer registration and the not-running flag).  An
    exception raised by a handler ends the trace. */
module Alerts {

  import opened Wrappers
  import opened Events
  import opened Delta

  /** A notification handed to one alerter. */
  datatype Notice =
    | OrderFillNotice(alerter: string, order: Order)
    | DeltaHedgeNotice(alerter: string, result: DeltaCheckResult)

  datatype Engine = Engine(
    calculator: Calculator,
    alerters: seq<string>,
    startTimeTicking: bool,
    timerRegistrations: nat,
    notRunningAlertSent: bool)

  /** The events the engine is registered for, and the timer. */
  datatype Event =
    | OrderEvent(order: Order)
    | PositionEvent(pos: Position)
    | AccountEvent(info: AccountInfo)
    | TickEvent(tick: Tick)
    | TimerEvent

  /** A handler's outcome: the engine after it, the notices it sent, and the
      exception it raised, if any. */
  datatype Step = Step(engine: Engine, notices: seq<Notice>, error: Option<DeltaError>)

  /** The constructor: a fresh calculator, no timer yet, latch clear. */
  function NewEngine(f: DeltaSettingsFile, alerters: seq<string>): (r: Result<Engine, DeltaError>)
    ensures r.Ok? <==> LoadSettings(f).Ok?
    ensures r.Ok? ==> r.value.calculator == LoadSettings(f).value && r.value.alerters == alerters
    ensures r.Ok? ==> Initial(r.value)
  {
    match LoadSettings(f)
    case Err(e) => Err(e)
    case Ok(c) => Ok(Engine(c, alerters, false, 0, false))
  }

  predicate Initial(e: Engine) {
    !e.startTimeTicking && e.timerRegistrations == 0 && !e.notRunningAlertSent
  }

  function WithBooks(e: Engine, b: Books): Engine {
    e.(calculator := e.calculator.(books := b))
  }

  /** One order-fill notice per alerter. */
  function FillNotices(alerters: seq<string>, o: Order): (ns: seq<Notice>)
    ensures |ns| == |alerters|
    ensures forall i :: 0 <= i < |alerters| ==> ns[i] == OrderFillNotice(alerters[i], o)
  {
    seq(|alerters|, i requires 0 <= i < |alerters| => OrderFillNotice(alerters[i], o))
  }

  /** For each result that asks for an alert, one delta-hedge notice per
      alerter. */
  function HedgeNotices(alerters: seq<string>, results: seq<DeltaCheckResult>): (ns: seq<Notice>)
    decreases |results|
  {
    if |results| == 0 then []
    else
      (if results[0].sendAlert then seq(|alerters|, i requires 0 <= i < |alerters| => DeltaHedgeNotice(alerters[i], results[0])) else [])
      + HedgeNotices(alerters, results[1..])
  }

  /** The hedge notices are exactly (alerter, result) for the results that
      ask for an alert. */
  lemma {:induction false} HedgeNoticesMeaning(alerters: seq<string>, results: seq<DeltaCheckResult>, n: Notice)
    ensures n in HedgeNotices(alerters, results) <==>
              n.DeltaHedgeNotice? && n.alerter in alerters && n.result in results && n.result.sendAlert
    decreases |results|
  {
    if |results| > 0 {
      HedgeNoticesMeaning(alerters, results[1..], n);
      var head := if results[0].sendAlert then seq(|alerters|, i requires 0 <= i < |alerters| => DeltaHedgeNotice(alerters[i], results[0])) else [];
      assert n in HedgeNotices(alerters, results) <==> n in head || n in HedgeNotices(alerters, results[1..]);
      assert results == [results[0]] + results[1..];
      if n in head {
        var i :| 0 <= i < |head| && head[i] == n;
        assert n.alerter == alerters[i];
      }
      if results[0].sendAlert && n.DeltaHedgeNotice? && n.result == results[0] && n.alerter in alerters {
        var i :| 0 <= i < |alerters| && alerters[i] == n.alerter;
        assert head[i] == n;
      }
    }
  }

  /** `processOrderEvent`: a fully traded order goes to every alerter; any
      other status notifies nobody. */
  function OnOrder(e: Engine, o: Order): (r: Step)
    ensures r.engine == e && r.error == None
  {
    if o.status == AllTraded then Step(e, FillNotices(e.alerters, o), None) else Step(e, [], None)
  }

  /** `processPositionEvent` / `runTradeCompleteMonitor`: only a position
      with positive size and price reaches the calculator. */
  function OnPosition(e: Engine, p: Position): (r: Step)
    ensures r.notices == [] && r.error == None
  {
    if p.position > 0 && p.price > 0.0 then Step(WithBooks(e, UpdateExchangePositionInfo(e.calculator.books, p)), [], None)
    else Step(e, [], None)
  }

  /** `processAccountEvent`: a positive balance updates the calculator, and
      the first such event registers the timer handler. */
  function OnAccount(e: Engine, info: AccountInfo): (r: Step)
    ensures r.notices == [] && r.error == None
    ensures !(info.balance > 0.0) ==> r == Step(e, [], None)
    ensures info.balance > 0.0 ==> r.engine.calculator == e.calculator.(books := UpdateExchangeAccountInfo(e.calculator.books, info))
    ensures r.engine.alerters == e.alerters && r.engine.notRunningAlertSent == e.notRunningAlertSent
  {
    if info.balance > 0.0 then
      var e1 := WithBooks(e, UpdateExchangeAccountInfo(e.calculator.books, info));
      if !e1.startTimeTicking then Step(e1.(startTimeTicking := true, timerRegistrations := e1.timerRegistrations + 1), [], None)
      else Step(e1, [], None)
    else Step(e, [], None)
  }

  /** `processTickEvent`: the live price is updated iff the calculator needs
      it; a malformed account name met on the way raises. */
  function OnTick(e: Engine, t: Tick): (r: Step)
    ensures r.notices == []
    ensures r.error.Some? <==> NeedPrice(e.calculator.books, t).Err?
    ensures r.engine == WithBooks(e, r.engine.calculator.books)
    ensures r.engine.calculator.books.livePrices ==
              if NeedPrice(e.calculator.books, t) == Ok(true) then e.calculator.books.livePrices[t.vtSymbol := t.lastPrice]
              else e.calculator.books.livePrices
  {
    match NeedPrice(e.calculator.books, t)
    case Err(err) => Step(e, [], Some(err))
    case Ok(need) => if need then Step(WithBooks(e, UpdatePrices(e.calculator.books, t)), [], None) else Step(e, [], None)
  }

  /** `runDeltaMonitor`: when the scheduler fires and the calculator is
      ready, a check runs and each alerting result goes to every alerter;
      when not ready, the not-running latch is set. */
  function RunDeltaMonitor(e: Engine, env: DeltaEnv): (r: Step)
    ensures !TimeToRun(e.calculator.scheduler).1 ==>
              r == Step(e.(calculator := e.calculator.(scheduler := TimeToRun(e.calculator.scheduler).0)), [], None)
    ensures r.notices != [] ==>
              TimeToRun(e.calculator.scheduler).1 &&
              AreYouReady(e.calculator.(scheduler := TimeToRun(e.calculator.scheduler).0)).1 == Ok(Ready)
    ensures r.engine.notRunningAlertSent != e.notRunningAlertSent ==>
              TimeToRun(e.calculator.scheduler).1 &&
              AreYouReady(e.calculator.(scheduler := TimeToRun(e.calculator.scheduler).0)).1.Ok? &&
              AreYouReady(e.calculator.(scheduler := TimeToRun(e.calculator.scheduler).0)).1.value.NotReady?
  {
    var (sched, fire) := TimeToRun(e.calculator.scheduler);
    var e1 := e.(calculator := e.calculator.(scheduler := sched));
    if !fire then Step(e1, [], None)
    else
      var (c2, answer) := AreYouReady(e1.calculator);
      match answer
      case Err(err) => Step(e1.(calculator := c2), [], Some(err))
      case Ok(NotReady(_)) => Step(e1.(calculator := c2, notRunningAlertSent := true), [], None)
      case Ok(Ready) =>
        var (c3, results) := RunDeltaCheck(c2, env);
        match results
        case Err(err) => Step(e1.(calculator := c3), [], Some(err))
        case Ok(rs) => Step(e1.(calculator := c3), HedgeNotices(e1.alerters, rs), None)
  }

  /** The timer reaches the engine only once its handler is registered. */
  function OnTimer(e: Engine, env: DeltaEnv): (r: Step)
    ensures !e.startTimeTicking ==> r == Step(e, [], None)
  {
    if e.startTimeTicking then RunDeltaMonitor(e, env) else Step(e, [], None)
  }

  function Process(e: Engine, ev: Event, env: DeltaEnv): Step {
    match ev
    case OrderEvent(o) => OnOrder(e, o)
    case PositionEvent(p) => OnPosition(e, p)
    case AccountEvent(info) => OnAccount(e, info)
    case TickEvent(t) => OnTick(e, t)
    case TimerEvent => OnTimer(e, env)
  }

  /** A trace of events, handled in order; the first exception ends it. */
  function RunTrace(e: Engine, evs: seq<Event>, env: DeltaEnv): (r: Step)
    decreases |evs|
  {
    if |evs| == 0 then Step(e, [], None)
    else
      var s := Process(e, evs[0], env);
      if s.error.Some? then s
      else
        var rest := RunTrace(s.engine, evs[1..], env);
        Step(rest.engine, s.notices + rest.notices, rest.error)
  }

  // ------------------------------------------------------------------ lemmas

  /** A fully traded order notifies every alerter once; any other status
      notifies nobody. */
  lemma OrderNotifiesIffFilled(e: Engine, o: Order, env: DeltaEnv, n: Notice)
    ensures n in Process(e, OrderEvent(o), env).notices <==>
              o.status == AllTraded && n.OrderFillNotice? && n.order == o && n.alerter in e.alerters
  {
    var ns := Process(e, OrderEvent(o), env).notices;
    if o.status == AllTraded && n.OrderFillNotice? && n.order == o && n.alerter in e.alerters {
      var i :| 0 <= i < |e.alerters| && e.alerters[i] == n.alerter;
      assert ns[i] == n;
    }
  }

  /** A position reaches the calculator only with positive size and price. */
  lemma PositionGuard(e: Engine, p: Position, env: DeltaEnv)
    ensures !(p.position > 0 && p.price > 0.0) ==> Process(e, PositionEvent(p), env) == Step(e, [], None)
    ensures p.position > 0 && p.price > 0.0 ==>
              Process(e, PositionEvent(p), env).engine.calculator.books.positions == e.calculator.books.positions[p.vtPositionName := p]
  {
  }

  /** A tick changes the live prices iff the calculator needs it. */
  lemma TickGuard(e: Engine, t: Tick, env: DeltaEnv)
    ensures NeedPrice(e.calculator.books, t) == Ok(true) ==>
              Process(e, TickEvent(t), env).engine.calculator.books.livePrices == e.calculator.books.livePrices[t.vtSymbol := t.lastPrice]
    ensures NeedPrice(e.calculator.books, t) != Ok(true) ==> Process(e, TickEvent(t), env).engine == e
  {
  }

  /** The timer is registered at most once: the registration count is one
      exactly when ticking has started, and every handler keeps it so. */
  ghost predicate TimerOnce(e: Engine) {
    e.timerRegistrations == if e.startTimeTicking then 1 else 0
  }

  /** The latches and the budget floor that no handler undoes. */
  ghost predicate Latched(e: Engine, e': Engine) {
    && (e.startTimeTicking ==> e'.startTimeTicking)
    && (e.notRunningAlertSent ==> e'.notRunningAlertSent)
    && (e.calculator.isReady ==> e'.calculator.isReady)
    && e'.alerters == e.alerters
  }

  /** What every handler keeps: the single registration, the budget floor,
      and the latches. */
  ghost predicate Keeps(e: Engine, e': Engine) {
    (TimerOnce(e) ==> TimerOnce(e')) && (BudgetsNonNegative(e.calculator) ==> BudgetsNonNegative(e'.calculator)) && Latched(e, e')
  }

  lemma MonitorSound(e: Engine, env: DeltaEnv)
    ensures Keeps(e, RunDeltaMonitor(e, env).engine)
    ensures RunDeltaMonitor(e, env).engine.startTimeTicking == e.startTimeTicking
  {
    MonitorLatches(e, env);
    if BudgetsNonNegative(e.calculator) {
      MonitorBudget(e, env);
    }
  }

  /** The monitor touches only the calculator and the not-running latch, and
      never clears the readiness latch. */
  lemma MonitorLatches(e: Engine, env: DeltaEnv)
    ensures var e' := RunDeltaMonitor(e, env).engine;
            && e'.startTimeTicking == e.startTimeTicking && e'.timerRegistrations == e.timerRegistrations
            && e'.alerters == e.alerters && (e.notRunningAlertSent ==> e'.notRunningAlertSent)
            && (e.calculator.isReady ==> e'.calculator.isReady)
  {
    var (sched, fire) := TimeToRun(e.calculator.scheduler);
    var e1 := e.(calculator := e.calculator.(scheduler := sched));
    if fire {
      var (c2, answer) := AreYouReady(e1.calculator);
      assert e.calculator.isReady ==> c2.isReady;
      if answer == Ok(Ready) {
        assert RunDeltaCheck(c2, env).0.isReady == c2.isReady;
      }
    }
  }

  /** The monitor never drives a non-negative budget below zero. */
  lemma MonitorBudget(e: Engine, env: DeltaEnv)
    requires BudgetsNonNegative(e.calculator)
    ensures BudgetsNonNegative(RunDeltaMonitor(e, env).engine.calculator)
  {
    var (sched, fire) := TimeToRun(e.calculator.scheduler);
    var e1 := e.(calculator := e.calculator.(scheduler := sched));
    if fire {
      var (c2, answer) := AreYouReady(e1.calculator);
      assert c2.remainingAlerts == e.calculator.remainingAlerts;
      if answer == Ok(Ready) {
        RunDeltaCheckKeepsBudget(c2, 0, env);
      }
    }
  }

  lemma AccountSound(e: Engine, info: AccountInfo)
    ensures Keeps(e, OnAccount(e, info).engine)
    ensures !(info.balance > 0.0) ==> OnAccount(e, info) == Step(e, [], None)
    ensures info.balance > 0.0 ==> OnAccount(e, info).engine.calculator.books == UpdateExchangeAccountInfo(e.calculator.books, info)
    ensures OnAccount(e, info).engine.startTimeTicking <==> e.startTimeTicking || info.balance > 0.0
  {
  }

  lemma ProcessSound(e: Engine, ev: Event, env: DeltaEnv)
    ensures Keeps(e, Process(e, ev, env).engine)
    ensures ev.AccountEvent? ==>
              (Process(e, ev, env).engine.startTimeTicking <==> e.startTimeTicking || ev.info.balance > 0.0)
    ensures !ev.AccountEvent? ==> Process(e, ev, env).engine.startTimeTicking == e.startTimeTicking
  {
    match ev
    case OrderEvent(o) =>
    case PositionEvent(p) =>
    case AccountEvent(info) => AccountSound(e, info);
    case TickEvent(t) =>
    case TimerEvent => if e.startTimeTicking { MonitorSound(e, env); }
  }

  /** Over a whole trace: the timer is registered at most once, budgets stay
      non-negative, and no latch is undone. */
  lemma {:induction false} TraceSound(e: Engine, evs: seq<Event>, env: DeltaEnv)
    requires TimerOnce(e) && BudgetsNonNegative(e.calculator)
    ensures TimerOnce(RunTrace(e, evs, env).engine)
    ensures RunTrace(e, evs, env).engine.timerRegistrations <= 1
    ensures BudgetsNonNegative(RunTrace(e, evs, env).engine.calculator)
    ensures Latched(e, RunTrace(e, evs, env).engine)
    decreases |evs|
  {
    if |evs| > 0 {
      var s := Process(e, evs[0], env);
      ProcessSound(e, evs[0], env);
      if s.error.None? {
        TraceSound(s.engine, evs[1..], env);
      }
    }
  }

  /** A timer event on which the scheduler does not fire only advances the
      scheduler: no readiness check, no delta check, no notice. */
  lemma MonitorIdle(e: Engine, env: DeltaEnv)
    requires e.startTimeTicking && !TimeToRun(e.calculator.scheduler).1
    ensures Process(e, TimerEvent, env) ==
              Step(e.(calculator := e.calculator.(scheduler := TimeToRun(e.calculator.scheduler).0)), [], None)
  {
  }

  /** The not-running latch is set exactly when a registered timer fires on a
      calculator that is not ready. */
  lemma NotReadyLatches(e: Engine, env: DeltaEnv)
    requires e.startTimeTicking && !e.calculator.isReady
    requires TimeToRun(e.calculator.scheduler).1
    requires AreYouReady(e.calculator.(scheduler := TimeToRun(e.calculator.scheduler).0)).1.Ok?
    requires AreYouReady(e.calculator.(scheduler := TimeToRun(e.calculator.scheduler).0)).1.value.NotReady?
    ensures Process(e, TimerEvent, env).engine.notRunningAlertSent
    ensures Process(e, TimerEvent, env).notices == []
  {
  }

  /** When a registered timer fires, the calculator is (or becomes) ready
      and the check completes, the notices are exactly (alerter, result) for
      every result that asks for an alert, in result order and, within a
      result, in alerter order. */
  lemma MonitorNotices(e: Engine, env: DeltaEnv, n: Notice)
    requires e.startTimeTicking && TimeToRun(e.calculator.scheduler).1
    requires AreYouReady(e.calculator.(scheduler := TimeToRun(e.calculator.scheduler).0)).1 == Ok(Ready)
    requires RunDeltaCheck(AreYouReady(e.calculator.(scheduler := TimeToRun(e.calculator.scheduler).0)).0, env).1.Ok?
    ensures
      var rs := RunDeltaCheck(AreYouReady(e.calculator.(scheduler := TimeToRun(e.calculator.scheduler).0)).0, env).1.value;
      && (n in Process(e, TimerEvent, env).notices <==>
            n.DeltaHedgeNotice? && n.alerter in e.alerters && n.result in rs && n.result.sendAlert)
      && Process(e, TimerEvent, env).notices == HedgeNotices(e.alerters, rs)
  {
    var rs := RunDeltaCheck(AreYouReady(e.calculator.(scheduler := TimeToRun(e.calculator.scheduler).0)).0, env).1.value;
    HedgeNoticesMeaning(e.alerters, rs, n);
  }

  /** The notices of consecutive results follow one another: the results are
      handled in order. */
  lemma {:induction false} HedgeNoticesAppend(alerters: seq<string>, rs1: seq<DeltaCheckResult>, rs2: seq<DeltaCheckResult>)
    ensures HedgeNotices(alerters, rs1 + rs2) == HedgeNotices(alerters, rs1) + HedgeNotices(alerters, rs2)
    decreases |rs1|
  {
    if |rs1| == 0 {
      assert rs1 + rs2 == rs2;
    } else {
      assert (rs1 + rs2)[0] == rs1[0];
      assert (rs1 + rs2)[1..] == rs1[1..] + rs2;
      HedgeNoticesAppend(alerters, rs1[1..], rs2);
    }
  }

  /** One result asking for an alert notifies every alerter once, in alerter
      order; one that does not notifies nobody. */
  lemma HedgeNoticesOne(alerters: seq<string>, r: DeltaCheckResult)
    ensures |HedgeNotices(alerters, [r])| == if r.sendAlert then |alerters| else 0
    ensures forall i :: 0 <= i < |HedgeNotices(alerters, [r])| ==>
              HedgeNotices(alerters, [r])[i] == DeltaHedgeNotice(alerters[i], r)
  {
    assert [r][1..] == [];
  }
}

=== FILE: bars.dfy ===
/** The bar record shared by the store and the remote feed, the two configured
    periods, and the per-timestamp view of a record sequence that the scanner
    and the corrective phases reason with. */
module Bars {

  import opened Wrappers

  /** A point on the naive local clock, in whole seconds. */
  type Timestamp = int

  /** One OHLCV bar.  Prices and volume are only ever compared for equality,
      so they are kept as opaque integers. */
  datatype Bar = Bar(
    symbol: string,
    gatewayName: string,
    datetime: Timestamp,
    open: int,
    high: int,
    low: int,
    close: int,
    volume: int)

  /** The two periods the checker knows (`periodToDbNameMap`, `timeDeltaMap`). */
  datatype Period = OneMin | OneDay

  /** The database a period's bars live in. */
  datatype DbName = MinuteDb | DailyDb

  const MINUTE: int := 60
  const DAY: int := 86400

  function PeriodName(p: Period): string {
    match p
    case OneMin => "1min"
    case OneDay => "1day"
  }

  /** Looking a period key up in the two tables; None is the KeyError. */
  function ParsePeriod(key: string): (p: Option<Period>)
    ensures p.Some? <==> key == "1min" || key == "1day"
    ensures p.Some? ==> PeriodName(p.value) == key
  {
    if key == "1min" then Some(OneMin)
    else if key == "1day" then Some(OneDay)
    else None
  }

  function TargetDb(p: Period): DbName {
    match p
    case OneMin => MinuteDb
    case OneDay => DailyDb
  }

  /** The grid step of a period, in seconds. */
  function TimeDelta(p: Period): (d: int)
    ensures d > 0
  {
    match p
    case OneMin => MINUTE
    case OneDay => DAY
  }

  /** `t.replace(second=0, microsecond=0)`: only the seconds are cleared,
      whatever the period. */
  function Truncate(t: Timestamp): (r: Timestamp)
    ensures r <= t < r + MINUTE
    ensures r % MINUTE == 0
  {
    t - t % MINUTE
  }

  /** The timestamps of a record sequence, in order (`[b["datetime"] for b in dbData]`). */
  function Times(xs: seq<Bar>): (ts: seq<Timestamp>)
    ensures |ts| == |xs|
    ensures forall i :: 0 <= i < |xs| ==> ts[i] == xs[i].datetime
  {
    seq(|xs|, i requires 0 <= i < |xs| => xs[i].datetime)
  }

  /** The distinct timestamps of a record sequence. */
  function TimeSet(xs: seq<Bar>): set<Timestamp> {
    set b | b in xs :: b.datetime
  }

  /** The records stamped `t`, in sequence order. */
  function Occ(xs: seq<Bar>, t: Timestamp): seq<Bar>
    decreases |xs|
  {
    if |xs| == 0 then []
    else (if xs[0].datetime == t then [xs[0]] else []) + Occ(xs[1..], t)
  }

  lemma {:induction false} OccAppend(xs: seq<Bar>, ys: seq<Bar>, t: Timestamp)
    ensures Occ(xs + ys, t) == Occ(xs, t) + Occ(ys, t)
    decreases |xs|
  {
    if |xs| > 0 {
      assert (xs + ys)[0] == xs[0] && (xs + ys)[1..] == xs[1..] + ys;
      OccAppend(xs[1..], ys, t);
      var head := if xs[0].datetime == t then [xs[0]] else [];
      assert Occ(xs + ys, t) == head + Occ(xs[1..] + ys, t);
      assert head + (Occ(xs[1..], t) + Occ(ys, t)) == (head + Occ(xs[1..], t)) + Occ(ys, t);
    } else {
      assert xs + ys == ys;
    }
  }

  lemma {:induction false} OccMembers(xs: seq<Bar>, t: Timestamp)
    ensures forall b :: b in Occ(xs, t) <==> b in xs && b.datetime == t
    decreases |xs|
  {
    if |xs| > 0 {
      OccMembers(xs[1..], t);
      assert xs == [xs[0]] + xs[1..];
    }
  }

  lemma {:induction false} OccNone(xs: seq<Bar>, t: Timestamp)
    requires forall i :: 0 <= i < |xs| ==> xs[i].datetime != t
    ensures Occ(xs, t) == []
    decreases |xs|
  {
    if |xs| > 0 {
      OccNone(xs[1..], t);
    }
  }

  /** A timestamp is among the stored ones exactly when some record carries it. */
  lemma TimesOcc(xs: seq<Bar>, t: Timestamp)
    ensures t in Times(xs) <==> |Occ(xs, t)| > 0
    ensures t in TimeSet(xs) <==> |Occ(xs, t)| > 0
  {
    OccMembers(xs, t);
    if |Occ(xs, t)| > 0 {
      assert Occ(xs, t)[0] in Occ(xs, t);
    }
    if t in Times(xs) {
      var i :| 0 <= i < |xs| && Times(xs)[i] == t;
      assert xs[i] in Occ(xs, t);
    }
    if t in TimeSet(xs) {
      var b :| b in xs && b.datetime == t;
      assert b in Occ(xs, t);
    }
  }

  /** The last record stamped `t`: what `{b["datetime"]: b for b in dbData}.get(t)` yields. */
  function LastAt(xs: seq<Bar>, t: Timestamp): (r: Option<Bar>)
    ensures r.None? <==> |Occ(xs, t)| == 0
    ensures r.Some? ==> r.value == Occ(xs, t)[|Occ(xs, t)| - 1]
    decreases |xs|
  {
    if |xs| == 0 then None
    else
      var last := xs[|xs| - 1];
      var init := xs[..|xs| - 1];
      assert xs == init + [last];
      OccAppend(init, [last], t);
      if last.datetime == t then Some(last) else LastAt(init, t)
  }
}

=== FILE: checker.dfy ===
/** `okexMongoDataChecker` as a state record threaded through pure functions:
    settings parsing, the window of `bestEffortRun`, the per-checker remote
    cache, and `runCheckBetween` with its scan and its three flag-gated
    corrective phases in the fixed order de-duplicate, backfill, fix.  An
    exception that escapes a run is its `error`; whatever the run changed
    before it stays changed. */
module Checker {

  import opened Wrappers
  import opened Text
  import opened Bars
  import opened Store
  import opened Scanner
  import opened Corrective
  import opened Convergence

  // ---------------------------------------------------------------- settings

  /** One `bar` entry of the settings file: `[vtSymbol, gateway, isSpot]`. */
  datatype BarEntry = BarEntry(vtSymbol: string, gateway: string, isSpot: bool)

  /** The parsed settings file; an absent key is None.  `active` lists the
      alias object's `(activeSymbol, vtSymbol)` items in iteration order. */
  datatype SettingsFile = SettingsFile(
    period: Option<string>,
    fillData: Option<bool>,
    removeDuplicates: Option<bool>,
    fixDifference: Option<bool>,
    bar: Option<seq<BarEntry>>,
    active: Option<seq<(string, string)>>)

  datatype Settings = Settings(
    period: Period,
    fillData: bool,
    removeDuplicates: bool,
    fixDifference: bool,
    symbols: seq<string>,
    bars: map<string, BarEntry>,
    active: map<string, string>)

  /** The exceptions that escape the checker. */
  datatype CheckError =
    | MissingPeriod
    | UnknownPeriod(key: string)
    | UnknownSymbol(vtSymbol: string)
    | SpotUnsupported(vtSymbol: string)
    | AliasMissing(vtSymbol: string)
    | LookbackMissing(period: Period)

  /** `barSettingDict` and the order its symbols are visited in: an entry
      registers its symbol only if the symbol is not yet known. */
  datatype BarTable = BarTable(entries: map<string, BarEntry>, order: seq<string>)

  function RegisterBars(es: seq<BarEntry>): BarTable
    decreases |es|
  {
    if |es| == 0 then BarTable(map[], [])
    else
      var t := RegisterBars(es[..|es| - 1]);
      var e := es[|es| - 1];
      if e.vtSymbol in t.entries then t
      else BarTable(t.entries[e.vtSymbol := e], t.order + [e.vtSymbol])
  }

  predicate NoDuplicates<T(==)>(xs: seq<T>) {
    forall i, j :: 0 <= i < j < |xs| ==> xs[i] != xs[j]
  }

  /** The first entry for each symbol is the one kept; the visiting order
      lists each configured symbol once. */
  lemma FirstEntryWins(es: seq<BarEntry>)
    ensures forall s :: s in RegisterBars(es).entries <==> exists i :: 0 <= i < |es| && es[i].vtSymbol == s
    ensures forall i :: 0 <= i < |es| && (forall j :: 0 <= j < i ==> es[j].vtSymbol != es[i].vtSymbol) ==>
              RegisterBars(es).entries[es[i].vtSymbol] == es[i]
    ensures forall s :: s in RegisterBars(es).order <==> s in RegisterBars(es).entries
    ensures NoDuplicates(RegisterBars(es).order)
  {
    RegisterBarsShape(es);
    forall i | 0 <= i < |es| && (forall j :: 0 <= j < i ==> es[j].vtSymbol != es[i].vtSymbol)
      ensures RegisterBars(es).entries[es[i].vtSymbol] == es[i]
    {
      RegisterBarsFirst(es, i);
    }
  }

  /** The registered symbols are the listed ones, each visited once. */
  lemma {:induction false} RegisterBarsShape(es: seq<BarEntry>)
    ensures forall s :: s in RegisterBars(es).entries <==> exists i :: 0 <= i < |es| && es[i].vtSymbol == s
    ensures forall s :: s in RegisterBars(es).order <==> s in RegisterBars(es).entries
    ensures NoDuplicates(RegisterBars(es).order)
    decreases |es|
  {
    if |es| > 0 {
      var init := es[..|es| - 1];
      var e := es[|es| - 1];
      RegisterBarsShape(init);
      var t := RegisterBars(init);
      if e.vtSymbol !in t.entries {
        var o := t.order + [e.vtSymbol];
        forall i, j | 0 <= i < j < |o| ensures o[i] != o[j] {
          assert o[i] == t.order[i];
          if j < |t.order| {
            assert o[j] == t.order[j];
          }
        }
      }
      forall s | s in RegisterBars(es).entries ensures exists i :: 0 <= i < |es| && es[i].vtSymbol == s {
        if s != e.vtSymbol {
          var i :| 0 <= i < |init| && init[i].vtSymbol == s;
          assert es[i] == init[i];
        }
      }
      forall i | 0 <= i < |init| ensures es[i].vtSymbol in RegisterBars(es).entries {
        assert es[i] == init[i];
      }
    }
  }

  /** A symbol's first entry is the one registered. */
  lemma {:induction false} RegisterBarsFirst(es: seq<BarEntry>, i: nat)
    requires i < |es| && forall j :: 0 <= j < i ==> es[j].vtSymbol != es[i].vtSymbol
    ensures es[i].vtSymbol in RegisterBars(es).entries
    ensures RegisterBars(es).entries[es[i].vtSymbol] == es[i]
    decreases |es|
  {
    var init := es[..|es| - 1];
    var e := es[|es| - 1];
    var t := RegisterBars(init);
    RegisterBarsShape(init);
    if i < |init| {
      assert es[i] == init[i];
      assert forall j :: 0 <= j < i ==> init[j] == es[j];
      RegisterBarsFirst(init, i);
    } else {
      forall k | 0 <= k < |init| ensures init[k].vtSymbol != e.vtSymbol {
        assert init[k] == es[k];
      }
      assert e.vtSymbol !in t.entries;
    }
  }

  /** `{vtSymbol: activeSymbol for activeSymbol, vtSymbol in active.items()}`:
      when two aliases name the same symbol, the later item wins. */
  function InvertAliases(items: seq<(string, string)>): map<string, string>
    decreases |items|
  {
    if |items| == 0 then map[]
    else
      var last := items[|items| - 1];
      InvertAliases(items[..|items| - 1])[last.1 := last.0]
  }

  /** A symbol has an alias exactly when some item names it, and its alias is
      the last item naming it. */
  lemma {:induction false} InvertAliasesMeaning(items: seq<(string, string)>)
    ensures forall v :: v in InvertAliases(items) <==> exists i :: 0 <= i < |items| && items[i].1 == v
    ensures forall i :: 0 <= i < |items| && (forall j :: i < j < |items| ==> items[j].1 != items[i].1) ==>
              InvertAliases(items)[items[i].1] == items[i].0
    decreases |items|
  {
    if |items| > 0 {
      var init := items[..|items| - 1];
      InvertAliasesMeaning(init);
      forall i | 0 <= i < |init| ensures init[i] == items[i] { }
    }
  }

  /** With each symbol named once, inverting the alias items and looking a
      symbol up gives back its alias. */
  lemma InvertAliasesRoundTrip(items: seq<(string, string)>, i: nat)
    requires i < |items|
    requires forall j, k :: 0 <= j < k < |items| ==> items[j].1 != items[k].1
    ensures items[i].1 in InvertAliases(items)
    ensures InvertAliases(items)[items[i].1] == items[i].0
  {
    InvertAliasesMeaning(items);
  }

  /** `loadSettings`: the period must be present and known; flags default to
      false; symbols keep their first entry; aliases are inverted. */
  function LoadSettings(f: SettingsFile): (r: Result<Settings, CheckError>)
    ensures f.period.None? ==> r == Err(MissingPeriod)
    ensures f.period.Some? && ParsePeriod(f.period.value).None? ==> r == Err(UnknownPeriod(f.period.value))
    ensures r.Ok? <==> f.period.Some? && ParsePeriod(f.period.value).Some?
    ensures r.Ok? ==>
              && PeriodName(r.value.period) == f.period.value
              && r.value.fillData == f.fillData.GetOr(false)
              && r.value.removeDuplicates == f.removeDuplicates.GetOr(false)
              && r.value.fixDifference == f.fixDifference.GetOr(false)
              && (f.bar.None? ==> r.value.bars == map[] && r.value.symbols == [])
              && (f.active.None? ==> r.value.active == map[])
    ensures r.Ok? ==>
              && r.value.symbols == RegisterBars(f.bar.GetOr([])).order
              && r.value.bars == RegisterBars(f.bar.GetOr([])).entries
              && r.value.active == InvertAliases(f.active.GetOr([]))
  {
    match f.period
    case None => Err(MissingPeriod)
    case Some(key) =>
      match ParsePeriod(key)
      case None => Err(UnknownPeriod(key))
      case Some(p) =>
        var table := RegisterBars(f.bar.GetOr([]));
        Ok(Settings(p, f.fillData.GetOr(false), f.removeDuplicates.GetOr(false), f.fixDifference.GetOr(false),
                    table.order, table.entries, InvertAliases(f.active.GetOr([]))))
  }

  /** What a loaded settings file holds: the symbols are those some `bar`
      entry names, each listed once with its first entry, and each aliased
      symbol maps to the last alias naming it. */
  lemma LoadSettingsMeaning(f: SettingsFile)
    requires LoadSettings(f).Ok?
    ensures var st := LoadSettings(f).value; var es := f.bar.GetOr([]);
            && (forall s :: s in st.symbols <==> exists i :: 0 <= i < |es| && es[i].vtSymbol == s)
            && NoDuplicates(st.symbols)
            && (forall s :: s in st.bars <==> s in st.symbols)
            && (forall i :: 0 <= i < |es| && (forall j :: 0 <= j < i ==> es[j].vtSymbol != es[i].vtSymbol) ==>
                  st.bars[es[i].vtSymbol] == es[i])
    ensures var st := LoadSettings(f).value; var items := f.active.GetOr([]);
            && (forall v :: v in st.active <==> exists i :: 0 <= i < |items| && items[i].1 == v)
            && (forall i :: 0 <= i < |items| && (forall j :: i < j < |items| ==> items[j].1 != items[i].1) ==>
                  st.active[items[i].1] == items[i].0)
  {
    FirstEntryWins(f.bar.GetOr([]));
    InvertAliasesMeaning(f.active.GetOr([]));
  }

  // ------------------------------------------------------------------ window

  /** `dt.datetime.now().replace(second=0, microsecond=0) - dt.timedelta(minutes=2)`. */
  function Now(clock: Timestamp): (now: Timestamp)
    ensures now % MINUTE == 0
    ensures clock - 3 * MINUTE < now <= clock - 2 * MINUTE
  {
    Truncate(clock) - 2 * MINUTE
  }

  /** `DEFAULT_HISTORY_DELTA`: four weeks. */
  const DEFAULT_HISTORY: int := 28 * DAY

  /** `okexMongoDataChecker.initMaxDeltDict`: two days of history for `1min`,
      no entry for `1day`. */
  function OkexMaxDelta(): (m: map<Period, int>)
    ensures OneMin in m && m[OneMin] == 2 * DAY
    ensures OneDay !in m
  {
    map[OneMin := 2 * DAY]
  }

  /** The start of `bestEffortRun`'s window: a missing entry raises, a zero
      look-back falls back to four weeks. */
  function Lookback(maxDelta: map<Period, int>, p: Period, now: Timestamp): (r: Result<Timestamp, CheckError>)
    ensures p !in maxDelta <==> r == Err(LookbackMissing(p))
    ensures p in maxDelta && maxDelta[p] != 0 ==> r == Ok(now - maxDelta[p])
    ensures p in maxDelta && maxDelta[p] == 0 ==> r == Ok(now - DEFAULT_HISTORY)
  {
    if p !in maxDelta then Err(LookbackMissing(p))
    else if maxDelta[p] != 0 then Ok(now - maxDelta[p])
    else Ok(now - DEFAULT_HISTORY)
  }

  // ------------------------------------------------------------ remote feed

  /** One kline row as the exchange returns it, its time already converted. */
  datatype Row = Row(time: Timestamp, open: int, high: int, low: int, close: int, volume: int)

  /** The exchange, as the rows each URL answers with; an absent URL is a
      failed request (non-200 or transport error). */
  type Feed = map<string, seq<Row>>

  /** `toBars`: each row becomes a bar stamped with the symbol and the
      gateway marked as back-filled. */
  function ToBars(vtSymbol: string, gateway: string, rows: seq<Row>): (bars: seq<Bar>)
    ensures |bars| == |rows|
    ensures forall i :: 0 <= i < |rows| ==>
              && bars[i].symbol == vtSymbol && bars[i].gatewayName == gateway + "_BackFilled"
              && bars[i].datetime == rows[i].time && bars[i].volume == rows[i].volume
              && bars[i].close == rows[i].close && bars[i].open == rows[i].open
              && bars[i].high == rows[i].high && bars[i].low == rows[i].low
  {
    seq(|rows|, i requires 0 <= i < |rows| =>
      Bar(vtSymbol, gateway + "_BackFilled", rows[i].time, rows[i].open, rows[i].high, rows[i].low, rows[i].close, rows[i].volume))
  }

  /** `resolveOkexFutureVtSymbol`: exactly three `:`-separated fields give the
      symbol and the contract type; any other count is the caught ValueError. */
  function ResolveOkexFutureVtSymbol(vtSymbol: string): (r: Option<(string, string)>)
    ensures r.Some? <==> |Split(vtSymbol, ':')| == 3
    ensures r.Some? ==> ':' !in r.value.0 && ':' !in r.value.1
  {
    var parts := Split(vtSymbol, ':');
    if |parts| == 3 then Some((parts[0], parts[1])) else None
  }

  /** Joining a symbol, a contract type and a remainder, none holding `:`,
      resolves back to the symbol and the contract type. */
  lemma ResolveRoundTrip(symbol: string, contract: string, rest: string)
    requires ':' !in symbol && ':' !in contract && ':' !in rest
    ensures ResolveOkexFutureVtSymbol(symbol + ":" + contract + ":" + rest) == Some((symbol, contract))
  {
    var parts := [symbol, contract, rest];
    SplitJoin(parts, ':');
    assert parts[1..] == [contract, rest];
    assert parts[1..][1..] == [rest];
    assert Join([rest], ':') == rest;
    assert Join([contract, rest], ':') == contract + [':'] + rest;
    assert Join(parts, ':') == symbol + [':'] + (contract + [':'] + rest);
    assert symbol + ":" + contract + ":" + rest == symbol + [':'] + (contract + [':'] + rest);
  }

  /** `OKEX_HISTORICAL_FUTURE_KLINE % (symbol, period, contractType)`. */
  function FutureKlineUrl(symbol: string, period: string, contract: string): string {
    "https://www.okex.com/api/v1/future_kline.do?symbol=" + symbol + "&type=" + period + "&contract_type=" + contract
  }

  /** `requestRemoteFutureData`: every failure on the way yields no rows. */
  function RequestRemoteFutureData(feed: Feed, vtSymbol: string, period: Period): (rows: seq<Row>)
    ensures ResolveOkexFutureVtSymbol(vtSymbol).None? ==> rows == []
    ensures ResolveOkexFutureVtSymbol(vtSymbol).Some? ==>
              var (s, ct) := ResolveOkexFutureVtSymbol(vtSymbol).value;
              rows == if FutureKlineUrl(s, PeriodName(period), ct) in feed then feed[FutureKlineUrl(s, PeriodName(period), ct)] else []
  {
    match ResolveOkexFutureVtSymbol(vtSymbol)
    case None => []
    case Some((s, ct)) =>
      var url := FutureKlineUrl(s, PeriodName(period), ct);
      if url in feed then feed[url] else []
  }

  // ------------------------------------------------------------------- state

  datatype Checker = Checker(
    settings: Settings,
    now: Timestamp,
    db: Db,
    remoteBarData: map<string, seq<Bar>>,
    fetches: seq<string>,
    missingData: map<string, seq<Timestamp>>,
    duplicateData: map<string, map<Timestamp, seq<Bar>>>,
    log: seq<Write>)

  /** The constructor: settings loaded, `now` fixed, everything else empty. */
  function NewChecker(f: SettingsFile, clock: Timestamp, db: Db): (r: Result<Checker, CheckError>)
    ensures r.Ok? <==> LoadSettings(f).Ok?
    ensures r.Ok? ==> r.value.settings == LoadSettings(f).value && r.value.now == Now(clock) && r.value.db == db
    ensures r.Ok? ==> Fresh(r.value)
  {
    match LoadSettings(f)
    case Err(e) => Err(e)
    case Ok(s) => Ok(Checker(s, Now(clock), db, map[], [], map[], map[], []))
  }

  predicate Fresh(st: Checker) {
    st.remoteBarData == map[] && st.fetches == [] && st.missingData == map[] && st.duplicateData == map[] && st.log == []
  }

  /** What a run's outcome is: the checker afterwards and the exception, if
      one escaped. */
  datatype Run = Run(state: Checker, error: Option<CheckError>)

  /** `getRemoteBarData`: a cached symbol is answered from the cache; an
      uncached one is fetched once and cached.  Spot symbols raise. */
  function GetRemoteBarData(st: Checker, feed: Feed, vtSymbol: string): (r: (Checker, Result<seq<Bar>, CheckError>))
    ensures vtSymbol in st.remoteBarData ==> r == (st, Ok(st.remoteBarData[vtSymbol]))
    ensures r.1.Ok? ==> vtSymbol in r.0.remoteBarData && r.1.value == r.0.remoteBarData[vtSymbol]
    ensures r.1.Err? ==> r.0 == st
    ensures r.0 == st.(remoteBarData := r.0.remoteBarData, fetches := r.0.fetches)
    ensures r.1.Err? <==> vtSymbol !in st.remoteBarData && (vtSymbol !in st.settings.bars || st.settings.bars[vtSymbol].isSpot)
    ensures vtSymbol !in st.remoteBarData && vtSymbol in st.settings.bars && !st.settings.bars[vtSymbol].isSpot ==>
              r.1 == Ok(ToBars(vtSymbol, st.settings.bars[vtSymbol].gateway, RequestRemoteFutureData(feed, vtSymbol, st.settings.period)))
    ensures forall s :: s in st.remoteBarData ==> s in r.0.remoteBarData && r.0.remoteBarData[s] == st.remoteBarData[s]
  {
    if vtSymbol in st.remoteBarData then (st, Ok(st.remoteBarData[vtSymbol]))
    else if vtSymbol !in st.settings.bars then (st, Err(UnknownSymbol(vtSymbol)))
    else
      var entry := st.settings.bars[vtSymbol];
      if entry.isSpot then (st, Err(SpotUnsupported(vtSymbol)))
      else
        var bars := ToBars(vtSymbol, entry.gateway, RequestRemoteFutureData(feed, vtSymbol, st.settings.period));
        (st.(remoteBarData := st.remoteBarData[vtSymbol := bars], fetches := st.fetches + [vtSymbol]), Ok(bars))
  }

  /** The cache is the fetch record: each symbol fetched at most once, and
      cached exactly when fetched. */
  ghost predicate CacheSound(st: Checker) {
    && NoDuplicates(st.fetches)
    && (forall s :: s in st.fetches <==> s in st.remoteBarData)
  }

  /** What may only grow between two checker states: the write log, the
      cache, and the fetch record; the database follows the new writes. */
  ghost predicate Extends(st: Checker, st': Checker) {
    && st'.settings == st.settings && st'.now == st.now
    && |st.log| <= |st'.log| && st'.log[..|st.log|] == st.log
    && st'.db == ApplyAll(st.db, st'.log[|st.log|..])
    && (forall s :: s in st.remoteBarData ==> s in st'.remoteBarData && st'.remoteBarData[s] == st.remoteBarData[s])
    && |st.fetches| <= |st'.fetches| && st'.fetches[..|st.fetches|] == st.fetches
  }

  lemma GetRemoteBarDataSound(st: Checker, feed: Feed, vtSymbol: string)
    requires CacheSound(st)
    ensures CacheSound(GetRemoteBarData(st, feed, vtSymbol).0)
    ensures Extends(st, GetRemoteBarData(st, feed, vtSymbol).0)
    ensures GetRemoteBarData(st, feed, vtSymbol).0.log == st.log
  {
    var st' := GetRemoteBarData(st, feed, vtSymbol).0;
    assert st.log[..|st.log|] == st.log && st.log[|st.log|..] == [];
    if st' != st {
      assert st'.fetches[..|st.fetches|] == st.fetches;
    }
  }

  /** Issues a phase's writes: logged and applied to the database. */
  function Issue(st: Checker, ws: seq<Write>): Checker {
    st.(db := ApplyAll(st.db, ws), log := st.log + ws)
  }

  lemma {:induction false} ApplyAllAppend(db: Db, a: seq<Write>, b: seq<Write>)
    ensures ApplyAll(db, a + b) == ApplyAll(ApplyAll(db, a), b)
    decreases |a|
  {
    if |a| == 0 {
      assert a + b == b;
    } else {
      assert (a + b)[1..] == a[1..] + b;
      ApplyAllAppend(Apply(db, a[0]), a[1..], b);
    }
  }

  lemma ExtendsTrans(a: Checker, b: Checker, c: Checker)
    requires Extends(a, b) && Extends(b, c)
    ensures Extends(a, c)
  {
    var x := b.log[|a.log|..];
    var y := c.log[|b.log|..];
    assert c.log[..|b.log|] == b.log;
    assert c.log[|a.log|..] == x + y;
    ApplyAllAppend(a.db, x, y);
    assert c.log[..|a.log|] == b.log[..|a.log|];
    assert c.fetches[..|a.fetches|] == b.fetches[..|a.fetches|];
  }

  lemma IssueExtends(st: Checker, ws: seq<Write>)
    ensures Extends(st, Issue(st, ws))
    ensures Issue(st, ws).log[|st.log|..] == ws
  {
    assert (st.log + ws)[..|st.log|] == st.log;
    assert (st.log + ws)[|st.log|..] == ws;
  }

  lemma ExtendsRefl(st: Checker)
    ensures Extends(st, st)
  {
    assert st.log[..|st.log|] == st.log && st.log[|st.log|..] == [];
    assert st.fetches[..|st.fetches|] == st.fetches;
  }

  // -------------------------------------------------------------------- scan

  /** The scan loop of `runCheckBetween`: each collection is queried from
      the start of the window, and only non-empty findings are recorded. */
  function ScanCollections(st: Checker, syms: seq<string>, since: Timestamp, until: Timestamp): (st': Checker)
    ensures st'.db == st.db && st'.log == st.log && st'.remoteBarData == st.remoteBarData && st'.fetches == st.fetches
    ensures st'.settings == st.settings && st'.now == st.now
    decreases |syms|
  {
    if |syms| == 0 then st
    else
      var st1 := ScanOne(st, syms[0], since, until);
      ScanCollections(st1, syms[1..], since, until)
  }

  /** Every recorded finding is non-empty. */
  ghost predicate FindingsNonEmpty(st: Checker) {
    && (forall c :: c in st.missingData ==> |st.missingData[c]| > 0)
    && (forall c :: c in st.duplicateData ==> |st.duplicateData[c]| > 0)
  }

  /** One step of the scan: the first collection's findings, recorded when
      non-empty.  The query starts where the grid starts, at `since` with
      its seconds cleared (the as-written query from the raw `since` is
      `Convergence.ScanAsWritten`). */
  function ScanOne(st: Checker, c: string, since: Timestamp, until: Timestamp): (st': Checker)
    ensures st' == st.(missingData := st'.missingData, duplicateData := st'.duplicateData)
    ensures forall c' :: c' != c ==> (c' in st'.missingData <==> c' in st.missingData) && (c' in st.missingData ==> st'.missingData[c'] == st.missingData[c'])
    ensures forall c' :: c' != c ==> (c' in st'.duplicateData <==> c' in st.duplicateData) && (c' in st.duplicateData ==> st'.duplicateData[c'] == st.duplicateData[c'])
    ensures c in st'.missingData && c !in st.missingData ==> |st'.missingData[c]| > 0
    ensures c in st'.duplicateData && c !in st.duplicateData ==> |st'.duplicateData[c]| > 0
  {
    WithFindings(st, c, ScanAligned(st.db, c, since, until, st.settings.period),
                 DuplicateGroups(Query(st.db, c, Truncate(since))))
  }

  /** `st` with one collection's findings recorded, each only when
      non-empty; nothing else changes. */
  function WithFindings(st: Checker, c: string, missing: seq<Timestamp>, duplicates: map<Timestamp, seq<Bar>>): (st': Checker)
    ensures st' == st.(missingData := st'.missingData, duplicateData := st'.duplicateData)
    ensures forall c' :: c' != c ==> (c' in st'.missingData <==> c' in st.missingData) && (c' in st.missingData ==> st'.missingData[c'] == st.missingData[c'])
    ensures forall c' :: c' != c ==> (c' in st'.duplicateData <==> c' in st.duplicateData) && (c' in st.duplicateData ==> st'.duplicateData[c'] == st.duplicateData[c'])
    ensures c in st'.missingData && c !in st.missingData ==> |st'.missingData[c]| > 0
    ensures c in st'.duplicateData && c !in st.duplicateData ==> |st'.duplicateData[c]| > 0
  {
    st.(missingData := RecordIf(st.missingData, c, missing, |missing| > 0),
        duplicateData := RecordIf(st.duplicateData, c, duplicates, |duplicates| > 0))
  }

  /** `m` with `v` recorded under `c` when `keep` holds; every other key as
      it was. */
  function RecordIf<V>(m: map<string, V>, c: string, v: V, keep: bool): (r: map<string, V>)
    ensures forall c' :: c' != c ==> (c' in r <==> c' in m) && (c' in m ==> r[c'] == m[c'])
    ensures c in r <==> keep || c in m
    ensures c in r ==> r[c] == if keep then v else m[c]
  {
    if keep then m[c := v] else m
  }

  lemma NoDuplicatesTail<T>(xs: seq<T>)
    requires |xs| > 0 && NoDuplicates(xs)
    ensures NoDuplicates(xs[1..]) && xs[0] !in xs[1..]
  {
    forall i, j | 0 <= i < j < |xs[1..]| ensures xs[1..][i] != xs[1..][j] {
      assert xs[1..][i] == xs[i + 1] && xs[1..][j] == xs[j + 1];
    }
    forall j | 0 <= j < |xs[1..]| ensures xs[1..][j] != xs[0] {
      assert xs[1..][j] == xs[j + 1];
    }
  }

  lemma {:induction false} ScanKeepsNonEmpty(st: Checker, syms: seq<string>, since: Timestamp, until: Timestamp)
    requires FindingsNonEmpty(st)
    ensures FindingsNonEmpty(ScanCollections(st, syms, since, until))
    decreases |syms|
  {
    if |syms| > 0 {
      assert ScanCollections(st, syms, since, until) == ScanCollections(ScanOne(st, syms[0], since, until), syms[1..], since, until);
      ScanOneNonEmpty(st, syms[0], since, until);
      ScanKeepsNonEmpty(ScanOne(st, syms[0], since, until), syms[1..], since, until);
    }
  }

  lemma ScanOneNonEmpty(st: Checker, c: string, since: Timestamp, until: Timestamp)
    requires FindingsNonEmpty(st)
    ensures FindingsNonEmpty(ScanOne(st, c, since, until))
  {
    var st1 := ScanOne(st, c, since, until);
    forall c' | c' in st1.missingData ensures |st1.missingData[c']| > 0 {
      if c' != c { assert st1.missingData[c'] == st.missingData[c']; }
    }
    forall c' | c' in st1.duplicateData ensures |st1.duplicateData[c']| > 0 {
      if c' != c { assert st1.duplicateData[c'] == st.duplicateData[c']; }
    }
  }

  /** After the scan, a scanned collection's missing points are this run's
      finding when that is non-empty; otherwise whatever an earlier run left
      stays. */
  lemma {:induction false} ScanRecordsMissing(st: Checker, syms: seq<string>, since: Timestamp, until: Timestamp, c: string)
    requires NoDuplicates(syms)
    ensures
      var st' := ScanCollections(st, syms, since, until);
      var found := ScanAligned(st.db, c, since, until, st.settings.period);
      && (c in syms && |found| > 0 ==> c in st'.missingData && st'.missingData[c] == found)
      && (!(c in syms && |found| > 0) ==>
            (c in st'.missingData <==> c in st.missingData) && (c in st.missingData ==> st'.missingData[c] == st.missingData[c]))
    decreases |syms|
  {
    if |syms| > 0 {
      var st1 := ScanOne(st, syms[0], since, until);
      assert ScanCollections(st, syms, since, until) == ScanCollections(st1, syms[1..], since, until);
      NoDuplicatesTail(syms);
      ScanRecordsMissing(st1, syms[1..], since, until, c);
      assert c in syms <==> c == syms[0] || c in syms[1..];
    }
  }

  /** The same for the duplicate groups. */
  lemma {:induction false} ScanRecordsDuplicates(st: Checker, syms: seq<string>, since: Timestamp, until: Timestamp, c: string)
    requires NoDuplicates(syms)
    ensures
      var st' := ScanCollections(st, syms, since, until);
      var groups := DuplicateGroups(Query(st.db, c, Truncate(since)));
      && (c in syms && |groups| > 0 ==> c in st'.duplicateData && st'.duplicateData[c] == groups)
      && (!(c in syms && |groups| > 0) ==>
            (c in st'.duplicateData <==> c in st.duplicateData) && (c in st.duplicateData ==> st'.duplicateData[c] == st.duplicateData[c]))
    decreases |syms|
  {
    if |syms| > 0 {
      var st1 := ScanOne(st, syms[0], since, until);
      assert ScanCollections(st, syms, since, until) == ScanCollections(st1, syms[1..], since, until);
      NoDuplicatesTail(syms);
      ScanRecordsDuplicates(st1, syms[1..], since, until, c);
      assert c in syms <==> c == syms[0] || c in syms[1..];
    }
  }

  // ------------------------------------------------------------------ phases

  /** The de-duplication phase over the recorded symbols, in visiting order:
      each fetches its remote bars, then looks its alias up. */
  function DedupPhase(st: Checker, feed: Feed, syms: seq<string>): (r: Run)
    ensures r.state == st.(db := r.state.db, log := r.state.log, remoteBarData := r.state.remoteBarData, fetches := r.state.fetches)
    ensures forall s :: s in st.remoteBarData ==> s in r.state.remoteBarData
    ensures r.error.Some? ==> r.error.value.UnknownSymbol? || r.error.value.SpotUnsupported? || r.error.value.AliasMissing?
    ensures r.error.None? ==> forall i :: 0 <= i < |syms| && syms[i] in st.duplicateData ==> syms[i] in r.state.remoteBarData
    decreases |syms|
  {
    if |syms| == 0 then Run(st, None)
    else
      var c := syms[0];
      if c !in st.duplicateData then DedupPhase(st, feed, syms[1..])
      else
        var (st1, remote) := GetRemoteBarData(st, feed, c);
        if remote.Err? then Run(st1, Some(remote.error))
        else if c !in st1.settings.active then Run(st1, Some(AliasMissing(c)))
        else
          var ws := RemoveDuplicates(c, st1.settings.active[c], remote.value, st1.duplicateData[c]).writes;
          DedupPhase(Issue(st1, ws), feed, syms[1..])
  }

  /** The backfill phase: same shape, over the recorded missing points. */
  function FillPhase(st: Checker, feed: Feed, syms: seq<string>): (r: Run)
    ensures r.state == st.(db := r.state.db, log := r.state.log, remoteBarData := r.state.remoteBarData, fetches := r.state.fetches)
    ensures forall s :: s in st.remoteBarData ==> s in r.state.remoteBarData
    ensures r.error.Some? ==> r.error.value.UnknownSymbol? || r.error.value.SpotUnsupported? || r.error.value.AliasMissing?
    ensures r.error.None? ==> forall i :: 0 <= i < |syms| && syms[i] in st.missingData ==> syms[i] in r.state.remoteBarData
    decreases |syms|
  {
    if |syms| == 0 then Run(st, None)
    else
      var c := syms[0];
      if c !in st.missingData then FillPhase(st, feed, syms[1..])
      else
        var (st1, remote) := GetRemoteBarData(st, feed, c);
        if remote.Err? then Run(st1, Some(remote.error))
        else if c !in st1.settings.active then Run(st1, Some(AliasMissing(c)))
        else
          var ws := PersistMissing(c, st1.settings.active[c], remote.value, st1.missingData[c]).writes;
          FillPhase(Issue(st1, ws), feed, syms[1..])
  }

  /** The fix phase: every configured symbol is queried afresh, its alias
      looked up, and only then its remote bars fetched. */
  function FixPhase(st: Checker, feed: Feed, syms: seq<string>, since: Timestamp): (r: Run)
    ensures r.state == st.(db := r.state.db, log := r.state.log, remoteBarData := r.state.remoteBarData, fetches := r.state.fetches)
    ensures forall s :: s in st.remoteBarData ==> s in r.state.remoteBarData
    ensures r.error.Some? ==> r.error.value.UnknownSymbol? || r.error.value.SpotUnsupported? || r.error.value.AliasMissing?
    ensures r.error.None? ==> forall i :: 0 <= i < |syms| ==> syms[i] in r.state.remoteBarData
    decreases |syms|
  {
    if |syms| == 0 then Run(st, None)
    else
      var c := syms[0];
      var dbData := Query(st.db, c, since);
      if c !in st.settings.active then Run(st, Some(AliasMissing(c)))
      else
        var (st1, remote) := GetRemoteBarData(st, feed, c);
        if remote.Err? then Run(st1, Some(remote.error))
        else
          var ws := FixDifferent(c, st1.settings.active[c], remote.value, dbData).writes;
          FixPhase(Issue(st1, ws), feed, syms[1..], since)
  }

  /** `runCheckBetween(since, until)`: an empty or inverted window is
      refused; otherwise the scan, then the corrective phases. */
  function RunCheckBetween(st: Checker, feed: Feed, since: Timestamp, until: Timestamp): (r: Run)
    ensures since >= until ==> r == Run(st, None)
  {
    if since >= until then Run(st, None)
    else Correct(ScanCollections(st, st.settings.symbols, since, until), feed, since)
  }

  /** The corrective phases after the scan, each run only when its flag is set
      (and, for the first two, when the scan left findings); an exception
      ends the run. */
  function Correct(scanned: Checker, feed: Feed, since: Timestamp): (r: Run)
    ensures r.state.settings == scanned.settings && r.state.now == scanned.now
    ensures r.error.Some? ==> r.error.value.UnknownSymbol? || r.error.value.SpotUnsupported? || r.error.value.AliasMissing?
    ensures !scanned.settings.removeDuplicates && !scanned.settings.fillData && !scanned.settings.fixDifference ==>
              r == Run(scanned, None)
  {
    var dedup := DedupStage(scanned, feed);
    if dedup.error.Some? then dedup
    else
      var fill := FillStage(dedup.state, feed);
      if fill.error.Some? then fill
      else if scanned.settings.fixDifference then FixPhase(fill.state, feed, scanned.settings.symbols, since)
      else fill
  }

  /** The de-duplication stage: run only when its flag is set and the scan
      found duplicates. */
  function DedupStage(scanned: Checker, feed: Feed): Run {
    if scanned.settings.removeDuplicates && |scanned.duplicateData| > 0 then DedupPhase(scanned, feed, scanned.settings.symbols)
    else Run(scanned, None)
  }

  /** The backfill stage: run only when its flag is set and missing points
      are recorded. */
  function FillStage(st: Checker, feed: Feed): Run {
    if st.settings.fillData && |st.missingData| > 0 then FillPhase(st, feed, st.settings.symbols)
    else Run(st, None)
  }

  /** `bestEffortRun`: the window from `now` minus the look-back to `now`. */
  function BestEffortRun(st: Checker, feed: Feed): (r: Run)
    ensures st.settings.period == OneDay ==> r == Run(st, Some(LookbackMissing(OneDay)))
    ensures st.settings.period == OneMin ==> r == RunCheckBetween(st, feed, st.now - 2 * DAY, st.now)
  {
    var lb := Lookback(OkexMaxDelta(), st.settings.period, st.now);
    assert st.settings.period == OneMin ==> lb == Ok(st.now - 2 * DAY);
    if lb.Err? then Run(st, Some(lb.error)) else RunCheckBetween(st, feed, lb.value, st.now)
  }

  // ------------------------------------------------------------ run lemmas

  /** The writes each corrective phase may issue: `{volume, datetime}`
      deletes, inserts, and `{volume, close, datetime}` deletes with inserts. */
  datatype Kind = DedupKind | FillKind | FixKind

  predicate IsKind(k: Kind, w: Write) {
    match k
    case DedupKind => w.Delete? && w.filter.VolumeAt?
    case FillKind => w.Insert?
    case FixKind => w.Insert? || (w.Delete? && w.filter.VolumeCloseAt?)
  }

  predicate AllKind(k: Kind, ws: seq<Write>) {
    forall i :: 0 <= i < |ws| ==> IsKind(k, ws[i])
  }

  lemma MirroredKind(k: Kind, prim: seq<Write>, alias: string, rest: seq<Write>)
    requires AllKind(k, prim) && AllKind(k, rest)
    ensures AllKind(k, Mirrored(prim, alias) + rest)
  {
    var m := Mirrored(prim, alias);
    assert AllKind(k, m) by {
      forall i | 0 <= i < |m| ensures IsKind(k, m[i]) {
        if i >= |prim| {
          assert m[i] == prim[i - |prim|].(collection := alias);
        }
      }
    }
  }

  lemma {:induction false} DropOthersKind(c: string, alias: string, group: seq<Bar>, v: int)
    ensures AllKind(DedupKind, DropOthers(c, alias, group, v).writes)
    decreases |group|
  {
    if |group| > 0 {
      DropOthersKind(c, alias, group[1..], v);
      var d := group[0];
      if d.volume != v {
        MirroredKind(DedupKind, [Delete(c, VolumeAt(d.volume, d.datetime))], alias, DropOthers(c, alias, group[1..], v).writes);
      }
    }
  }

  /** `removeDuplicateData` only issues `{volume, datetime}` deletes. */
  lemma {:induction false} RemoveDuplicatesKind(c: string, alias: string, remote: seq<Bar>, groups: map<Timestamp, seq<Bar>>)
    ensures AllKind(DedupKind, RemoveDuplicates(c, alias, remote, groups).writes)
    decreases |remote|
  {
    if |remote| > 0 {
      RemoveDuplicatesKind(c, alias, remote[1..], groups);
      if remote[0].datetime in groups {
        DropOthersKind(c, alias, groups[remote[0].datetime], remote[0].volume);
      }
    }
  }

  /** `persistMissingData` only inserts. */
  lemma {:induction false} PersistMissingKind(c: string, alias: string, remote: seq<Bar>, missed: seq<Timestamp>)
    ensures AllKind(FillKind, PersistMissing(c, alias, remote, missed).writes)
    decreases |remote|
  {
    if |remote| > 0 {
      PersistMissingKind(c, alias, remote[1..], missed);
      if remote[0].datetime in missed {
        MirroredKind(FillKind, [Insert(c, remote[0])], alias, PersistMissing(c, alias, remote[1..], missed).writes);
      }
    }
  }

  /** `fixDifferentData` only issues `{volume, close, datetime}` deletes and
      inserts. */
  lemma {:induction false} FixDifferentKind(c: string, alias: string, remote: seq<Bar>, local: seq<Bar>)
    ensures AllKind(FixKind, FixDifferent(c, alias, remote, local).writes)
    decreases |remote|
  {
    if |remote| > 0 {
      FixDifferentKind(c, alias, remote[1..], local);
      var r := remote[0];
      match LastAt(local, r.datetime)
      case None =>
      case Some(l) =>
        if !Agrees(r, l) {
          MirroredKind(FixKind, Replace(c, l, r), alias, FixDifferent(c, alias, remote[1..], local).writes);
        }
    }
  }

  /** The writes `st'` added to `st`'s log are all of kind `k`. */
  ghost predicate NewWritesOf(k: Kind, st: Checker, st': Checker) {
    forall i :: |st.log| <= i < |st'.log| ==> IsKind(k, st'.log[i])
  }

  /** One symbol's step of a phase: fetch (cache sound, nothing written),
      then issue writes of the phase's kind. */
  lemma StepSound(k: Kind, st: Checker, feed: Feed, c: string, ws: seq<Write>)
    requires CacheSound(st) && AllKind(k, ws)
    ensures
      var st1 := GetRemoteBarData(st, feed, c).0;
      && CacheSound(st1) && Extends(st, st1) && st1.log == st.log
      && CacheSound(Issue(st1, ws)) && Extends(st, Issue(st1, ws)) && NewWritesOf(k, st, Issue(st1, ws))
  {
    var st1 := GetRemoteBarData(st, feed, c).0;
    GetRemoteBarDataSound(st, feed, c);
    IssueExtends(st1, ws);
    ExtendsTrans(st, st1, Issue(st1, ws));
  }

  /** A fetch, the writes of one symbol, then the rest of the phase: the
      whole is sound when the rest is. */
  lemma PhaseLink(k: Kind, st: Checker, feed: Feed, c: string, ws: seq<Write>, st3: Checker)
    requires CacheSound(st) && AllKind(k, ws)
    requires var st2 := Issue(GetRemoteBarData(st, feed, c).0, ws);
             CacheSound(st3) && Extends(st2, st3) && NewWritesOf(k, st2, st3)
    ensures Extends(st, st3) && NewWritesOf(k, st, st3)
  {
    var st2 := Issue(GetRemoteBarData(st, feed, c).0, ws);
    StepSound(k, st, feed, c, ws);
    ExtendsTrans(st, st2, st3);
    NewWritesTrans(k, st, st2, st3);
  }

  lemma NewWritesTrans(k: Kind, a: Checker, b: Checker, c: Checker)
    requires Extends(a, b) && Extends(b, c) && NewWritesOf(k, a, b) && NewWritesOf(k, b, c)
    ensures NewWritesOf(k, a, c)
  {
    forall i | |a.log| <= i < |c.log| ensures IsKind(k, c.log[i]) {
      if i < |b.log| {
        assert c.log[..|b.log|] == b.log;
        assert c.log[i] == c.log[..|b.log|][i];
      }
    }
  }

  lemma {:induction false} DedupPhaseSound(st: Checker, feed: Feed, syms: seq<string>)
    requires CacheSound(st)
    ensures CacheSound(DedupPhase(st, feed, syms).state) && Extends(st, DedupPhase(st, feed, syms).state)
    ensures NewWritesOf(DedupKind, st, DedupPhase(st, feed, syms).state)
    decreases |syms|, 1
  {
    ExtendsRefl(st);
    if |syms| > 0 {
      if syms[0] !in st.duplicateData {
        DedupPhaseSound(st, feed, syms[1..]);
      } else {
        DedupStepSound(st, feed, syms);
      }
    }
  }

  /** A symbol with duplicates: fetch, delete, then the rest of the phase. */
  lemma {:induction false} DedupStepSound(st: Checker, feed: Feed, syms: seq<string>)
    requires CacheSound(st) && |syms| > 0 && syms[0] in st.duplicateData
    ensures CacheSound(DedupPhase(st, feed, syms).state) && Extends(st, DedupPhase(st, feed, syms).state)
    ensures NewWritesOf(DedupKind, st, DedupPhase(st, feed, syms).state)
    decreases |syms|, 0
  {
    var c := syms[0];
    var (st1, remote) := GetRemoteBarData(st, feed, c);
    if remote.Ok? && c in st1.settings.active {
      var ws := RemoveDuplicates(c, st1.settings.active[c], remote.value, st1.duplicateData[c]).writes;
      RemoveDuplicatesKind(c, st1.settings.active[c], remote.value, st1.duplicateData[c]);
      var st2 := Issue(st1, ws);
      DedupPhaseSound(st2, feed, syms[1..]);
      PhaseLink(DedupKind, st, feed, c, ws, DedupPhase(st2, feed, syms[1..]).state);
    } else {
      GetRemoteBarDataSound(st, feed, c);
    }
  }

  /** De-duplication leaves the scan's findings as they were. */
  lemma {:induction false} DedupPhaseKeepsFindings(st: Checker, feed: Feed, syms: seq<string>)
    ensures DedupPhase(st, feed, syms).state.missingData == st.missingData
    ensures DedupPhase(st, feed, syms).state.duplicateData == st.duplicateData
    decreases |syms|
  {
    if |syms| > 0 {
      var c := syms[0];
      if c !in st.duplicateData {
        DedupPhaseKeepsFindings(st, feed, syms[1..]);
      } else {
        var (st1, remote) := GetRemoteBarData(st, feed, c);
        if remote.Ok? && c in st1.settings.active {
          var ws := RemoveDuplicates(c, st1.settings.active[c], remote.value, st1.duplicateData[c]).writes;
          DedupPhaseKeepsFindings(Issue(st1, ws), feed, syms[1..]);
        }
      }
    }
  }

  lemma {:induction false} FillPhaseSound(st: Checker, feed: Feed, syms: seq<string>)
    requires CacheSound(st)
    ensures CacheSound(FillPhase(st, feed, syms).state) && Extends(st, FillPhase(st, feed, syms).state)
    ensures NewWritesOf(FillKind, st, FillPhase(st, feed, syms).state)
    decreases |syms|, 1
  {
    ExtendsRefl(st);
    if |syms| > 0 {
      if syms[0] !in st.missingData {
        FillPhaseSound(st, feed, syms[1..]);
      } else {
        FillStepSound(st, feed, syms);
      }
    }
  }

  /** A symbol with missing points: fetch, insert, then the rest of the phase. */
  lemma {:induction false} FillStepSound(st: Checker, feed: Feed, syms: seq<string>)
    requires CacheSound(st) && |syms| > 0 && syms[0] in st.missingData
    ensures CacheSound(FillPhase(st, feed, syms).state) && Extends(st, FillPhase(st, feed, syms).state)
    ensures NewWritesOf(FillKind, st, FillPhase(st, feed, syms).state)
    decreases |syms|, 0
  {
    var c := syms[0];
    var (st1, remote) := GetRemoteBarData(st, feed, c);
    if remote.Ok? && c in st1.settings.active {
      var ws := PersistMissing(c, st1.settings.active[c], remote.value, st1.missingData[c]).writes;
      PersistMissingKind(c, st1.settings.active[c], remote.value, st1.missingData[c]);
      var st2 := Issue(st1, ws);
      FillPhaseSound(st2, feed, syms[1..]);
      PhaseLink(FillKind, st, feed, c, ws, FillPhase(st2, feed, syms[1..]).state);
    } else {
      GetRemoteBarDataSound(st, feed, c);
    }
  }

  lemma {:induction false} FixPhaseSound(st: Checker, feed: Feed, syms: seq<string>, since: Timestamp)
    requires CacheSound(st)
    ensures CacheSound(FixPhase(st, feed, syms, since).state) && Extends(st, FixPhase(st, feed, syms, since).state)
    ensures NewWritesOf(FixKind, st, FixPhase(st, feed, syms, since).state)
    decreases |syms|, 1
  {
    ExtendsRefl(st);
    if |syms| > 0 && syms[0] in st.settings.active {
      FixStepSound(st, feed, syms, since);
    }
  }

  /** An active symbol: query, fetch, replace, then the rest of the phase. */
  lemma {:induction false} FixStepSound(st: Checker, feed: Feed, syms: seq<string>, since: Timestamp)
    requires CacheSound(st) && |syms| > 0 && syms[0] in st.settings.active
    ensures CacheSound(FixPhase(st, feed, syms, since).state) && Extends(st, FixPhase(st, feed, syms, since).state)
    ensures NewWritesOf(FixKind, st, FixPhase(st, feed, syms, since).state)
    decreases |syms|, 0
  {
    var c := syms[0];
    var dbData := Query(st.db, c, since);
    var (st1, remote) := GetRemoteBarData(st, feed, c);
    if remote.Ok? {
      var ws := FixDifferent(c, st1.settings.active[c], remote.value, dbData).writes;
      FixDifferentKind(c, st1.settings.active[c], remote.value, dbData);
      var st2 := Issue(st1, ws);
      FixPhaseSound(st2, feed, syms[1..], since);
      PhaseLink(FixKind, st, feed, c, ws, FixPhase(st2, feed, syms[1..], since).state);
    } else {
      GetRemoteBarDataSound(st, feed, c);
    }
  }

  /** The log between `st` and `st'` is de-duplication writes up to `i`,
      backfill writes up to `j`, fix writes after. */
  ghost predicate PhaseOrdered(st: Checker, st': Checker, i: int, j: int) {
    && |st.log| <= i <= j <= |st'.log|
    && (forall n :: |st.log| <= n < i ==> IsKind(DedupKind, st'.log[n]))
    && (forall n :: i <= n < j ==> IsKind(FillKind, st'.log[n]))
    && (forall n :: j <= n < |st'.log| ==> IsKind(FixKind, st'.log[n]))
  }

  lemma ChainOrdered(a: Checker, b: Checker, c: Checker, d: Checker)
    requires Extends(a, b) && Extends(b, c) && Extends(c, d)
    requires NewWritesOf(DedupKind, a, b) && NewWritesOf(FillKind, b, c) && NewWritesOf(FixKind, c, d)
    ensures Extends(a, d) && PhaseOrdered(a, d, |b.log|, |c.log|)
    ensures d.log[..|b.log|] == b.log && d.log[..|c.log|] == c.log
  {
    ExtendsTrans(a, b, c);
    ExtendsTrans(a, c, d);
    assert d.log[..|c.log|] == c.log;
    assert c.log[..|b.log|] == b.log;
    forall n | |a.log| <= n < |b.log| ensures IsKind(DedupKind, d.log[n]) {
      assert d.log[n] == c.log[n] == b.log[n];
    }
    forall n | |b.log| <= n < |c.log| ensures IsKind(FillKind, d.log[n]) {
      assert d.log[n] == c.log[n];
    }
  }

  lemma NoNewWrites(k: Kind, st: Checker)
    ensures Extends(st, st) && NewWritesOf(k, st, st)
  {
    ExtendsRefl(st);
  }

  /** A run only appends to the log, leaves the database equal to the old one
      with the appended writes applied, keeps every cached answer, fetches each
      symbol at most once over the checker's life, and issues its writes in
      phase order: de-duplication deletes, then backfill inserts, then fix
      pairs. */
  lemma RunCheckBetweenSound(st: Checker, feed: Feed, since: Timestamp, until: Timestamp)
    requires CacheSound(st)
    ensures CacheSound(RunCheckBetween(st, feed, since, until).state)
    ensures Extends(st, RunCheckBetween(st, feed, since, until).state)
    ensures since >= until ==> RunCheckBetween(st, feed, since, until).state == st
    ensures since < until ==>
              StagesOrdered(ScanCollections(st, st.settings.symbols, since, until), feed, RunCheckBetween(st, feed, since, until).state)
  {
    if since < until {
      var scanned := ScanCollections(st, st.settings.symbols, since, until);
      CorrectSound(scanned, feed, since);
      ExtendsRefl(st);
      assert Extends(st, scanned);
      ExtendsTrans(st, scanned, Correct(scanned, feed, since).state);
    }
  }

  /** The log after `st'` splits where the stages of `Correct` ended: it
      holds exactly the de-duplication stage's log up to the first boundary,
      exactly the backfill stage's log up to the second, and de-duplication
      deletes, backfill inserts and fix writes in the three parts. */
  ghost predicate StagesOrdered(scanned: Checker, feed: Feed, st': Checker) {
    var dedup := DedupStage(scanned, feed);
    var i := |dedup.state.log|;
    var j := if dedup.error.Some? then i else |FillStage(dedup.state, feed).state.log|;
    && PhaseOrdered(scanned, st', i, j)
    && st'.log[..i] == dedup.state.log
    && (dedup.error.None? ==> st'.log[..j] == FillStage(dedup.state, feed).state.log)
  }

  lemma CorrectSound(scanned: Checker, feed: Feed, since: Timestamp)
    requires CacheSound(scanned)
    ensures CacheSound(Correct(scanned, feed, since).state)
    ensures Extends(scanned, Correct(scanned, feed, since).state)
    ensures StagesOrdered(scanned, feed, Correct(scanned, feed, since).state)
  {
    var s := scanned.settings;
    var st' := Correct(scanned, feed, since).state;
    var dedup := DedupStage(scanned, feed);
    DedupPhaseSound(scanned, feed, s.symbols);
    NoNewWrites(DedupKind, scanned);
    var fill := FillStage(dedup.state, feed);
    FillPhaseSound(dedup.state, feed, s.symbols);
    NoNewWrites(FillKind, dedup.state);
    if dedup.error.Some? {
      NoNewWrites(FixKind, dedup.state);
      ChainOrdered(scanned, dedup.state, dedup.state, dedup.state);
    } else if fill.error.Some? || !s.fixDifference {
      NoNewWrites(FixKind, fill.state);
      ChainOrdered(scanned, dedup.state, fill.state, fill.state);
    } else {
      FixPhaseSound(fill.state, feed, s.symbols, since);
      ChainOrdered(scanned, dedup.state, fill.state, st');
    }
  }

  /** With every corrective flag off a run only scans: the database, the log
      and the cache are untouched and nothing escapes. */
  lemma ScanOnlyRun(st: Checker, feed: Feed, since: Timestamp, until: Timestamp)
    requires !st.settings.removeDuplicates && !st.settings.fillData && !st.settings.fixDifference
    ensures RunCheckBetween(st, feed, since, until).error == None
    ensures
      var st' := RunCheckBetween(st, feed, since, until).state;
      st'.db == st.db && st'.log == st.log && st'.remoteBarData == st.remoteBarData && st'.fetches == st.fetches
  {
  }

  /** Each corrective flag gates its own writes: without de-duplication no
      `{volume, datetime}` delete is issued, without the fix no
      `{volume, close, datetime}` delete, and with neither backfill nor fix
      no insert. */
  lemma FlagsGateWrites(st: Checker, feed: Feed, since: Timestamp, until: Timestamp, n: int)
    requires CacheSound(st) && since < until
    requires |st.log| <= n < |RunCheckBetween(st, feed, since, until).state.log|
    ensures var w := RunCheckBetween(st, feed, since, until).state.log[n];
            && (!st.settings.removeDuplicates ==> !(w.Delete? && w.filter.VolumeAt?))
            && (!st.settings.fixDifference ==> !(w.Delete? && w.filter.VolumeCloseAt?))
            && (!st.settings.fillData && !st.settings.fixDifference ==> !w.Insert?)
  {
    var scanned := ScanCollections(st, st.settings.symbols, since, until);
    var i, j := StageBounds(st, feed, since, until);
    var st' := RunCheckBetween(st, feed, since, until).state;
    if n < i {
      assert IsKind(DedupKind, st'.log[n]);
    } else if n < j {
      assert IsKind(FillKind, st'.log[n]);
    } else {
      assert IsKind(FixKind, st'.log[n]);
    }
  }

  /** Where a run's stage segments begin and end: the de-duplication segment
      is empty without its flag, the backfill segment without its flag, and
      the fix segment without its flag. */
  lemma StageBounds(st: Checker, feed: Feed, since: Timestamp, until: Timestamp) returns (i: int, j: int)
    requires CacheSound(st) && since < until
    ensures var st' := RunCheckBetween(st, feed, since, until).state;
            && PhaseOrdered(ScanCollections(st, st.settings.symbols, since, until), st', i, j)
            && ScanCollections(st, st.settings.symbols, since, until).log == st.log
            && (!st.settings.removeDuplicates ==> i == |st.log|)
            && (!st.settings.fillData ==> j == i)
            && (!st.settings.fixDifference ==> |st'.log| == j)
  {
    RunCheckBetweenSound(st, feed, since, until);
    var scanned := ScanCollections(st, st.settings.symbols, since, until);
    var dedup := DedupStage(scanned, feed);
    i := |dedup.state.log|;
    if dedup.error.Some? {
      j := i;
    } else {
      var fill := FillStage(dedup.state, feed);
      j := |fill.state.log|;
      assert !st.settings.fillData ==> fill.state == dedup.state;
    }
  }

  /** `bestEffortRun` starts its window on a whole minute, so its scan is the
      aligned one and the unaligned-window defect cannot arise there. */
  lemma BestEffortWindowAligned(st: Checker, c: string)
    requires st.now % MINUTE == 0 && st.settings.period == OneMin
    ensures Lookback(OkexMaxDelta(), st.settings.period, st.now) == Ok(st.now - 2 * DAY)
    ensures (st.now - 2 * DAY) % MINUTE == 0
    ensures ScanAsWritten(st.db, c, st.now - 2 * DAY, st.now, OneMin) == ScanAligned(st.db, c, st.now - 2 * DAY, st.now, OneMin)
  {
    AlignedScansAgree(st.db, c, st.now - 2 * DAY, st.now, OneMin);
  }
}

=== FILE: convergence.dfy ===
/** What the corrective phases achieve against the store: a backfilled window
    rescans as missing only what the remote lacked, de-duplication keeps
    exactly the records carrying the remote volume, and a replacement pass
    followed by a fresh query finds nothing left to replace.  Also the
    window scan as written, whose query and grid start at different points,
    next to the aligned scan. */
module Convergence {

  import opened Wrappers
  import opened Bars
  import opened Store
  import opened Scanner
  import opened Corrective

  /** The scan `runCheckBetween` performs for one collection as written: the
      query starts at `since`, the grid at `since` with its seconds cleared. */
  function ScanAsWritten(db: Db, c: string, since: Timestamp, until: Timestamp, p: Period): seq<Timestamp> {
    MissingPoints(Query(db, c, since), since, until, p)
  }

  /** The scan with the query starting where the grid starts. */
  function ScanAligned(db: Db, c: string, since: Timestamp, until: Timestamp, p: Period): (missed: seq<Timestamp>)
    ensures forall t :: t in missed <==>
              && Truncate(since) <= t <= until && (t - Truncate(since)) % TimeDelta(p) == 0
              && (db.connected ==> |Occ(Records(db, c), t)| == 0)
  {
    var s := Truncate(since);
    var q := Query(db, c, s);
    MissedPoints(q, s, until, p);
    forall t ensures t in MissingPoints(q, s, until, p) <==>
        && s <= t <= until && (t - s) % TimeDelta(p) == 0
        && (db.connected ==> |Occ(Records(db, c), t)| == 0)
    {
      GridMembers(s, until, p, t);
    }
    MissingPoints(q, s, until, p)
  }

  /** On a minute-aligned `since` the two scans coincide. */
  lemma AlignedScansAgree(db: Db, c: string, since: Timestamp, until: Timestamp, p: Period)
    requires since % MINUTE == 0
    ensures ScanAsWritten(db, c, since, until, p) == ScanAligned(db, c, since, until, p)
  {
  }

  /** As written, a stored record at the truncated start of an unaligned
      window is reported missing, and the backfill then stores a second
      record at that minute. */
  lemma UnalignedWindowDuplicates()
    ensures
      var b := Bar("c", "okex", 0, 1, 1, 1, 1, 1);
      var db := Db(true, map["c" := [b]]);
      var missed := ScanAsWritten(db, "c", 30, 60, OneMin);
      var after := ApplyAll(db, PersistMissing("c", "", [b.(gatewayName := "okex_BackFilled")], missed).writes);
      && |Occ(Records(db, "c"), 0)| == 1
      && 0 in missed
      && |Occ(Records(after, "c"), 0)| == 2
  {
    var b := Bar("c", "okex", 0, 1, 1, 1, 1, 1);
    var db := Db(true, map["c" := [b]]);
    var q := Query(db, "c", 30);
    assert Occ(q, 0) == [];
    TimesOcc(q, 0);
    GridMembers(0, 60, OneMin, 0);
    AbsentMembers(Grid(0, 60, 60), Times(q));
    var missed := ScanAsWritten(db, "c", 30, 60, OneMin);
    assert 0 in missed;
    var remote := [b.(gatewayName := "okex_BackFilled")];
    assert Occ(remote, 0) == remote;
    assert Occ([b], 0) == [b];
    PersistEffect(db, "c", "", remote, missed, 0);
  }

  /** The aligned scan never reports a stored point, so backfilling its report
      never stacks a second record on one: each timestamp either keeps its
      records or, having none, receives the remote's. */
  lemma AlignedFillNoDuplicates(db: Db, c: string, alias: string, since: Timestamp, until: Timestamp,
                                p: Period, remote: seq<Bar>, t: Timestamp)
    requires db.connected && alias != c
    ensures
      var missed := ScanAligned(db, c, since, until, p);
      var after := ApplyAll(db, PersistMissing(c, alias, remote, missed).writes);
      || Occ(Records(after, c), t) == Occ(Records(db, c), t)
      || (Occ(Records(db, c), t) == [] && Occ(Records(after, c), t) == Occ(remote, t))
  {
    var missed := ScanAligned(db, c, since, until, p);
    PersistEffect(db, c, alias, remote, missed, t);
  }

  /** Backfilling what the aligned scan reports and scanning again reports
      exactly the previously missed points the remote had no bar for. */
  lemma FillConverges(db: Db, c: string, alias: string, since: Timestamp, until: Timestamp,
                      p: Period, remote: seq<Bar>)
    requires db.connected && alias != c
    ensures
      var missed := ScanAligned(db, c, since, until, p);
      var after := ApplyAll(db, PersistMissing(c, alias, remote, missed).writes);
      ScanAligned(after, c, since, until, p) == Absent(missed, Times(remote))
  {
    var s := Truncate(since);
    assert Truncate(s) == s;
    var g := Grid(s, until, TimeDelta(p));
    var q0 := Query(db, c, s);
    var missed := ScanAligned(db, c, since, until, p);
    assert missed == Absent(g, Times(q0));
    var after := ApplyAll(db, PersistMissing(c, alias, remote, missed).writes);
    var q1 := Query(after, c, s);
    ApplyAllRecords(db, PersistMissing(c, alias, remote, missed).writes, c);
    AbsentMembers(g, Times(q0));
    forall t | t in g ensures Covers(t, Times(q0), Times(remote), Times(q1)) {
      GridMembers(s, until, p, t);
      PersistEffect(db, c, alias, remote, missed, t);
      TimesOcc(q0, t);
      TimesOcc(q1, t);
      TimesOcc(remote, t);
    }
    AbsentTwice(g, Times(q0), Times(remote), Times(q1));
    assert ScanAligned(after, c, since, until, p) == Absent(g, Times(q1));
  }

  /** The groups of a query all carry their own timestamp. */
  lemma GroupsStamped(xs: seq<Bar>)
    ensures Stamped(DuplicateGroups(xs))
  {
    forall k, d | k in DuplicateGroups(xs) && d in DuplicateGroups(xs)[k] ensures d.datetime == k {
      var o := Occ(xs, k);
      OccMembers(xs, k);
      assert o == [o[0], o[1]] + o[2..];
      assert d in o;
    }
  }

  lemma ArrangeOtherVolumes(o: seq<Bar>, v: int)
    requires |o| >= 2
    ensures OtherVolumes(Arrange(o), v) == OtherVolumes(o, v)
  {
    assert o == [o[0], o[1]] + o[2..];
    OtherVolumesAppend([o[1], o[0]], o[2..], v);
    OtherVolumesAppend([o[0], o[1]], o[2..], v);
    OtherVolumesAppend([o[1]], [o[0]], v);
    OtherVolumesAppend([o[0]], [o[1]], v);
    assert [o[1], o[0]] == [o[1]] + [o[0]];
    assert [o[0], o[1]] == [o[0]] + [o[1]];
  }

  /** De-duplicating against a remote feed with one bar per timestamp leaves,
      at a duplicated timestamp the remote knows, exactly the records carrying
      the remote volume; every other timestamp is untouched. */
  lemma DedupConverges(db: Db, c: string, alias: string, since: Timestamp, remote: seq<Bar>, t: Timestamp)
    requires db.connected && alias != c && DistinctTimes(remote)
    ensures
      var groups := DuplicateGroups(Query(db, c, since));
      var after := ApplyAll(db, RemoveDuplicates(c, alias, remote, groups).writes);
      var before := Occ(Records(db, c), t);
      && (t >= since && |before| >= 2 && |Occ(remote, t)| > 0 ==>
            Occ(Records(after, c), t) == Keep(before, Occ(remote, t)[0].volume))
      && (!(t >= since && |before| >= 2 && |Occ(remote, t)| > 0) ==>
            Occ(Records(after, c), t) == before)
  {
    var q := Query(db, c, since);
    var groups := DuplicateGroups(q);
    var ws := RemoveDuplicates(c, alias, remote, groups).writes;
    var prim := RemoveDuplicates(c, "", remote, groups).writes;
    var before := Occ(Records(db, c), t);
    ApplyAllRecords(db, ws, c);
    RemoveDuplicatesWrites(c, alias, remote, groups);
    OccReplay(Records(db, c), prim, t);
    GroupsStamped(q);
    RemoveDuplicatesAt(c, remote, groups, t);
    DuplicateGroupsMeaning(q);
    if t >= since && |before| >= 2 && |Occ(remote, t)| > 0 {
      var v := Occ(remote, t)[0].volume;
      OccMembers(Records(db, c), t);
      ArrangeOtherVolumes(before, v);
      assert groups[t] == Arrange(before);
      assert forall d: Bar :: d in groups[t] ==> d.datetime == t;
      ReplayDropOthers(before, groups[t], c, v, t);
    }
  }

  /** The replacement pass is idempotent: against a remote feed with one bar
      per timestamp, a fresh query after it finds every remote bar absent
      locally or agreeing with the last local record, so a second pass
      writes nothing. */
  lemma FixIdempotent(db: Db, c: string, alias: string, since: Timestamp, remote: seq<Bar>)
    requires db.connected && alias != c && DistinctTimes(remote)
    ensures
      var after := ApplyAll(db, FixDifferent(c, alias, remote, Query(db, c, since)).writes);
      FixDifferent(c, alias, remote, Query(after, c, since)).writes == []
  {
    var q0 := Query(db, c, since);
    var ws := FixDifferent(c, alias, remote, q0).writes;
    var after := ApplyAll(db, ws);
    var q1 := Query(after, c, since);
    forall r | r in remote ensures LastAt(q1, r.datetime).None? || Agrees(r, LastAt(q1, r.datetime).value) {
      FixSettles(db, c, alias, since, remote, r);
    }
    FixQuiet(c, alias, remote, q1);
  }

  lemma FixSettles(db: Db, c: string, alias: string, since: Timestamp, remote: seq<Bar>, r: Bar)
    requires db.connected && alias != c && DistinctTimes(remote) && r in remote
    ensures
      var after := ApplyAll(db, FixDifferent(c, alias, remote, Query(db, c, since)).writes);
      var l := LastAt(Query(after, c, since), r.datetime);
      l.None? || Agrees(r, l.value)
  {
    var t := r.datetime;
    var q0 := Query(db, c, since);
    var after := ApplyAll(db, FixDifferent(c, alias, remote, q0).writes);
    FixOccAfter(db, c, alias, since, remote, r);
    var l0 := LastAt(q0, t);
    if l0.Some? && !Agrees(r, l0.value) {
      ReplayReplace(Occ(Records(db, c), t), c, l0.value, r);
      LastAfterReplace(db, after, c, since, r, l0.value);
    } else {
      LastUnchanged(db, after, c, since, t);
    }
  }

  lemma LastAfterReplace(db: Db, after: Db, c: string, since: Timestamp, r: Bar, l: Bar)
    requires db.connected && after.connected
    requires LastAt(Query(db, c, since), r.datetime).Some?
    requires exists d :: Occ(Records(after, c), r.datetime) == d + [r]
    ensures LastAt(Query(after, c, since), r.datetime) == Some(r)
  {
    var t := r.datetime;
    assert |Occ(Query(db, c, since), t)| > 0;
    assert t >= since;
    var d :| Occ(Records(after, c), t) == d + [r];
    assert Occ(Query(after, c, since), t) == d + [r];
  }

  lemma LastUnchanged(db: Db, after: Db, c: string, since: Timestamp, t: Timestamp)
    requires db.connected && after.connected
    requires Occ(Records(after, c), t) == Occ(Records(db, c), t)
    ensures LastAt(Query(after, c, since), t) == LastAt(Query(db, c, since), t)
  {
    assert Occ(Query(after, c, since), t) == Occ(Query(db, c, since), t);
  }

  /** The records at a remote bar's time after the replacement pass: the
      replacement when the last local record differed, otherwise unchanged. */
  lemma FixOccAfter(db: Db, c: string, alias: string, since: Timestamp, remote: seq<Bar>, r: Bar)
    requires db.connected && alias != c && DistinctTimes(remote) && r in remote
    ensures
      var q0 := Query(db, c, since);
      var after := ApplyAll(db, FixDifferent(c, alias, remote, q0).writes);
      var l0 := LastAt(q0, r.datetime);
      && after.connected
      && Occ(Records(after, c), r.datetime) ==
           if l0.Some? && !Agrees(r, l0.value) then Replay(Occ(Records(db, c), r.datetime), Replace(c, l0.value, r))
           else Occ(Records(db, c), r.datetime)
  {
    var t := r.datetime;
    var q0 := Query(db, c, since);
    var ws := FixDifferent(c, alias, remote, q0).writes;
    var prim := FixDifferent(c, "", remote, q0).writes;
    ApplyAllRecords(db, ws, c);
    FixWrites(c, alias, remote, q0);
    OccReplay(Records(db, c), prim, t);
    FixAt(c, remote, q0, t);
    DistinctOcc(remote, r);
  }

  lemma ReplayReplace(o: seq<Bar>, c: string, l: Bar, r: Bar)
    ensures Replay(o, Replace(c, l, r)) == DeleteOne(o, VolumeCloseAt(l.volume, l.close, r.datetime)) + [r]
  {
    var f := VolumeCloseAt(l.volume, l.close, r.datetime);
    var ws := Replace(c, l, r);
    assert ws[0] == Delete(c, f) && ws[1..] == [Insert(c, r)];
    assert Replay(o, ws) == Replay(DeleteOne(o, f), [Insert(c, r)]);
    assert [Insert(c, r)][1..] == [];
    assert Replay(DeleteOne(o, f), [Insert(c, r)]) == Replay(DeleteOne(o, f) + [r], []);
  }

  /** With distinct timestamps, a remote bar is the only one at its time. */
  lemma DistinctOcc(xs: seq<Bar>, r: Bar)
    requires DistinctTimes(xs) && r in xs
    ensures Occ(xs, r.datetime) == [r]
  {
    var i :| 0 <= i < |xs| && xs[i] == r;
    var ys := xs[i + 1..];
    assert xs == xs[..i] + [r] + ys;
    forall j | 0 <= j < i ensures xs[..i][j].datetime != r.datetime {
    }
    forall k | 0 <= k < |ys| ensures ys[k].datetime != r.datetime {
      assert ys[k] == xs[i + 1 + k];
    }
    OccNone(xs[..i], r.datetime);
    OccNone(ys, r.datetime);
    OccAppend(xs[..i] + [r], ys, r.datetime);
    OccAppend(xs[..i], [r], r.datetime);
  }
}

=== FILE: corrective.dfy ===
/** The three corrective phases of the checker as write logs: backfill
    (`persistMissingData`), de-duplication (`removeDuplicateData`) and
    replacement of differing records (`fixDifferentData`).  Each takes the
    alias name already looked up; an empty alias means no mirroring. */
module Corrective {

  import opened Bars
  import opened Store

  /** A phase's writes and the counter it logs. */
  datatype Phase = Phase(writes: seq<Write>, counter: nat)

  /** `fixDifferentData`'s writes and its two logged counters. */
  datatype FixPhase = FixPhase(writes: seq<Write>, totalCount: nat, discrepancyCount: nat)

  /** The same writes addressed to collection `a`. */
  function Retarget(ws: seq<Write>, a: string): (r: seq<Write>)
    ensures |r| == |ws|
    ensures forall i :: 0 <= i < |ws| ==> r[i] == ws[i].(collection := a)
  {
    seq(|ws|, i requires 0 <= i < |ws| => ws[i].(collection := a))
  }

  /** One step's writes followed, when the alias name is non-empty (truthy),
      by the same writes against the alias. */
  function Mirrored(prim: seq<Write>, alias: string): seq<Write> {
    prim + (if alias != "" then Retarget(prim, alias) else [])
  }

  /** `alias` receives exactly what `c` receives, retargeted; with no alias
      every write goes to `c`. */
  predicate Mirrors(ws: seq<Write>, c: string, alias: string) {
    && (alias != "" ==> Project(ws, alias) == Retarget(Project(ws, c), alias))
    && (alias == "" ==> Project(ws, c) == ws)
  }

  lemma {:induction false} ProjectOnly(ws: seq<Write>, c: string, other: string)
    requires forall i :: 0 <= i < |ws| ==> ws[i].collection == c
    ensures Project(ws, c) == ws
    ensures other != c ==> Project(ws, other) == []
    decreases |ws|
  {
    if |ws| > 0 {
      ProjectOnly(ws[1..], c, other);
      assert ws == [ws[0]] + ws[1..];
    }
  }

  lemma MirroredStep(prim: seq<Write>, c: string, alias: string)
    requires forall i :: 0 <= i < |prim| ==> prim[i].collection == c
    requires alias != c
    ensures Project(Mirrored(prim, alias), c) == prim
    ensures Mirrors(Mirrored(prim, alias), c, alias)
  {
    ProjectOnly(prim, c, alias);
    if alias != "" {
      var copy := Retarget(prim, alias);
      ProjectOnly(copy, alias, c);
      ProjectAppend(prim, copy, c);
      ProjectAppend(prim, copy, alias);
    } else {
      assert Mirrored(prim, alias) == prim;
    }
  }

  lemma MirrorsAppend(a: seq<Write>, b: seq<Write>, c: string, alias: string)
    requires Mirrors(a, c, alias) && Mirrors(b, c, alias)
    ensures Mirrors(a + b, c, alias)
  {
    ProjectAppend(a, b, c);
    ProjectAppend(a, b, alias);
    if alias != "" {
      RetargetAppend(Project(a, c), Project(b, c), alias);
    }
  }

  lemma RetargetAppend(a: seq<Write>, b: seq<Write>, alias: string)
    ensures Retarget(a + b, alias) == Retarget(a, alias) + Retarget(b, alias)
  {
    var l := Retarget(a + b, alias);
    var r := Retarget(a, alias) + Retarget(b, alias);
    assert |l| == |r|;
    forall i | 0 <= i < |l| ensures l[i] == r[i] {
      if i < |a| {
        assert (a + b)[i] == a[i];
      } else {
        assert (a + b)[i] == b[i - |a|];
      }
    }
  }

  /** The inserts of `xs` into `c`, in order. */
  function Inserts(c: string, xs: seq<Bar>): (r: seq<Write>)
    ensures |r| == |xs|
    ensures forall i :: 0 <= i < |xs| ==> r[i] == Insert(c, xs[i])
  {
    seq(|xs|, i requires 0 <= i < |xs| => Insert(c, xs[i]))
  }

  lemma InsertsCons(c: string, x: Bar, xs: seq<Bar>)
    ensures Inserts(c, [x] + xs) == [Insert(c, x)] + Inserts(c, xs)
  {
    var l := Inserts(c, [x] + xs);
    var r := [Insert(c, x)] + Inserts(c, xs);
    assert |l| == |r|;
    forall i | 0 <= i < |l| ensures l[i] == r[i] {
      if i > 0 {
        assert ([x] + xs)[i] == xs[i - 1];
      }
    }
  }

  lemma {:induction false} ReplayInserts(s: seq<Bar>, c: string, xs: seq<Bar>)
    ensures Replay(s, Inserts(c, xs)) == s + xs
    decreases |xs|
  {
    if |xs| == 0 {
      assert s + xs == s;
    } else {
      assert Inserts(c, xs)[1..] == Inserts(c, xs[1..]);
      ReplayInserts(s + [xs[0]], c, xs[1..]);
      assert (s + [xs[0]]) + xs[1..] == s + xs;
    }
  }

  // ---------------------------------------------------------------- backfill

  /** The remote bars whose timestamp is among the missed ones, in remote order. */
  function Selected(remote: seq<Bar>, missed: seq<Timestamp>): (r: seq<Bar>)
    ensures forall t :: Occ(r, t) == if t in missed then Occ(remote, t) else []
    decreases |remote|
  {
    if |remote| == 0 then []
    else
      var rest := Selected(remote[1..], missed);
      var b := remote[0];
      if b.datetime in missed then
        assert forall t :: Occ([b] + rest, t) == (if b.datetime == t then [b] else []) + Occ(rest, t) by {
          forall t ensures Occ([b] + rest, t) == (if b.datetime == t then [b] else []) + Occ(rest, t) {
            assert ([b] + rest)[1..] == rest;
          }
        }
        [b] + rest
      else rest
  }

  /** `persistMissingData`: every remote bar stamped at a missed point is
      inserted, and mirrored into the alias; the counter counts the primary
      inserts. */
  function PersistMissing(c: string, alias: string, remote: seq<Bar>, missed: seq<Timestamp>): (r: Phase)
    ensures r.counter <= |remote|
    ensures |r.writes| == (if alias != "" then 2 else 1) * r.counter
    ensures forall i :: 0 <= i < |r.writes| ==> r.writes[i].Insert? && r.writes[i].bar.datetime in missed
    decreases |remote|
  {
    if |remote| == 0 then Phase([], 0)
    else
      var rest := PersistMissing(c, alias, remote[1..], missed);
      if remote[0].datetime in missed then
        Phase(Mirrored([Insert(c, remote[0])], alias) + rest.writes, rest.counter + 1)
      else rest
  }

  /** The collection receives exactly the selected remote bars, in remote
      order, and the alias receives the same inserts; the counter is the
      number of primary inserts. */
  lemma {:induction false} PersistWrites(c: string, alias: string, remote: seq<Bar>, missed: seq<Timestamp>)
    requires alias != c
    ensures Project(PersistMissing(c, alias, remote, missed).writes, c) == Inserts(c, Selected(remote, missed))
    ensures Mirrors(PersistMissing(c, alias, remote, missed).writes, c, alias)
    ensures PersistMissing(c, alias, remote, missed).counter == |Selected(remote, missed)|
    decreases |remote|
  {
    if |remote| > 0 {
      PersistWrites(c, alias, remote[1..], missed);
      var rest := PersistMissing(c, alias, remote[1..], missed);
      if remote[0].datetime in missed {
        var step := Mirrored([Insert(c, remote[0])], alias);
        MirroredStep([Insert(c, remote[0])], c, alias);
        ProjectAppend(step, rest.writes, c);
        MirrorsAppend(step, rest.writes, c, alias);
        var sel := Selected(remote[1..], missed);
        assert Selected(remote, missed) == [remote[0]] + sel;
        InsertsCons(c, remote[0], sel);
      }
    }
  }

  /** After the backfill the collection holds what it held plus the selected
      remote bars: a missed point the remote knows gains its bars, every other
      timestamp is untouched. */
  lemma PersistEffect(db: Db, c: string, alias: string, remote: seq<Bar>, missed: seq<Timestamp>, t: Timestamp)
    requires db.connected && alias != c
    ensures Records(ApplyAll(db, PersistMissing(c, alias, remote, missed).writes), c)
            == Records(db, c) + Selected(remote, missed)
    ensures Occ(Records(ApplyAll(db, PersistMissing(c, alias, remote, missed).writes), c), t)
            == Occ(Records(db, c), t) + (if t in missed then Occ(remote, t) else [])
  {
    var ws := PersistMissing(c, alias, remote, missed).writes;
    ApplyAllRecords(db, ws, c);
    PersistWrites(c, alias, remote, missed);
    ReplayInserts(Records(db, c), c, Selected(remote, missed));
    OccAppend(Records(db, c), Selected(remote, missed), t);
  }

  // ---------------------------------------------------------- de-duplication

  /** One group against the remote volume `v`: a `{volume, datetime}` delete
      for each member whose volume differs. */
  function DropOthers(c: string, alias: string, group: seq<Bar>, v: int): (r: Phase)
    ensures r.counter <= |group|
    ensures |r.writes| == (if alias != "" then 2 else 1) * r.counter
    decreases |group|
  {
    if |group| == 0 then Phase([], 0)
    else
      var rest := DropOthers(c, alias, group[1..], v);
      var d := group[0];
      if d.volume != v then
        Phase(Mirrored([Delete(c, VolumeAt(d.volume, d.datetime))], alias) + rest.writes, rest.counter + 1)
      else rest
  }

  /** `removeDuplicateData`: each remote bar whose timestamp has a group
      thins that group down to the members carrying the remote volume. */
  function RemoveDuplicates(c: string, alias: string, remote: seq<Bar>, groups: map<Timestamp, seq<Bar>>): (r: Phase)
    ensures |r.writes| == (if alias != "" then 2 else 1) * r.counter
    ensures remote == [] || groups == map[] ==> r.writes == []
    decreases |remote|
  {
    if |remote| == 0 then Phase([], 0)
    else
      var rest := RemoveDuplicates(c, alias, remote[1..], groups);
      var b := remote[0];
      if b.datetime in groups then
        var drop := DropOthers(c, alias, groups[b.datetime], b.volume);
        Phase(drop.writes + rest.writes, drop.counter + rest.counter)
      else rest
  }

  lemma {:induction false} DropOthersWrites(c: string, alias: string, group: seq<Bar>, v: int)
    requires alias != c
    ensures Project(DropOthers(c, alias, group, v).writes, c) == DropOthers(c, "", group, v).writes
    ensures Mirrors(DropOthers(c, alias, group, v).writes, c, alias)
    ensures DropOthers(c, alias, group, v).counter == |DropOthers(c, "", group, v).writes|
    decreases |group|
  {
    if |group| > 0 {
      DropOthersWrites(c, alias, group[1..], v);
      var d := group[0];
      var rest := DropOthers(c, alias, group[1..], v);
      if d.volume != v {
        var step := Mirrored([Delete(c, VolumeAt(d.volume, d.datetime))], alias);
        MirroredStep([Delete(c, VolumeAt(d.volume, d.datetime))], c, alias);
        ProjectAppend(step, rest.writes, c);
        MirrorsAppend(step, rest.writes, c, alias);
      }
    }
  }

  /** The primary deletes are exactly one per (remote bar, differing member of
      its timestamp's group); members carrying the remote volume, and groups
      with no remote bar, are never addressed.  The alias gets the same
      deletes; the counter is the number of primary deletes. */
  lemma {:induction false} RemoveDuplicatesWrites(c: string, alias: string, remote: seq<Bar>, groups: map<Timestamp, seq<Bar>>)
    requires alias != c
    ensures Project(RemoveDuplicates(c, alias, remote, groups).writes, c) == RemoveDuplicates(c, "", remote, groups).writes
    ensures Mirrors(RemoveDuplicates(c, alias, remote, groups).writes, c, alias)
    ensures RemoveDuplicates(c, alias, remote, groups).counter == |RemoveDuplicates(c, "", remote, groups).writes|
    decreases |remote|
  {
    if |remote| > 0 {
      RemoveDuplicatesWrites(c, alias, remote[1..], groups);
      var b := remote[0];
      if b.datetime in groups {
        var drop := DropOthers(c, alias, groups[b.datetime], b.volume);
        var rest := RemoveDuplicates(c, alias, remote[1..], groups);
        DropOthersWrites(c, alias, groups[b.datetime], b.volume);
        ProjectAppend(drop.writes, rest.writes, c);
        MirrorsAppend(drop.writes, rest.writes, c, alias);
      }
    }
  }

  lemma {:induction false} DropOthersMembers(c: string, group: seq<Bar>, v: int)
    ensures forall w :: w in DropOthers(c, "", group, v).writes <==>
              exists d :: d in group && d.volume != v && w == Delete(c, VolumeAt(d.volume, d.datetime))
    decreases |group|
  {
    if |group| > 0 {
      DropOthersMembers(c, group[1..], v);
      assert group == [group[0]] + group[1..];
    }
  }

  /** The primary deletes are exactly one per remote bar and differing member
      of its timestamp's group: members carrying the remote volume, and groups
      with no remote bar, are never addressed. */
  lemma {:induction false} RemoveDuplicatesMembers(c: string, remote: seq<Bar>, groups: map<Timestamp, seq<Bar>>)
    ensures forall w :: w in RemoveDuplicates(c, "", remote, groups).writes <==>
              exists b, d :: b in remote && b.datetime in groups && d in groups[b.datetime] && d.volume != b.volume
                             && w == Delete(c, VolumeAt(d.volume, d.datetime))
    decreases |remote|
  {
    if |remote| > 0 {
      RemoveDuplicatesMembers(c, remote[1..], groups);
      var b := remote[0];
      assert remote == [b] + remote[1..];
      if b.datetime in groups {
        DropOthersMembers(c, groups[b.datetime], b.volume);
      }
    }
  }

  /** No two remote bars share a timestamp. */
  predicate DistinctTimes(xs: seq<Bar>) {
    forall i, j :: 0 <= i < j < |xs| ==> xs[i].datetime != xs[j].datetime
  }

  /** The head's timestamp recurs nowhere in the tail. */
  lemma DistinctHead(xs: seq<Bar>)
    requires |xs| > 0 && DistinctTimes(xs)
    ensures DistinctTimes(xs[1..])
    ensures Occ(xs[1..], xs[0].datetime) == []
  {
    forall j | 0 <= j < |xs| - 1 ensures xs[1..][j].datetime != xs[0].datetime {
      assert xs[1..][j] == xs[j + 1];
    }
    OccNone(xs[1..], xs[0].datetime);
  }

  /** Every member of a group carries the group's timestamp. */
  predicate Stamped(groups: map<Timestamp, seq<Bar>>) {
    forall k, d :: k in groups && d in groups[k] ==> d.datetime == k
  }

  /** The records of `xs` carrying volume `v`, in order. */
  function Keep(xs: seq<Bar>, v: int): seq<Bar>
    decreases |xs|
  {
    if |xs| == 0 then []
    else (if xs[0].volume == v then [xs[0]] else []) + Keep(xs[1..], v)
  }

  /** The volumes, with multiplicity, of the records of `xs` not carrying `v`. */
  function OtherVolumes(xs: seq<Bar>, v: int): multiset<int>
    decreases |xs|
  {
    if |xs| == 0 then multiset{}
    else (if xs[0].volume != v then multiset{xs[0].volume} else multiset{}) + OtherVolumes(xs[1..], v)
  }

  lemma {:induction false} OtherVolumesAppend(a: seq<Bar>, b: seq<Bar>, v: int)
    ensures OtherVolumes(a + b, v) == OtherVolumes(a, v) + OtherVolumes(b, v)
    decreases |a|
  {
    if |a| == 0 {
      assert a + b == b;
    } else {
      assert (a + b)[0] == a[0] && (a + b)[1..] == a[1..] + b;
      OtherVolumesAppend(a[1..], b, v);
    }
  }

  lemma {:induction false} OtherVolumesMember(xs: seq<Bar>, v: int, w: int)
    requires w in OtherVolumes(xs, v)
    ensures w != v
    ensures exists i :: 0 <= i < |xs| && xs[i].volume == w
    decreases |xs|
  {
    if !(xs[0].volume != v && xs[0].volume == w) {
      OtherVolumesMember(xs[1..], v, w);
      var i :| 0 <= i < |xs[1..]| && xs[1..][i].volume == w;
      assert xs[i + 1].volume == w;
    }
  }

  /** With no record off volume `v`, keeping `v` keeps everything. */
  lemma {:induction false} KeepAll(xs: seq<Bar>, v: int)
    requires OtherVolumes(xs, v) == multiset{}
    ensures Keep(xs, v) == xs
    decreases |xs|
  {
    if |xs| > 0 {
      KeepAll(xs[1..], v);
      assert xs == [xs[0]] + xs[1..];
    }
  }

  /** Deleting one record of another volume leaves the `v` records alone. */
  lemma {:induction false} DeleteKeeps(xs: seq<Bar>, w: int, t: Timestamp, v: int)
    requires w != v
    ensures Keep(DeleteOne(xs, VolumeAt(w, t)), v) == Keep(xs, v)
    decreases |xs|
  {
    if |xs| > 0 {
      var f := VolumeAt(w, t);
      if Matches(f, xs[0]) {
        assert DeleteOne(xs, f) == xs[1..];
      } else {
        DeleteKeeps(xs[1..], w, t, v);
        var d := DeleteOne(xs[1..], f);
        assert DeleteOne(xs, f) == [xs[0]] + d;
        assert ([xs[0]] + d)[0] == xs[0] && ([xs[0]] + d)[1..] == d;
      }
    }
  }

  /** Deleting a present record of another volume takes exactly one `w` out of
      the other volumes, and brings in nothing new. */
  lemma {:induction false} DeleteTakesOne(xs: seq<Bar>, w: int, t: Timestamp, v: int, i: nat)
    requires w != v
    requires i < |xs| && xs[i].volume == w && xs[i].datetime == t
    ensures OtherVolumes(DeleteOne(xs, VolumeAt(w, t)), v) == OtherVolumes(xs, v) - multiset{w}
    decreases |xs|
  {
    if Matches(VolumeAt(w, t), xs[0]) {
      TakesHead(xs, w, t, v);
    } else {
      assert xs[1..][i - 1] == xs[i];
      DeleteTakesOne(xs[1..], w, t, v, i - 1);
      OtherVolumesIndex(xs[1..], v, i - 1);
      TakesSkip(xs, w, t, v);
    }
  }

  lemma TakesHead(xs: seq<Bar>, w: int, t: Timestamp, v: int)
    requires w != v && |xs| > 0 && Matches(VolumeAt(w, t), xs[0])
    ensures OtherVolumes(DeleteOne(xs, VolumeAt(w, t)), v) == OtherVolumes(xs, v) - multiset{w}
  {
    assert DeleteOne(xs, VolumeAt(w, t)) == xs[1..];
    assert OtherVolumes(xs, v) == multiset{w} + OtherVolumes(xs[1..], v);
  }

  lemma TakesSkip(xs: seq<Bar>, w: int, t: Timestamp, v: int)
    requires |xs| > 0 && !Matches(VolumeAt(w, t), xs[0])
    requires w in OtherVolumes(xs[1..], v)
    requires OtherVolumes(DeleteOne(xs[1..], VolumeAt(w, t)), v) == OtherVolumes(xs[1..], v) - multiset{w}
    ensures OtherVolumes(DeleteOne(xs, VolumeAt(w, t)), v) == OtherVolumes(xs, v) - multiset{w}
  {
    var f := VolumeAt(w, t);
    var h := if xs[0].volume != v then multiset{xs[0].volume} else multiset{};
    var d := DeleteOne(xs[1..], f);
    assert OtherVolumes(xs, v) == h + OtherVolumes(xs[1..], v);
    assert DeleteOne(xs, f) == [xs[0]] + d;
    assert ([xs[0]] + d)[0] == xs[0] && ([xs[0]] + d)[1..] == d;
    assert OtherVolumes([xs[0]] + d, v) == h + OtherVolumes(d, v);
  }

  lemma {:induction false} OtherVolumesIndex(xs: seq<Bar>, v: int, i: nat)
    requires i < |xs| && xs[i].volume != v
    ensures xs[i].volume in OtherVolumes(xs, v)
    decreases |xs|
  {
    if i > 0 {
      assert xs[1..][i - 1] == xs[i];
      OtherVolumesIndex(xs[1..], v, i - 1);
    }
  }

  /** Running a group's deletes over the records of its timestamp keeps
      exactly the records carrying the remote volume, provided the group holds
      the same off-volume records as the store. */
  lemma {:induction false} ReplayDropOthers(xs: seq<Bar>, group: seq<Bar>, c: string, v: int, t: Timestamp)
    requires forall b :: b in xs ==> b.datetime == t
    requires forall d :: d in group ==> d.datetime == t
    requires OtherVolumes(group, v) == OtherVolumes(xs, v)
    ensures Replay(xs, DropOthers(c, "", group, v).writes) == Keep(xs, v)
    decreases |group|
  {
    if |group| == 0 {
      KeepAll(xs, v);
    } else {
      var g := group[0];
      assert group == [g] + group[1..];
      OtherVolumesAppend([g], group[1..], v);
      if g.volume == v {
        ReplayDropOthers(xs, group[1..], c, v, t);
      } else {
        var xs' := DeleteOne(xs, VolumeAt(g.volume, t));
        DropFirst(xs, group, v, t);
        ReplayDropOthers(xs', group[1..], c, v, t);
        DropStep(xs, group, c, v, t);
      }
    }
  }

  /** The first off-volume member's delete hits a record and leaves the rest
      of the group matching the remaining records. */
  lemma DropFirst(xs: seq<Bar>, group: seq<Bar>, v: int, t: Timestamp)
    requires |group| > 0 && group[0].volume != v && group[0].datetime == t
    requires forall b :: b in xs ==> b.datetime == t
    requires OtherVolumes(group, v) == OtherVolumes(xs, v)
    requires OtherVolumes(group, v) == multiset{group[0].volume} + OtherVolumes(group[1..], v)
    ensures forall b :: b in DeleteOne(xs, VolumeAt(group[0].volume, t)) ==> b.datetime == t
    ensures OtherVolumes(group[1..], v) == OtherVolumes(DeleteOne(xs, VolumeAt(group[0].volume, t)), v)
    ensures Keep(DeleteOne(xs, VolumeAt(group[0].volume, t)), v) == Keep(xs, v)
  {
    var w := group[0].volume;
    OtherVolumesMember(xs, v, w);
    var i :| 0 <= i < |xs| && xs[i].volume == w;
    assert xs[i] in xs;
    DeleteKeeps(xs, w, t, v);
    DeleteTakesOne(xs, w, t, v, i);
    DeleteOneSubset(xs, VolumeAt(w, t));
  }

  lemma DropStep(xs: seq<Bar>, group: seq<Bar>, c: string, v: int, t: Timestamp)
    requires |group| > 0 && group[0].volume != v && group[0].datetime == t
    requires Replay(DeleteOne(xs, VolumeAt(group[0].volume, t)), DropOthers(c, "", group[1..], v).writes)
             == Keep(DeleteOne(xs, VolumeAt(group[0].volume, t)), v)
    requires Keep(DeleteOne(xs, VolumeAt(group[0].volume, t)), v) == Keep(xs, v)
    ensures Replay(xs, DropOthers(c, "", group, v).writes) == Keep(xs, v)
  {
    var w := Delete(c, VolumeAt(group[0].volume, t));
    var rest := DropOthers(c, "", group[1..], v).writes;
    assert Mirrored([w], "") == [w];
    assert DropOthers(c, "", group, v).writes == [w] + rest;
    assert ([w] + rest)[1..] == rest;
  }

  /** A group's deletes all pin the group's timestamp. */
  lemma {:induction false} DropOthersAt(c: string, group: seq<Bar>, v: int, k: Timestamp, t: Timestamp)
    requires forall d :: d in group ==> d.datetime == k
    ensures At(DropOthers(c, "", group, v).writes, t) == if k == t then DropOthers(c, "", group, v).writes else []
    decreases |group|
  {
    if |group| > 0 {
      var g := group[0];
      assert group == [g] + group[1..];
      DropOthersAt(c, group[1..], v, k, t);
      var rest := DropOthers(c, "", group[1..], v).writes;
      if g.volume != v {
        var w := Delete(c, VolumeAt(g.volume, g.datetime));
        assert Mirrored([w], "") == [w];
        AtAppend([w], rest, t);
        assert At([w], t) == if k == t then [w] else [];
      }
    }
  }

  /** With distinct remote timestamps, the only primary deletes pinning `t`
      are the group of `t` thinned against the single remote bar at `t`. */
  lemma {:induction false} RemoveDuplicatesAt(c: string, remote: seq<Bar>, groups: map<Timestamp, seq<Bar>>, t: Timestamp)
    requires DistinctTimes(remote) && Stamped(groups)
    ensures At(RemoveDuplicates(c, "", remote, groups).writes, t) ==
              if |Occ(remote, t)| > 0 && t in groups
              then DropOthers(c, "", groups[t], Occ(remote, t)[0].volume).writes
              else []
    decreases |remote|
  {
    if |remote| > 0 {
      var b := remote[0];
      DistinctHead(remote);
      RemoveDuplicatesAt(c, remote[1..], groups, t);
      var rest := RemoveDuplicates(c, "", remote[1..], groups).writes;
      if b.datetime == t {
        DistinctHead(remote);
        assert Occ(remote, t) == [b];
      }
      if b.datetime in groups {
        var drop := DropOthers(c, "", groups[b.datetime], b.volume).writes;
        DropOthersAt(c, groups[b.datetime], b.volume, b.datetime, t);
        AtAppend(drop, rest, t);
      }
    }
  }

  // ------------------------------------------------------------- replacement

  /** A remote bar agrees with a local record when volume and close match. */
  predicate Agrees(r: Bar, l: Bar) {
    r.volume == l.volume && r.close == l.close
  }

  /** The writes replacing local record `l` by remote bar `r`. */
  function Replace(c: string, l: Bar, r: Bar): seq<Write> {
    [Delete(c, VolumeCloseAt(l.volume, l.close, r.datetime)), Insert(c, r)]
  }

  /** A write log made of replacement pairs: a `{volume, close, datetime}`
      delete followed by an insert at the same timestamp. */
  predicate Paired(ws: seq<Write>)
    decreases |ws|
  {
    |ws| == 0 ||
    (&& |ws| >= 2 && ws[0].Delete? && ws[0].filter.VolumeCloseAt? && ws[1].Insert?
     && ws[1].bar.datetime == ws[0].filter.datetime && Paired(ws[2..]))
  }

  lemma {:induction false} PairedAppend(a: seq<Write>, b: seq<Write>)
    requires Paired(a) && Paired(b)
    ensures Paired(a + b)
    decreases |a|
  {
    if |a| > 0 {
      PairedAppend(a[2..], b);
      assert (a + b)[2..] == a[2..] + b;
    } else {
      assert a + b == b;
    }
  }

  lemma MirroredReplacePaired(c: string, l: Bar, r: Bar, alias: string)
    ensures Paired(Mirrored(Replace(c, l, r), alias))
  {
    var p := Replace(c, l, r);
    assert Paired(p) by { assert p[2..] == []; }
    if alias != "" {
      var q := Retarget(p, alias);
      assert Paired(q) by { assert q[2..] == []; }
      PairedAppend(p, q);
    }
  }

  /** `fixDifferentData` over a fresh query `local`: each remote bar with a
      local record at its timestamp (the last one wins) is counted; when
      volume or close differ, the local record is deleted and the remote bar
      inserted, mirrored into the alias. */
  function FixDifferent(c: string, alias: string, remote: seq<Bar>, local: seq<Bar>): (r: FixPhase)
    ensures Paired(r.writes)
    decreases |remote|
  {
    if |remote| == 0 then FixPhase([], 0, 0)
    else
      var rest := FixDifferent(c, alias, remote[1..], local);
      var r := remote[0];
      match LastAt(local, r.datetime)
      case None => rest
      case Some(l) =>
        if !Agrees(r, l) then
          MirroredReplacePaired(c, l, r, alias);
          PairedAppend(Mirrored(Replace(c, l, r), alias), rest.writes);
          FixPhase(Mirrored(Replace(c, l, r), alias) + rest.writes, rest.totalCount + 1, rest.discrepancyCount + 1)
        else
          FixPhase(rest.writes, rest.totalCount + 1, rest.discrepancyCount)
  }

  /** The collection gets the replacement pairs, the alias the same pairs. */
  lemma {:induction false} FixWrites(c: string, alias: string, remote: seq<Bar>, local: seq<Bar>)
    requires alias != c
    ensures Project(FixDifferent(c, alias, remote, local).writes, c) == FixDifferent(c, "", remote, local).writes
    ensures Mirrors(FixDifferent(c, alias, remote, local).writes, c, alias)
    decreases |remote|
  {
    if |remote| > 0 {
      FixWrites(c, alias, remote[1..], local);
      var r := remote[0];
      var rest := FixDifferent(c, alias, remote[1..], local);
      match LastAt(local, r.datetime)
      case None =>
      case Some(l) =>
        if !Agrees(r, l) {
          var step := Mirrored(Replace(c, l, r), alias);
          MirroredStep(Replace(c, l, r), c, alias);
          ProjectAppend(step, rest.writes, c);
          MirrorsAppend(step, rest.writes, c, alias);
          assert Mirrored(Replace(c, l, r), "") == Replace(c, l, r);
        }
    }
  }

  /** A delete-then-insert pair per discrepancy; no more discrepancies than
      compared points, and no more compared points than remote bars. */
  lemma {:induction false} FixCounts(c: string, alias: string, remote: seq<Bar>, local: seq<Bar>)
    ensures |FixDifferent(c, "", remote, local).writes| == 2 * FixDifferent(c, alias, remote, local).discrepancyCount
    ensures FixDifferent(c, alias, remote, local).discrepancyCount <= FixDifferent(c, alias, remote, local).totalCount <= |remote|
    decreases |remote|
  {
    if |remote| > 0 {
      FixCounts(c, alias, remote[1..], local);
      var r := remote[0];
      match LastAt(local, r.datetime)
      case None =>
      case Some(l) =>
        if !Agrees(r, l) {
          assert Mirrored(Replace(c, l, r), "") == Replace(c, l, r);
        }
    }
  }

  /** The fix writes nothing exactly when every remote bar either has no local
      record or agrees with the last one on volume and close. */
  lemma {:induction false} FixQuiet(c: string, alias: string, remote: seq<Bar>, local: seq<Bar>)
    ensures FixDifferent(c, alias, remote, local).writes == [] <==>
              forall r :: r in remote ==> LastAt(local, r.datetime).None? || Agrees(r, LastAt(local, r.datetime).value)
    decreases |remote|
  {
    if |remote| > 0 {
      FixQuiet(c, alias, remote[1..], local);
      assert remote == [remote[0]] + remote[1..];
    }
  }

  /** With distinct remote timestamps, the only primary writes at `t` replace
      the last local record at `t` by the remote bar at `t`, when they differ. */
  lemma {:induction false} FixAt(c: string, remote: seq<Bar>, local: seq<Bar>, t: Timestamp)
    requires DistinctTimes(remote)
    ensures At(FixDifferent(c, "", remote, local).writes, t) ==
              if |Occ(remote, t)| > 0 && LastAt(local, t).Some? && !Agrees(Occ(remote, t)[0], LastAt(local, t).value)
              then Replace(c, LastAt(local, t).value, Occ(remote, t)[0])
              else []
    decreases |remote|
  {
    if |remote| > 0 {
      var b := remote[0];
      DistinctHead(remote);
      FixAt(c, remote[1..], local, t);
      var rest := FixDifferent(c, "", remote[1..], local).writes;
      if b.datetime == t {
        DistinctHead(remote);
        assert Occ(remote, t) == [b];
      }
      match LastAt(local, b.datetime)
      case None =>
      case Some(l) =>
        if !Agrees(b, l) {
          var step := Replace(c, l, b);
          assert Mirrored(step, "") == step;
          AtAppend(step, rest, t);
          assert At(step, t) == if b.datetime == t then step else [];
        }
    }
  }
}

=== FILE: delta.dfy ===
/** `DeltaCalculator`: the books it keeps from account, position and tick
    events, the check scheduler, the readiness latch, the long/short netting
    of future positions and the per-strategy alert budget.  The floating
    point arithmetic that turns the books into a percentage difference is a
    parameter (`PercentDiff`). */
module Delta {

  import opened Wrappers
  import opened Text
  import opened Events

  // ---------------------------------------------------------------- settings

  /** One entry of the `strategies` object, its key as `name`. */
  datatype StrategySetting = StrategySetting(
    name: string,
    account: string,
    table: string,
    multiplier: int,
    vtSymbol: string,
    threshold: real,
    maxAlertTimes: int)

  predicate UniqueNames(ss: seq<StrategySetting>) {
    forall i, j :: 0 <= i < j < |ss| ==> ss[i].name != ss[j].name
  }

  /** A JSON object's entries: the names are its keys, hence distinct. */
  type Strategies = ss: seq<StrategySetting> | UniqueNames(ss) witness []

  /** The settings file.  The outer Option is the key's presence; an inner
      None is a JSON `null`. */
  datatype DeltaSettingsFile = DeltaSettingsFile(
    strategies: Option<Strategies>,
    warmingSeconds: Option<Option<int>>,
    freqInSeconds: Option<Option<int>>)

  /** The exceptions that escape the calculator. */
  datatype DeltaError =
    | MissingSetting(key: string)
    | BadAccountName(account: string)
    | MissingBudget(strategy: string)
    | MissingLocalPosition(strategy: string)
    | MissingBalance(account: string)
    | MissingPrice(vtSymbol: string)
    | MissingHoldings(account: string)
    | MissingPosition(name: string)

  const DEFAULT_WARMING_SECONDS: int := 120
  const DEFAULT_FREQ_IN_SECONDS: int := 10

  /** `x if x else default` for a JSON number. */
  function OrDefault(v: Option<int>, default: int): (r: int)
    ensures (v.None? || v.value == 0) ==> r == default
    ensures v.Some? && v.value != 0 ==> r == v.value
  {
    if v.Some? && v.value != 0 then v.value else default
  }

  /** The alert budget each strategy starts with: its `maxAlertTimes`. */
  function InitialBudget(ss: seq<StrategySetting>): (b: map<string, int>)
    decreases |ss|
  {
    if |ss| == 0 then map[]
    else InitialBudget(ss[..|ss| - 1])[ss[|ss| - 1].name := ss[|ss| - 1].maxAlertTimes]
  }

  lemma {:induction false} InitialBudgetMeaning(ss: seq<StrategySetting>)
    requires UniqueNames(ss)
    ensures forall n :: n in InitialBudget(ss) <==> exists i :: 0 <= i < |ss| && ss[i].name == n
    ensures forall i :: 0 <= i < |ss| ==> InitialBudget(ss)[ss[i].name] == ss[i].maxAlertTimes
    decreases |ss|
  {
    if |ss| > 0 {
      var init := ss[..|ss| - 1];
      assert UniqueNames(init) by {
        forall i, j | 0 <= i < j < |init| ensures init[i].name != init[j].name {
          assert init[i] == ss[i] && init[j] == ss[j];
        }
      }
      InitialBudgetMeaning(init);
      forall i | 0 <= i < |init| ensures init[i] == ss[i] { }
    }
  }

  // ---------------------------------------------------------------- scheduler

  /** `warmingSeconds`, `freqInSeconds` and `timeRecorder`. */
  datatype Scheduler = Scheduler(warming: int, freq: int, recorder: int)

  /** `timeToRunDeltaCheck`: counts a call and fires when the count reaches
      warming + frequency, falling back to the warming count. */
  function TimeToRun(s: Scheduler): (r: (Scheduler, bool))
    ensures r.0.warming == s.warming && r.0.freq == s.freq
    ensures r.1 <==> s.recorder + 1 == s.warming + s.freq
    ensures r.0.recorder == if r.1 then s.warming else s.recorder + 1
  {
    var n := s.recorder + 1;
    if s.warming + s.freq == n then (s.(recorder := s.warming), true) else (s.(recorder := n), false)
  }

  /** The scheduler after `n` calls. */
  function After(s: Scheduler, n: nat): Scheduler
    decreases n
  {
    if n == 0 then s else TimeToRun(After(s, n - 1)).0
  }

  /** Whether call number `n` (counting from one) fires. */
  predicate FiresAt(s: Scheduler, n: nat)
    requires n >= 1
  {
    TimeToRun(After(s, n - 1)).1
  }

  lemma MulBound(d: int, f: int)
    requires f > 0
    ensures d >= 1 ==> d * f >= f
    ensures d <= -1 ==> d * f <= -f
  {
    if d >= 1 {
      assert d * f == (d - 1) * f + f;
    } else if d <= -1 {
      assert d * f == (d + 1) * f - f;
    }
  }

  lemma DivModUnique(x: int, f: int, q: int, r: int)
    requires f > 0 && 0 <= r < f && x == q * f + r
    ensures x % f == r
  {
    var q', r' := x / f, x % f;
    assert x == q' * f + r';
    var d := q - q';
    assert d * f == r' - r by {
      assert d * f == q * f - q' * f;
    }
    MulBound(d, f);
  }

  lemma ModStep(a: int, f: int)
    requires a >= 0 && f > 0
    ensures (a + 1) % f == if a % f == f - 1 then 0 else a % f + 1
  {
    var q := a / f;
    assert a == q * f + a % f;
    if a % f == f - 1 {
      DivModUnique(a + 1, f, q + 1, 0);
    } else {
      DivModUnique(a + 1, f, q, a % f + 1);
    }
  }

  /** From a zero count with a positive frequency, the counter is the call
      number until the first firing and cycles through the last `freq`
      values after it. */
  lemma {:induction false} SchedulerCount(w: int, f: int, n: nat)
    requires w >= 0 && f > 0
    ensures After(Scheduler(w, f, 0), n).warming == w && After(Scheduler(w, f, 0), n).freq == f
    ensures After(Scheduler(w, f, 0), n).recorder == if n < w + f then n else w + (n - w) % f
    decreases n
  {
    if n > 0 {
      var m := n - 1;
      SchedulerCount(w, f, m);
      var s := After(Scheduler(w, f, 0), m);
      assert After(Scheduler(w, f, 0), n) == TimeToRun(s).0;
      if m < w + f {
        if m + 1 == w + f {
          DivModUnique(f, f, 1, 0);
          assert n - w == f;
        }
      } else {
        ModStep(m - w, f);
        assert n - w == (m - w) + 1;
      }
    }
  }

  /** Starting from zero, the check fires on call `warming + freq` and then
      on every `freq`-th call, and on no other. */
  lemma SchedulerFires(w: int, f: int, n: nat)
    requires w >= 0 && f > 0 && n >= 1
    ensures FiresAt(Scheduler(w, f, 0), n) <==> n >= w + f && (n - w) % f == 0
  {
    var m := n - 1;
    SchedulerCount(w, f, m);
    var s := After(Scheduler(w, f, 0), m);
    assert FiresAt(Scheduler(w, f, 0), n) <==> s.recorder + 1 == w + f;
    if m < w + f {
      assert s.recorder == m;
      if n == w + f {
        DivModUnique(f, f, 1, 0);
        assert n - w == f;
      }
    } else {
      assert s.recorder == w + (m - w) % f;
      ModStep(m - w, f);
      assert n - w == (m - w) + 1;
    }
  }

  // -------------------------------------------------------------------- books

  /** What the calculator knows of the exchange.  `accounts` lists the
      balance keys in the order they are visited. */
  datatype Books = Books(
    balance: map<string, real>,
    margin: map<string, real>,
    accounts: seq<string>,
    positions: map<string, Position>,
    holdings: map<string, seq<string>>,
    livePrices: map<string, real>)

  datatype Calculator = Calculator(
    strategies: Strategies,
    remainingAlerts: map<string, int>,
    scheduler: Scheduler,
    isReady: bool,
    books: Books)

  const EmptyBooks: Books := Books(map[], map[], [], map[], map[], map[])

  /** The constructor with `loadSettings`: missing keys raise, falsy timing
      values fall back to the defaults, every strategy gets its budget. */
  function LoadSettings(f: DeltaSettingsFile): (r: Result<Calculator, DeltaError>)
    ensures f.strategies.None? ==> r == Err(MissingSetting("strategies"))
    ensures f.strategies.Some? && f.warmingSeconds.None? ==> r == Err(MissingSetting("warmingSeconds"))
    ensures f.strategies.Some? && f.warmingSeconds.Some? && f.freqInSeconds.None? ==> r == Err(MissingSetting("freqInSeconds"))
    ensures r.Ok? <==> f.strategies.Some? && f.warmingSeconds.Some? && f.freqInSeconds.Some?
    ensures r.Ok? ==>
              && r.value.strategies == f.strategies.value
              && r.value.scheduler == Scheduler(OrDefault(f.warmingSeconds.value, DEFAULT_WARMING_SECONDS),
                                                OrDefault(f.freqInSeconds.value, DEFAULT_FREQ_IN_SECONDS), 0)
              && !r.value.isReady && r.value.books == EmptyBooks
              && forall i :: 0 <= i < |r.value.strategies| ==>
                   r.value.strategies[i].name in r.value.remainingAlerts
                   && r.value.remainingAlerts[r.value.strategies[i].name] == r.value.strategies[i].maxAlertTimes
  {
    if f.strategies.None? then Err(MissingSetting("strategies"))
    else if f.warmingSeconds.None? then Err(MissingSetting("warmingSeconds"))
    else if f.freqInSeconds.None? then Err(MissingSetting("freqInSeconds"))
    else
      var ss := f.strategies.value;
      InitialBudgetMeaning(ss);
      Ok(Calculator(ss, InitialBudget(ss),
                    Scheduler(OrDefault(f.warmingSeconds.value, DEFAULT_WARMING_SECONDS),
                              OrDefault(f.freqInSeconds.value, DEFAULT_FREQ_IN_SECONDS), 0),
                    false, EmptyBooks))
  }

  /** `toSpotVtSymbol`: the first and third `.`-separated fields joined by a
      `.`; fewer than three fields is the IndexError. */
  function ToSpotVtSymbol(account: string): (r: Option<string>)
    ensures r.Some? <==> |Split(account, '.')| >= 3
  {
    var parts := Split(account, '.');
    if |parts| >= 3 then Some(parts[0] + "." + parts[2]) else None
  }

  /** For dot-free fields, the spot symbol of their join is the first and
      third field joined. */
  lemma ToSpotVtSymbolOfJoin(parts: seq<string>)
    requires |parts| >= 3
    requires forall i :: 0 <= i < |parts| ==> '.' !in parts[i]
    ensures ToSpotVtSymbol(Join(parts, '.')) == Some(parts[0] + "." + parts[2])
  {
    SplitJoin(parts, '.');
  }

  /** `updateExchangeAccountInfo`: balance and margin recorded under the
      account id. */
  function UpdateExchangeAccountInfo(b: Books, info: AccountInfo): (r: Books)
    ensures r.balance == b.balance[info.vtAccountID := info.balance]
    ensures r.margin == b.margin[info.vtAccountID := info.margin]
    ensures r.positions == b.positions && r.holdings == b.holdings && r.livePrices == b.livePrices
    ensures AccountsListed(b) ==> AccountsListed(r)
  {
    var id := info.vtAccountID;
    b.(balance := b.balance[id := info.balance], margin := b.margin[id := info.margin],
       accounts := if id in b.balance then b.accounts else b.accounts + [id])
  }

  /** The visiting order lists exactly the balance accounts. */
  ghost predicate AccountsListed(b: Books) {
    forall a :: a in b.accounts <==> a in b.balance
  }

  /** `updatePrices`. */
  function UpdatePrices(b: Books, tick: Tick): (r: Books)
    ensures r.livePrices == b.livePrices[tick.vtSymbol := tick.lastPrice]
    ensures r.balance == b.balance && r.accounts == b.accounts && r.positions == b.positions && r.holdings == b.holdings
  {
    b.(livePrices := b.livePrices[tick.vtSymbol := tick.lastPrice])
  }

  /** The holdings key of a position: `symbol + '.future.' + exchange`. */
  function FutureAccount(pos: Position): string {
    pos.symbol + ".future." + pos.exchange
  }

  /** `updateExchangePositionInfo`: the position is stored under its name and
      the name joins its account's holdings unless already there. */
  function UpdateExchangePositionInfo(b: Books, pos: Position): (r: Books)
    ensures r.positions == b.positions[pos.vtPositionName := pos]
    ensures FutureAccount(pos) in r.holdings && pos.vtPositionName in r.holdings[FutureAccount(pos)]
    ensures forall a :: a in r.holdings <==> a in b.holdings || a == FutureAccount(pos)
    ensures forall a :: a in b.holdings && a != FutureAccount(pos) ==> r.holdings[a] == b.holdings[a]
    ensures forall n :: n in r.holdings[FutureAccount(pos)] <==>
              n == pos.vtPositionName || (FutureAccount(pos) in b.holdings && n in b.holdings[FutureAccount(pos)])
    ensures FutureAccount(pos) in b.holdings ==> b.holdings[FutureAccount(pos)] <= r.holdings[FutureAccount(pos)]
    ensures r.balance == b.balance && r.accounts == b.accounts && r.livePrices == b.livePrices
  {
    var name := pos.vtPositionName;
    var acct := FutureAccount(pos);
    var held := if acct in b.holdings then b.holdings[acct] else [];
    b.(positions := b.positions[name := pos],
       holdings := b.holdings[acct := if name in held then held else held + [name]])
  }

  predicate NoDuplicates<T(==)>(xs: seq<T>) {
    forall i, j :: 0 <= i < j < |xs| ==> xs[i] != xs[j]
  }

  /** The holdings behave as sets of known position names. */
  ghost predicate HoldingsSound(b: Books) {
    forall a :: a in b.holdings ==>
      NoDuplicates(b.holdings[a]) && forall n :: n in b.holdings[a] ==> n in b.positions
  }

  /** Position updates keep every account's holdings a duplicate-free list of
      known positions. */
  lemma PositionUpdateSound(b: Books, pos: Position)
    requires HoldingsSound(b)
    ensures HoldingsSound(UpdateExchangePositionInfo(b, pos))
  {
    var r := UpdateExchangePositionInfo(b, pos);
    forall a | a in r.holdings
      ensures NoDuplicates(r.holdings[a]) && forall n :: n in r.holdings[a] ==> n in r.positions
    {
      if a != FutureAccount(pos) {
        assert r.holdings[a] == b.holdings[a];
      }
    }
  }

  /** Repeating a position update changes nothing: holdings have set
      semantics. */
  lemma PositionUpdateIdempotent(b: Books, pos: Position)
    ensures UpdateExchangePositionInfo(UpdateExchangePositionInfo(b, pos), pos) == UpdateExchangePositionInfo(b, pos)
  {
    var r := UpdateExchangePositionInfo(b, pos);
    var r2 := UpdateExchangePositionInfo(r, pos);
    assert r2.holdings == r.holdings;
  }

  /** Whether a tick's symbol is of interest: it prefixes a known position
      name, or it is the spot symbol of a balance account.  The position
      loop cannot raise; the account loop raises on a malformed account name
      reached before a match. */
  function NeedPrice(b: Books, tick: Tick): (r: Result<bool, DeltaError>)
    ensures (exists n :: n in b.positions && StartsWith(n, tick.vtSymbol)) ==> r == Ok(true)
    ensures (forall i :: 0 <= i < |b.accounts| ==> ToSpotVtSymbol(b.accounts[i]).Some?) ==>
              r.Ok? && (r.value <==> ((exists n :: n in b.positions && StartsWith(n, tick.vtSymbol))
                                     || exists i :: 0 <= i < |b.accounts| && ToSpotVtSymbol(b.accounts[i]) == Some(tick.vtSymbol)))
    ensures r.Err? ==> exists i :: 0 <= i < |b.accounts| && r.error == BadAccountName(b.accounts[i])
                                   && ToSpotVtSymbol(b.accounts[i]).None?
  {
    if exists n :: n in b.positions && StartsWith(n, tick.vtSymbol) then Ok(true)
    else SpotOfAccount(b.accounts, tick.vtSymbol)
  }

  /** The account loop of `needPrice`. */
  function SpotOfAccount(accounts: seq<string>, vtSymbol: string): (r: Result<bool, DeltaError>)
    ensures (forall i :: 0 <= i < |accounts| ==> ToSpotVtSymbol(accounts[i]).Some?) ==>
              r.Ok? && (r.value <==> exists i :: 0 <= i < |accounts| && ToSpotVtSymbol(accounts[i]) == Some(vtSymbol))
    ensures r.Err? ==> exists i :: 0 <= i < |accounts| && r.error == BadAccountName(accounts[i])
                                   && ToSpotVtSymbol(accounts[i]).None?
    decreases |accounts|
  {
    if |accounts| == 0 then Ok(false)
    else
      match ToSpotVtSymbol(accounts[0])
      case None => Err(BadAccountName(accounts[0]))
      case Some(spot) =>
        if spot == vtSymbol then Ok(true)
        else
          var rest := SpotOfAccount(accounts[1..], vtSymbol);
          assert forall i :: 0 <= i < |accounts[1..]| ==> accounts[1..][i] == accounts[i + 1];
          rest
  }

  // ---------------------------------------------------------------- readiness

  datatype Readiness = Ready | NotReady(msg: string)

  /** The price loop of `areYouReady`: each balance account, in order, must
      have a live price for its spot symbol. */
  function PricesKnown(b: Books, accounts: seq<string>): (r: Result<bool, DeltaError>)
    ensures (forall i :: 0 <= i < |accounts| ==> ToSpotVtSymbol(accounts[i]).Some?) ==>
              r.Ok? && (r.value <==> forall i :: 0 <= i < |accounts| ==> ToSpotVtSymbol(accounts[i]).value in b.livePrices)
    ensures r.Err? ==> exists i :: 0 <= i < |accounts| && ToSpotVtSymbol(accounts[i]).None?
    decreases |accounts|
  {
    if |accounts| == 0 then Ok(true)
    else
      match ToSpotVtSymbol(accounts[0])
      case None => Err(BadAccountName(accounts[0]))
      case Some(spot) =>
        if spot !in b.livePrices then Ok(false)
        else
          var rest := PricesKnown(b, accounts[1..]);
          assert forall i :: 0 <= i < |accounts[1..]| ==> accounts[1..][i] == accounts[i + 1];
          rest
  }

  /** `areYouReady`: once ready, always ready without re-checking; before
      that, ready exactly when every strategy's account has a balance and
      every balance account has a spot price, which sets the latch. */
  function AreYouReady(c: Calculator): (r: (Calculator, Result<Readiness, DeltaError>))
    ensures c.isReady ==> r == (c, Ok(Ready))
    ensures r.1 == Ok(Ready) ==> r.0 == c.(isReady := true)
    ensures r.1 != Ok(Ready) ==> r.0 == c
  {
    if c.isReady then (c, Ok(Ready))
    else if exists i :: 0 <= i < |c.strategies| && c.strategies[i].account !in c.books.balance then
      (c, Ok(NotReady("No account found.")))
    else
      match PricesKnown(c.books, c.books.accounts)
      case Err(e) => (c, Err(e))
      case Ok(false) => (c, Ok(NotReady("No Spot price to calculate the holding pos.")))
      case Ok(true) => (c.(isReady := true), Ok(Ready))
  }

  /** Before the latch is set, with well-formed account names, the answer is
      Ready exactly when the books cover every strategy and every account. */
  lemma ReadyMeaning(c: Calculator)
    requires !c.isReady
    requires forall i :: 0 <= i < |c.books.accounts| ==> ToSpotVtSymbol(c.books.accounts[i]).Some?
    ensures AreYouReady(c).1.Ok?
    ensures AreYouReady(c).1 == Ok(Ready) <==>
              && (forall i :: 0 <= i < |c.strategies| ==> c.strategies[i].account in c.books.balance)
              && (forall i :: 0 <= i < |c.books.accounts| ==> ToSpotVtSymbol(c.books.accounts[i]).value in c.books.livePrices)
  {
  }

  // ------------------------------------------------------------------ netting

  /** The sum of the LONG holdings' positions. */
  function LongTotal(ps: seq<Position>): int
    decreases |ps|
  {
    if |ps| == 0 then 0
    else LongTotal(ps[..|ps| - 1]) + (if ps[|ps| - 1].direction == Long then ps[|ps| - 1].position else 0)
  }

  /** The sum of every other holding's position. */
  function OtherTotal(ps: seq<Position>): int
    decreases |ps|
  {
    if |ps| == 0 then 0
    else OtherTotal(ps[..|ps| - 1]) + (if ps[|ps| - 1].direction != Long then ps[|ps| - 1].position else 0)
  }

  /** The netting loop of `runDeltaCheck` over an account's holdings; a name
      without a stored position raises. */
  function NetFuturePosition(positions: map<string, Position>, held: seq<string>): (r: Result<int, DeltaError>)
    ensures r.Err? <==> exists i :: 0 <= i < |held| && held[i] !in positions
    decreases |held|
  {
    if |held| == 0 then Ok(0)
    else
      var h := held[|held| - 1];
      match NetFuturePosition(positions, held[..|held| - 1])
      case Err(e) => Err(e)
      case Ok(net) =>
        if h !in positions then Err(MissingPosition(h))
        else
          var hp := positions[h];
          Ok(if hp.direction == Long then net + hp.position else net - hp.position)
  }

  /** The positions an account holds, in holding order. */
  function Held(positions: map<string, Position>, held: seq<string>): (ps: seq<Position>)
    requires forall i :: 0 <= i < |held| ==> held[i] in positions
    ensures |ps| == |held| && forall i :: 0 <= i < |held| ==> ps[i] == positions[held[i]]
  {
    seq(|held|, i requires 0 <= i < |held| && held[i] in positions => positions[held[i]])
  }

  /** The net future position is the LONG total minus the total of every
      other direction. */
  lemma {:induction false} NetIsLongMinusOther(positions: map<string, Position>, held: seq<string>)
    requires forall i :: 0 <= i < |held| ==> held[i] in positions
    ensures NetFuturePosition(positions, held) == Ok(LongTotal(Held(positions, held)) - OtherTotal(Held(positions, held)))
    decreases |held|
  {
    if |held| > 0 {
      var init := held[..|held| - 1];
      NetIsLongMinusOther(positions, init);
      assert Held(positions, held)[..|held| - 1] == Held(positions, init);
    }
  }

  // ------------------------------------------------------------ alert budget

  function Abs(x: real): real {
    if x < 0.0 then -x else x
  }

  /** The alert decision of one check: alert when the difference exceeds the
      threshold and budget remains, spending one unit of budget. */
  function Budget(remaining: int, percentDiff: real, threshold: real): (r: (bool, int))
    ensures r.0 <==> Abs(percentDiff) > threshold && remaining > 0
    ensures r.1 == if r.0 then remaining - 1 else remaining
  {
    if Abs(percentDiff) > threshold then
      if remaining > 0 then (true, remaining - 1) else (false, remaining)
    else (false, remaining)
  }

  /** The alerts a strategy sends over successive checks, and the budget
      left afterwards. */
  function AlertsOver(remaining: int, diffs: seq<real>, threshold: real): (r: (nat, int))
    decreases |diffs|
  {
    if |diffs| == 0 then (0, remaining)
    else
      var (sent, left) := Budget(remaining, diffs[0], threshold);
      var (more, final) := AlertsOver(left, diffs[1..], threshold);
      ((if sent then 1 else 0) + more, final)
  }

  /** The number of checks whose difference exceeds the threshold. */
  function Exceeding(diffs: seq<real>, threshold: real): nat
    decreases |diffs|
  {
    if |diffs| == 0 then 0 else (if Abs(diffs[0]) > threshold then 1 else 0) + Exceeding(diffs[1..], threshold)
  }

  /** Over any sequence of checks a strategy with budget `m >= 0` sends
      exactly min(m, exceeding checks) alerts, and its budget drops by that
      many and never below zero. */
  lemma {:induction false} BudgetNeverNegative(m: int, diffs: seq<real>, threshold: real)
    requires m >= 0
    ensures AlertsOver(m, diffs, threshold).1 == m - AlertsOver(m, diffs, threshold).0
    ensures AlertsOver(m, diffs, threshold).1 >= 0
    ensures AlertsOver(m, diffs, threshold).0 == if m < Exceeding(diffs, threshold) then m else Exceeding(diffs, threshold)
    decreases |diffs|
  {
    if |diffs| > 0 {
      var (sent, left) := Budget(m, diffs[0], threshold);
      BudgetNeverNegative(left, diffs[1..], threshold);
    }
  }

  // --------------------------------------------------------------- the check

  /** What the rounded floating-point arithmetic of a check is computed from. */
  datatype DeltaInputs = DeltaInputs(localPos: real, multiplier: int, exchangeSpotPos: real, spotPrice: real, exchangeNetFuturePos: int)

  datatype DeltaCheckResult = DeltaCheckResult(
    strategy: string,
    localPos: real,
    exchangeSpotPos: real,
    spotPrice: real,
    exchangeNetFuturePos: int,
    percentDiff: real,
    sendAlert: bool)

  /** The environment of a check: the persisted local position of
      (strategy, vtSymbol, table), None when the query finds nothing, and the
      percentage difference the float arithmetic yields. */
  datatype DeltaEnv = DeltaEnv(
    localPosition: (string, string, string) -> Option<real>,
    percentDiff: DeltaInputs -> real)

  /** One strategy of `runDeltaCheck`, its lookups in source order. */
  function CheckStrategy(c: Calculator, s: StrategySetting, env: DeltaEnv): (r: Result<DeltaCheckResult, DeltaError>)
    ensures var lp := env.localPosition(s.name, s.vtSymbol, s.table);
            var spot := ToSpotVtSymbol(s.account);
            && (s.name !in c.remainingAlerts ==> r == Err(MissingBudget(s.name)))
            && (s.name in c.remainingAlerts && lp.None? ==> r == Err(MissingLocalPosition(s.name)))
            && (s.name in c.remainingAlerts && lp.Some? && s.account !in c.books.balance ==> r == Err(MissingBalance(s.account)))
            && (s.name in c.remainingAlerts && lp.Some? && s.account in c.books.balance && spot.None? ==>
                  r == Err(BadAccountName(s.account)))
            && ((s.name in c.remainingAlerts && lp.Some? && s.account in c.books.balance && spot.Some? &&
                 spot.value !in c.books.livePrices) ==> r == Err(MissingPrice(spot.value)))
            && ((s.name in c.remainingAlerts && lp.Some? && s.account in c.books.balance && spot.Some? &&
                 spot.value in c.books.livePrices && s.account !in c.books.holdings) ==> r == Err(MissingHoldings(s.account)))
    ensures r.Ok? ==>
              && s.name in c.remainingAlerts && s.account in c.books.balance && s.account in c.books.holdings
              && env.localPosition(s.name, s.vtSymbol, s.table).Some?
              && ToSpotVtSymbol(s.account).Some? && ToSpotVtSymbol(s.account).value in c.books.livePrices
              && NetFuturePosition(c.books.positions, c.books.holdings[s.account]).Ok?
              && r.value.strategy == s.name
              && r.value.localPos == env.localPosition(s.name, s.vtSymbol, s.table).value
              && r.value.exchangeSpotPos == c.books.balance[s.account]
              && r.value.spotPrice == c.books.livePrices[ToSpotVtSymbol(s.account).value]
              && r.value.exchangeNetFuturePos == NetFuturePosition(c.books.positions, c.books.holdings[s.account]).value
              && (r.value.sendAlert <==> Abs(r.value.percentDiff) > s.threshold && c.remainingAlerts[s.name] > 0)
  {
    if s.name !in c.remainingAlerts then Err(MissingBudget(s.name))
    else
      match env.localPosition(s.name, s.vtSymbol, s.table)
      case None => Err(MissingLocalPosition(s.name))
      case Some(localPos) =>
        if s.account !in c.books.balance then Err(MissingBalance(s.account))
        else
          match ToSpotVtSymbol(s.account)
          case None => Err(BadAccountName(s.account))
          case Some(spot) =>
            if spot !in c.books.livePrices then Err(MissingPrice(spot))
            else if s.account !in c.books.holdings then Err(MissingHoldings(s.account))
            else
              match NetFuturePosition(c.books.positions, c.books.holdings[s.account])
              case Err(e) => Err(e)
              case Ok(net) =>
                var inputs := DeltaInputs(localPos, s.multiplier, c.books.balance[s.account], c.books.livePrices[spot], net);
                var pd := env.percentDiff(inputs);
                Ok(DeltaCheckResult(s.name, localPos, inputs.exchangeSpotPos, inputs.spotPrice, net, pd,
                                    Budget(c.remainingAlerts[s.name], pd, s.threshold).0))
  }

  /** `runDeltaCheck` over the strategies from index `i`: one result each, the
      budget spent as it goes; a lookup failure raises and keeps what was
      spent before it. */
  function RunDeltaCheckFrom(c: Calculator, i: nat, env: DeltaEnv): (r: (Calculator, Result<seq<DeltaCheckResult>, DeltaError>))
    requires i <= |c.strategies|
    ensures r.0.strategies == c.strategies && r.0.books == c.books && r.0.scheduler == c.scheduler && r.0.isReady == c.isReady
    decreases |c.strategies| - i
  {
    if i == |c.strategies| then (c, Ok([]))
    else
      var s := c.strategies[i];
      match CheckStrategy(c, s, env)
      case Err(e) => (c, Err(e))
      case Ok(res) =>
        var c1 := c.(remainingAlerts := c.remainingAlerts[s.name := Budget(c.remainingAlerts[s.name], res.percentDiff, s.threshold).1]);
        var (c2, rest) := RunDeltaCheckFrom(c1, i + 1, env);
        (c2, if rest.Ok? then Ok([res] + rest.value) else rest)
  }

  function RunDeltaCheck(c: Calculator, env: DeltaEnv): (r: (Calculator, Result<seq<DeltaCheckResult>, DeltaError>))
    ensures r.0.strategies == c.strategies && r.0.books == c.books && r.0.scheduler == c.scheduler && r.0.isReady == c.isReady
  {
    RunDeltaCheckFrom(c, 0, env)
  }

  /** What a completed check reports for strategy `s`: a result under its
      name that alerts exactly when the difference exceeds the threshold with
      budget left, and a budget one lower exactly then. */
  ghost predicate ReportsFor(c: Calculator, c': Calculator, s: StrategySetting, res: DeltaCheckResult) {
    && res.strategy == s.name
    && s.name in c.remainingAlerts && s.name in c'.remainingAlerts
    && (res.sendAlert <==> Abs(res.percentDiff) > s.threshold && c.remainingAlerts[s.name] > 0)
    && c'.remainingAlerts[s.name] == c.remainingAlerts[s.name] - (if res.sendAlert then 1 else 0)
  }

  /** A completed check has one result per strategy, in strategy order; each
      alerts exactly when its difference exceeds the threshold with budget
      left, and its budget drops by one exactly then. */
  lemma RunDeltaCheckFromMeaning(c: Calculator, i: nat, env: DeltaEnv)
    requires i <= |c.strategies|
    ensures
      var (c', r) := RunDeltaCheckFrom(c, i, env);
      r.Ok? ==>
        && |r.value| == |c.strategies| - i
        && forall k :: i <= k < |c.strategies| ==> ReportsFor(c, c', c.strategies[k], r.value[k - i])
  {
    RunDeltaCheckFromLength(c, i, env);
    var (c', r) := RunDeltaCheckFrom(c, i, env);
    if r.Ok? {
      forall k | i <= k < |c.strategies| ensures ReportsFor(c, c', c.strategies[k], r.value[k - i]) {
        RunDeltaCheckFromAt(c, i, env, k);
      }
    }
  }

  lemma {:induction false} RunDeltaCheckFromLength(c: Calculator, i: nat, env: DeltaEnv)
    requires i <= |c.strategies|
    ensures var r := RunDeltaCheckFrom(c, i, env).1; r.Ok? ==> |r.value| == |c.strategies| - i
    decreases |c.strategies| - i
  {
    if i < |c.strategies| {
      var s := c.strategies[i];
      var cs := CheckStrategy(c, s, env);
      if cs.Ok? {
        var c1 := c.(remainingAlerts := c.remainingAlerts[s.name := Budget(c.remainingAlerts[s.name], cs.value.percentDiff, s.threshold).1]);
        RunDeltaCheckFromLength(c1, i + 1, env);
      }
    }
  }

  lemma {:induction false} RunDeltaCheckFromAt(c: Calculator, i: nat, env: DeltaEnv, k: nat)
    requires i <= k < |c.strategies|
    ensures
      var (c', r) := RunDeltaCheckFrom(c, i, env);
      r.Ok? ==> |r.value| == |c.strategies| - i && ReportsFor(c, c', c.strategies[k], r.value[k - i])
    decreases |c.strategies| - i
  {
    if k == i {
      RunDeltaCheckFromHead(c, i, env);
    } else {
      var s := c.strategies[i];
      var cs := CheckStrategy(c, s, env);
      if cs.Ok? {
        var c1 := c.(remainingAlerts := c.remainingAlerts[s.name := Budget(c.remainingAlerts[s.name], cs.value.percentDiff, s.threshold).1]);
        assert c.strategies[k].name != s.name;
        RunDeltaCheckFromAt(c1, i + 1, env, k);
      }
    }
  }

  /** The first strategy checked is reported, and no later one touches its
      budget. */
  lemma RunDeltaCheckFromHead(c: Calculator, i: nat, env: DeltaEnv)
    requires i < |c.strategies|
    ensures
      var (c', r) := RunDeltaCheckFrom(c, i, env);
      r.Ok? ==> |r.value| == |c.strategies| - i && ReportsFor(c, c', c.strategies[i], r.value[0])
  {
    var s := c.strategies[i];
    var cs := CheckStrategy(c, s, env);
    if cs.Ok? {
      var c1 := c.(remainingAlerts := c.remainingAlerts[s.name := Budget(c.remainingAlerts[s.name], cs.value.percentDiff, s.threshold).1]);
      RunDeltaCheckFromLength(c1, i + 1, env);
      forall j | i < j < |c.strategies| ensures c.strategies[j].name != s.name {
      }
      BudgetUntouched(c1, i + 1, env, s.name);
    }
  }

  /** Strategies before `i` keep their budget. */
  lemma {:induction false} BudgetUntouched(c: Calculator, i: nat, env: DeltaEnv, name: string)
    requires i <= |c.strategies|
    requires forall k :: i <= k < |c.strategies| ==> c.strategies[k].name != name
    ensures (name in RunDeltaCheckFrom(c, i, env).0.remainingAlerts <==> name in c.remainingAlerts)
    ensures name in c.remainingAlerts ==> RunDeltaCheckFrom(c, i, env).0.remainingAlerts[name] == c.remainingAlerts[name]
    decreases |c.strategies| - i
  {
    if i < |c.strategies| {
      var s := c.strategies[i];
      var cs := CheckStrategy(c, s, env);
      if cs.Ok? {
        var c1 := c.(remainingAlerts := c.remainingAlerts[s.name := Budget(c.remainingAlerts[s.name], cs.value.percentDiff, s.threshold).1]);
        BudgetUntouched(c1, i + 1, env, name);
      }
    }
  }

  /** The netted position a result reports is the LONG total minus the rest
      over the account's holdings. */
  lemma CheckStrategyNets(c: Calculator, s: StrategySetting, env: DeltaEnv)
    requires CheckStrategy(c, s, env).Ok?
    ensures s.account in c.books.holdings
    ensures forall i :: 0 <= i < |c.books.holdings[s.account]| ==> c.books.holdings[s.account][i] in c.books.positions
    ensures
      var ps := Held(c.books.positions, c.books.holdings[s.account]);
      CheckStrategy(c, s, env).value.exchangeNetFuturePos == LongTotal(ps) - OtherTotal(ps)
  {
    NetIsLongMinusOther(c.books.positions, c.books.holdings[s.account]);
  }

  /** No strategy's remaining budget is negative. */
  ghost predicate BudgetsNonNegative(c: Calculator) {
    forall n :: n in c.remainingAlerts ==> c.remainingAlerts[n] >= 0
  }

  /** A check never drives a non-negative budget below zero. */
  lemma {:induction false} RunDeltaCheckKeepsBudget(c: Calculator, i: nat, env: DeltaEnv)
    requires i <= |c.strategies| && BudgetsNonNegative(c)
    ensures BudgetsNonNegative(RunDeltaCheckFrom(c, i, env).0)
    decreases |c.strategies| - i
  {
    if i < |c.strategies| {
      var s := c.strategies[i];
      var cs := CheckStrategy(c, s, env);
      if cs.Ok? {
        var c1 := c.(remainingAlerts := c.remainingAlerts[s.name := Budget(c.remainingAlerts[s.name], cs.value.percentDiff, s.threshold).1]);
        assert BudgetsNonNegative(c1);
        RunDeltaCheckKeepsBudget(c1, i + 1, env);
      }
    }
  }
}

=== FILE: events.dfy ===
/** The event payloads the alert service consumes.  Numeric quantities the
    service only compares or sums are `int`/`real`; those it only formats for
    a message are carried as their already-formatted text. */
module Events {

  /** The order states of the trading platform's constants. */
  datatype OrderStatus = NotTraded | PartTraded | AllTraded | Cancelled | Rejected | UnknownStatus

  /** An order update; `direction` is the direction constant's text. */
  datatype Order = Order(
    orderID: string,
    vtSymbol: string,
    direction: string,
    status: OrderStatus,
    tradedVolume: string,
    totalVolume: string,
    price: string)

  /** `Long` is the platform's long-direction constant; every other
      direction is netted against it. */
  datatype Direction = Long | Short | OtherDirection

  /** A position update. */
  datatype Position = Position(
    vtPositionName: string,
    symbol: string,
    exchange: string,
    direction: Direction,
    position: int,
    price: real)

  /** An account update. */
  datatype AccountInfo = AccountInfo(vtAccountID: string, balance: real, margin: real)

  /** A market-data tick. */
  datatype Tick = Tick(vtSymbol: string, lastPrice: real)
}

=== FILE: percent.dfy ===
/** Python 2 `urllib.quote(s, safe='')` and `urllib.unquote`: letters,
    digits and `_.-` pass through, every other byte becomes `%XX` with
    upper-case hex digits.  A character beyond one byte cannot be looked up
    in the quoting table and raises. */
module Percent {

  import opened Wrappers

  /** The characters `quote` never encodes when `safe` is empty. */
  predicate Unreserved(c: char) {
    ('A' <= c <= 'Z') || ('a' <= c <= 'z') || ('0' <= c <= '9') || c == '_' || c == '.' || c == '-'
  }

  predicate IsByte(c: char) {
    c as int < 256
  }

  /** `'%X'` of one nibble. */
  function HexDigit(n: int): (c: char)
    requires 0 <= n < 16
    ensures '0' <= c <= '9' || 'A' <= c <= 'F'
  {
    if n < 10 then ('0' as int + n) as char else ('A' as int + n - 10) as char
  }

  /** The value of a hex digit of either case, as `unquote` reads it. */
  function HexValue(c: char): (v: Option<int>)
    ensures v.Some? ==> 0 <= v.value < 16
  {
    if '0' <= c <= '9' then Some(c as int - '0' as int)
    else if 'A' <= c <= 'F' then Some(c as int - 'A' as int + 10)
    else if 'a' <= c <= 'f' then Some(c as int - 'a' as int + 10)
    else None
  }

  lemma HexRoundTrip(n: int)
    requires 0 <= n < 16
    ensures HexValue(HexDigit(n)) == Some(n)
  {
  }

  /** One character, quoted. */
  function QuoteChar(c: char): (q: string)
    requires IsByte(c)
  {
    if Unreserved(c) then [c] else ['%', HexDigit(c as int / 16), HexDigit(c as int % 16)]
  }

  /** `quote(s, safe='')`; None where a character is wider than a byte. */
  function Quote(s: string): (r: Option<string>)
    ensures r.Some? <==> forall i :: 0 <= i < |s| ==> IsByte(s[i])
    ensures r.Some? ==> |r.value| >= |s|
    decreases |s|
  {
    if |s| == 0 then Some("")
    else if !IsByte(s[0]) then None
    else
      match Quote(s[1..])
      case None => None
      case Some(rest) => Some(QuoteChar(s[0]) + rest)
  }

  /** Every character of a quoted string is unreserved, `%` or an upper-case
      hex digit. */
  predicate QuotedAlphabet(c: char) {
    Unreserved(c) || c == '%'
  }

  lemma {:induction false} QuoteAlphabet(s: string)
    requires Quote(s).Some?
    ensures forall i :: 0 <= i < |Quote(s).value| ==> QuotedAlphabet(Quote(s).value[i])
    decreases |s|
  {
    if |s| > 0 {
      QuoteAlphabet(s[1..]);
      var q := QuoteChar(s[0]);
      var rest := Quote(s[1..]).value;
      assert Quote(s).value == q + rest;
      forall i | 0 <= i < |q + rest| ensures QuotedAlphabet((q + rest)[i]) {
        if i >= |q| {
          assert (q + rest)[i] == rest[i - |q|];
        }
      }
    }
  }

  /** A string of unreserved characters quotes to itself. */
  lemma {:induction false} QuoteUnreserved(s: string)
    requires forall i :: 0 <= i < |s| ==> Unreserved(s[i])
    ensures Quote(s) == Some(s)
    decreases |s|
  {
    if |s| > 0 {
      QuoteUnreserved(s[1..]);
      assert s == [s[0]] + s[1..];
    }
  }

  /** `unquote`: a `%` followed by two hex digits is the byte they spell;
      anything else is kept. */
  function Unquote(s: string): string
    decreases |s|
  {
    if |s| == 0 then ""
    else if |s| >= 3 && s[0] == '%' && HexValue(s[1]).Some? && HexValue(s[2]).Some? then
      [(HexValue(s[1]).value * 16 + HexValue(s[2]).value) as char] + Unquote(s[3..])
    else [s[0]] + Unquote(s[1..])
  }

  lemma UnquoteChar(c: char, rest: string)
    requires IsByte(c)
    ensures Unquote(QuoteChar(c) + rest) == [c] + Unquote(rest)
  {
    var q := QuoteChar(c);
    if Unreserved(c) {
      assert (q + rest)[1..] == rest;
    } else {
      var n := c as int;
      HexRoundTrip(n / 16);
      HexRoundTrip(n % 16);
      assert (q + rest)[3..] == rest;
      assert (n / 16) * 16 + n % 16 == n;
    }
  }

  /** Unquoting undoes quoting. */
  lemma {:induction false} UnquoteQuote(s: string)
    requires Quote(s).Some?
    ensures Unquote(Quote(s).value) == s
    decreases |s|
  {
    if |s| > 0 {
      UnquoteQuote(s[1..]);
      UnquoteChar(s[0], Quote(s[1..]).value);
      assert s == [s[0]] + s[1..];
    }
  }

  /** `quote` is injective: different byte strings never quote alike. */
  lemma QuoteInjective(s: string, t: string)
    requires Quote(s).Some? && Quote(t).Some? && Quote(s) == Quote(t)
    ensures s == t
  {
    UnquoteQuote(s);
    UnquoteQuote(t);
  }

  /** Quoting distributes over concatenation. */
  lemma {:induction false} QuoteAppend(s: string, t: string)
    ensures Quote(s + t).Some? <==> Quote(s).Some? && Quote(t).Some?
    ensures Quote(s + t).Some? ==> Quote(s + t).value == Quote(s).value + Quote(t).value
    decreases |s|
  {
    if |s| == 0 {
      assert s + t == t;
    } else {
      assert (s + t)[0] == s[0];
      assert (s + t)[1..] == s[1..] + t;
      QuoteAppend(s[1..], t);
      if IsByte(s[0]) && Quote(s[1..] + t).Some? {
        var q := QuoteChar(s[0]);
        var a, b := Quote(s[1..]).value, Quote(t).value;
        assert q + (a + b) == (q + a) + b;
      }
    }
  }
}

=== FILE: scanner.dfy ===
/** The two classification passes `mongoDataChecker` runs over one query
    result: the missing-point scan over a fixed-step grid and the grouping of
    records that share a timestamp. */
module Scanner {

  import opened Bars

  /** The grid `s, s + d, s + 2d, …` up to and including `until`. */
  function Grid(s: Timestamp, until: Timestamp, d: int): seq<Timestamp>
    requires d > 0
    decreases until - s
  {
    if s > until then [] else [s] + Grid(s + d, until, d)
  }

  /** The grid's i-th point is `s + i*d`; its last point is within the window
      and the next one would not be, so its length is the number of steps
      that fit between `s` and `until`, both ends included. */
  lemma {:induction false} GridShape(s: Timestamp, until: Timestamp, d: int)
    requires d > 0
    ensures forall i :: 0 <= i < |Grid(s, until, d)| ==> Grid(s, until, d)[i] == s + i * d
    ensures |Grid(s, until, d)| > 0 ==> s + (|Grid(s, until, d)| - 1) * d <= until
    ensures s + |Grid(s, until, d)| * d > until
    decreases until - s
  {
    if s <= until {
      var rest := Grid(s + d, until, d);
      GridShape(s + d, until, d);
      var g := [s] + rest;
      assert s + |g| * d == s + d + |rest| * d;
      assert |rest| > 0 ==> s + (|g| - 1) * d == s + d + (|rest| - 1) * d;
      forall i | 1 <= i < |g| ensures g[i] == s + i * d {
        assert g[i] == rest[i - 1] == s + d + (i - 1) * d;
      }
    }
  }

  /** Membership in the grid of a period: exactly the points on the step
      lattice from `s` that fall inside the window. */
  lemma GridMembers(s: Timestamp, until: Timestamp, p: Period, t: Timestamp)
    ensures t in Grid(s, until, TimeDelta(p)) <==> s <= t <= until && (t - s) % TimeDelta(p) == 0
  {
    var d := TimeDelta(p);
    var g := Grid(s, until, d);
    GridShape(s, until, d);
    if t in g {
      var i :| 0 <= i < |g| && g[i] == t;
      match p
      case OneMin => assert t - s == i * 60;
      case OneDay => assert t - s == i * 86400;
    }
    if s <= t <= until && (t - s) % d == 0 {
      var i := (t - s) / d;
      match p
      case OneMin =>
        assert t == s + i * 60;
        assert i < |g|;
        assert g[i] == t;
      case OneDay =>
        assert t == s + i * 86400;
        assert i < |g|;
        assert g[i] == t;
    }
  }

  lemma GridStep(s: Timestamp, until: Timestamp, d: int, stored: seq<Timestamp>)
    requires d > 0 && s <= until
    ensures Grid(s, until, d) == [s] + Grid(s + d, until, d)
    ensures Absent(Grid(s, until, d), stored)
            == (if s !in stored then [s] else []) + Absent(Grid(s + d, until, d), stored)
  {
    assert ([s] + Grid(s + d, until, d))[1..] == Grid(s + d, until, d);
  }

  /** A window shorter than one step still checks its first point. */
  lemma GridShortWindow(s: Timestamp, until: Timestamp, d: int)
    requires d > 0 && s <= until < s + d
    ensures |Grid(s, until, d)| == 1
  {
    GridShape(s, until, d);
  }

  predicate StrictlyAscending(ts: seq<Timestamp>) {
    forall i, j :: 0 <= i < j < |ts| ==> ts[i] < ts[j]
  }

  /** The grid points with no stored record: what the scan appends to `missedTimeList`. */
  function Absent(g: seq<Timestamp>, stored: seq<Timestamp>): seq<Timestamp>
    decreases |g|
  {
    if |g| == 0 then []
    else (if g[0] !in stored then [g[0]] else []) + Absent(g[1..], stored)
  }

  /** The reported points are the grid points not among the stored timestamps. */
  lemma {:induction false} AbsentMembers(g: seq<Timestamp>, stored: seq<Timestamp>)
    ensures forall t :: t in Absent(g, stored) <==> t in g && t !in stored
    decreases |g|
  {
    if |g| > 0 {
      AbsentMembers(g[1..], stored);
      assert g == [g[0]] + g[1..];
    }
  }

  /** The report keeps grid order, so an ascending grid gives an ascending report. */
  lemma {:induction false} AbsentAscending(g: seq<Timestamp>, stored: seq<Timestamp>)
    requires StrictlyAscending(g)
    ensures StrictlyAscending(Absent(g, stored))
    decreases |g|
  {
    if |g| > 0 {
      var rest := Absent(g[1..], stored);
      assert StrictlyAscending(g[1..]);
      AbsentAscending(g[1..], stored);
      AbsentMembers(g[1..], stored);
      if g[0] !in stored {
        var a := [g[0]] + rest;
        forall i, j | 0 <= i < j < |a| ensures a[i] < a[j] {
          if i == 0 {
            assert a[j] == rest[j - 1] && rest[j - 1] in rest;
            var k :| 0 <= k < |g[1..]| && g[1..][k] == a[j];
            assert g[k + 1] == a[j];
          } else {
            assert a[i] == rest[i - 1] && a[j] == rest[j - 1];
          }
        }
      }
    }
  }

  /** `t` is stored after the second pass exactly when the first pass had it
      or the second supplied it. */
  predicate Covers(t: Timestamp, s0: seq<Timestamp>, r: seq<Timestamp>, s1: seq<Timestamp>) {
    t in s1 <==> t in s0 || t in r
  }

  /** Filtering twice equals filtering once by the union of what each pass
      knows: the basis of the backfill's convergence. */
  lemma {:induction false} AbsentTwice(g: seq<Timestamp>, s0: seq<Timestamp>, r: seq<Timestamp>, s1: seq<Timestamp>)
    requires forall t :: t in g ==> Covers(t, s0, r, s1)
    ensures Absent(Absent(g, s0), r) == Absent(g, s1)
    decreases |g|
  {
    if |g| > 0 {
      var x := g[0];
      assert x in g;
      assert Covers(x, s0, r, s1);
      forall t | t in g[1..] ensures Covers(t, s0, r, s1) {
        assert t in g;
      }
      AbsentTwice(g[1..], s0, r, s1);
      var rest := Absent(g[1..], s0);
      AbsentCons(g, s0);
      AbsentCons(g, s1);
      if x !in s0 {
        AbsentCons([x] + rest, r);
        assert ([x] + rest)[1..] == rest;
      } else {
        assert x in s1;
        assert Absent(g, s1) == Absent(g[1..], s1);
        assert Absent(g, s0) == rest;
      }
    }
  }

  lemma AbsentCons(g: seq<Timestamp>, stored: seq<Timestamp>)
    requires |g| > 0
    ensures Absent(g, stored) == (if g[0] !in stored then [g[0]] else []) + Absent(g[1..], stored)
  {
  }

  /** The points `checkMissingForCollection` reports for one query result. */
  function MissingPoints(dbData: seq<Bar>, since: Timestamp, until: Timestamp, p: Period): seq<Timestamp> {
    Absent(Grid(Truncate(since), until, TimeDelta(p)), Times(dbData))
  }

  /** The grid points that do have a stored record. */
  function Present(g: seq<Timestamp>, stored: seq<Timestamp>): (p: seq<Timestamp>)
    ensures forall t :: t in p <==> t in g && t in stored
    decreases |g|
  {
    if |g| == 0 then []
    else
      var rest := Present(g[1..], stored);
      assert g == [g[0]] + g[1..];
      if g[0] in stored then [g[0]] + rest else rest
  }

  /** Every checked point is either missing or found: the two counters the
      scan logs always add up to the number of points checked. */
  lemma {:induction false} AbsentPlusPresent(g: seq<Timestamp>, stored: seq<Timestamp>)
    ensures |Absent(g, stored)| + |Present(g, stored)| == |g|
    decreases |g|
  {
    if |g| > 0 {
      AbsentPlusPresent(g[1..], stored);
    }
  }

  /** `checkMissingForCollection`: walks the grid from `since` with its seconds
      cleared up to `until` inclusive and reports the points no record carries. */
  method CheckMissing(dbData: seq<Bar>, since: Timestamp, until: Timestamp, period: Period)
    returns (missed: seq<Timestamp>, missingCount: nat, totalCount: nat)
    ensures missed == Absent(Grid(Truncate(since), until, TimeDelta(period)), Times(dbData))
    ensures StrictlyAscending(missed)
    ensures forall t :: t in missed <==>
              Truncate(since) <= t <= until && (t - Truncate(since)) % TimeDelta(period) == 0
              && |Occ(dbData, t)| == 0
    ensures missingCount == |missed|
    ensures totalCount == |Grid(Truncate(since), until, TimeDelta(period))|
  {
    missed, missingCount, totalCount := WalkGrid(Truncate(since), until, TimeDelta(period), Times(dbData));
    MissedPoints(dbData, Truncate(since), until, period);
  }

  /** The scan's loop: every grid point from `s` up to `until` is counted,
      and the ones not among the stored timestamps are reported in order. */
  method WalkGrid(s: Timestamp, until: Timestamp, d: int, persisted: seq<Timestamp>)
    returns (missed: seq<Timestamp>, missingCount: nat, totalCount: nat)
    requires d > 0
    ensures missed == Absent(Grid(s, until, d), persisted)
    ensures missingCount == |missed|
    ensures totalCount == |Grid(s, until, d)|
  {
    var t := s;
    missed := [];
    missingCount := 0;
    totalCount := 0;
    while t <= until
      invariant Absent(Grid(s, until, d), persisted) == missed + Absent(Grid(t, until, d), persisted)
      invariant |Grid(s, until, d)| == totalCount + |Grid(t, until, d)|
      invariant missingCount == |missed|
      decreases until - t
    {
      var found := if t !in persisted then [t] else [];
      MissStep(missed, t, until, d, persisted);
      missed := missed + found;
      missingCount := missingCount + |found|;
      totalCount := totalCount + 1;
      t := t + d;
    }
    assert Grid(t, until, d) == [];
  }

  /** One step of the scan moves the grid's first point into the report when
      it has no record. */
  lemma MissStep(missed: seq<Timestamp>, s: Timestamp, until: Timestamp, d: int, stored: seq<Timestamp>)
    requires d > 0 && s <= until
    ensures missed + Absent(Grid(s, until, d), stored)
            == (missed + (if s !in stored then [s] else [])) + Absent(Grid(s + d, until, d), stored)
    ensures |Grid(s, until, d)| == 1 + |Grid(s + d, until, d)|
  {
    GridStep(s, until, d, stored);
  }

  /** The points the scan reports, described without the scan: ascending, and
      exactly the lattice points of the window that no record carries. */
  lemma MissedPoints(dbData: seq<Bar>, s: Timestamp, until: Timestamp, p: Period)
    ensures StrictlyAscending(Absent(Grid(s, until, TimeDelta(p)), Times(dbData)))
    ensures forall t :: t in Absent(Grid(s, until, TimeDelta(p)), Times(dbData)) <==>
              s <= t <= until && (t - s) % TimeDelta(p) == 0 && |Occ(dbData, t)| == 0
  {
    GridAscending(s, until, TimeDelta(p));
    AbsentMembers(Grid(s, until, TimeDelta(p)), Times(dbData));
    AbsentAscending(Grid(s, until, TimeDelta(p)), Times(dbData));
    forall t ensures t in Absent(Grid(s, until, TimeDelta(p)), Times(dbData)) <==>
        s <= t <= until && (t - s) % TimeDelta(p) == 0 && |Occ(dbData, t)| == 0
    {
      GridMembers(s, until, p, t);
      TimesOcc(dbData, t);
    }
  }

  lemma GridAscending(s: Timestamp, until: Timestamp, d: int)
    requires d > 0
    ensures StrictlyAscending(Grid(s, until, d))
  {
    var g := Grid(s, until, d);
    GridShape(s, until, d);
    forall i, j | 0 <= i < j < |g| ensures g[i] < g[j] {
      StepsIncrease(i, j, d);
    }
  }

  lemma StepsIncrease(i: int, j: int, d: int)
    requires 0 <= i < j && d > 0
    ensures i * d < j * d
  {
    assert j * d == i * d + (j - i) * d;
  }

  /** The order `checkDuplicatesForCollection` builds a group in: the second
      record seen, then the first, then the rest as met. */
  function Arrange(occ: seq<Bar>): seq<Bar>
    requires |occ| >= 2
  {
    [occ[1], occ[0]] + occ[2..]
  }

  /** The duplicate groups of a query result, keyed by timestamp. */
  function DuplicateGroups(xs: seq<Bar>): map<Timestamp, seq<Bar>> {
    map t | t in TimeSet(xs) && |Occ(xs, t)| >= 2 :: Arrange(Occ(xs, t))
  }

  /** What the duplicate scan knows after reading the records `p`. */
  ghost predicate DupScanned(p: seq<Bar>, full: map<Timestamp, Bar>, groups: map<Timestamp, seq<Bar>>, counter: int) {
    && full.Keys == TimeSet(p)
    && (forall t :: t in full ==> |Occ(p, t)| >= 1 && full[t] == Occ(p, t)[0])
    && (forall t :: t in groups <==> |Occ(p, t)| >= 2)
    && (forall t :: t in groups ==> groups[t] == Arrange(Occ(p, t)))
    && counter == |p| - |full.Keys|
  }

  lemma DupScanStep(p: seq<Bar>, b: Bar, q: seq<Bar>,
                    full: map<Timestamp, Bar>, groups: map<Timestamp, seq<Bar>>, counter: int,
                    full': map<Timestamp, Bar>, groups': map<Timestamp, seq<Bar>>, counter': int)
    requires q == p + [b]
    requires DupScanned(p, full, groups, counter)
    requires b.datetime in full ==>
               && full' == full && counter' == counter + 1
               && groups' == if b.datetime in groups then groups[b.datetime := groups[b.datetime] + [b]]
                             else groups[b.datetime := [b, full[b.datetime]]]
    requires b.datetime !in full ==> full' == full[b.datetime := b] && groups' == groups && counter' == counter
    ensures DupScanned(q, full', groups', counter')
    ensures counter' >= counter
  {
    DupScanStepKeys(p, b, full, full', counter, counter');
    forall t
      ensures t in full' ==> |Occ(p + [b], t)| >= 1 && full'[t] == Occ(p + [b], t)[0]
      ensures t in groups' <==> |Occ(p + [b], t)| >= 2
      ensures t in groups' ==> groups'[t] == Arrange(Occ(p + [b], t))
    {
      TimesOcc(p, t);
      TimesOcc(p, b.datetime);
      DupScanStepAt(p, b, full, groups, full', groups', t);
    }
  }

  lemma DupScanStepAt(p: seq<Bar>, b: Bar,
                      full: map<Timestamp, Bar>, groups: map<Timestamp, seq<Bar>>,
                      full': map<Timestamp, Bar>, groups': map<Timestamp, seq<Bar>>, t: Timestamp)
    requires t in full <==> |Occ(p, t)| >= 1
    requires t in full ==> full[t] == Occ(p, t)[0]
    requires b.datetime in full <==> |Occ(p, b.datetime)| >= 1
    requires b.datetime in full ==> full[b.datetime] == Occ(p, b.datetime)[0]
    requires t in groups <==> |Occ(p, t)| >= 2
    requires t in groups ==> groups[t] == Arrange(Occ(p, t))
    requires b.datetime in groups <==> |Occ(p, b.datetime)| >= 2
    requires b.datetime in full ==>
               && full' == full
               && groups' == if b.datetime in groups then groups[b.datetime := groups[b.datetime] + [b]]
                             else groups[b.datetime := [b, full[b.datetime]]]
    requires b.datetime !in full ==> full' == full[b.datetime := b] && groups' == groups
    ensures t in full' ==> |Occ(p + [b], t)| >= 1 && full'[t] == Occ(p + [b], t)[0]
    ensures t in groups' <==> |Occ(p + [b], t)| >= 2
    ensures t in groups' ==> groups'[t] == Arrange(Occ(p + [b], t))
  {
    OccAppend(p, [b], t);
    if t == b.datetime {
      DupScanStepSame(p, b, full, groups, full', groups');
    } else {
      assert Occ([b], t) == [];
      assert Occ(p + [b], t) == Occ(p, t);
    }
  }

  /** The record's own timestamp: remembered when new, grouped when seen. */
  lemma DupScanStepSame(p: seq<Bar>, b: Bar,
                        full: map<Timestamp, Bar>, groups: map<Timestamp, seq<Bar>>,
                        full': map<Timestamp, Bar>, groups': map<Timestamp, seq<Bar>>)
    requires b.datetime in full <==> |Occ(p, b.datetime)| >= 1
    requires b.datetime in full ==> full[b.datetime] == Occ(p, b.datetime)[0]
    requires b.datetime in groups <==> |Occ(p, b.datetime)| >= 2
    requires b.datetime in groups ==> groups[b.datetime] == Arrange(Occ(p, b.datetime))
    requires b.datetime in full ==>
               && full' == full
               && groups' == if b.datetime in groups then groups[b.datetime := groups[b.datetime] + [b]]
                             else groups[b.datetime := [b, full[b.datetime]]]
    requires b.datetime !in full ==> full' == full[b.datetime := b] && groups' == groups
    ensures var t := b.datetime;
            && Occ(p + [b], t) == Occ(p, t) + [b]
            && t in full' && full'[t] == Occ(p + [b], t)[0]
            && (t in groups' <==> |Occ(p + [b], t)| >= 2)
            && (t in groups' ==> groups'[t] == Arrange(Occ(p + [b], t)))
  {
    var t := b.datetime;
    var o := Occ(p, t);
    OccAppend(p, [b], t);
    assert Occ([b], t) == [b];
    assert Occ(p + [b], t) == o + [b];
    if t in groups {
      assert Arrange(o + [b]) == Arrange(o) + [b];
    }
  }

  lemma DupScanStepKeys(p: seq<Bar>, b: Bar, full: map<Timestamp, Bar>, full': map<Timestamp, Bar>, counter: int, counter': int)
    requires full.Keys == TimeSet(p) && counter == |p| - |full.Keys|
    requires b.datetime in full ==> full' == full && counter' == counter + 1
    requires b.datetime !in full ==> full' == full[b.datetime := b] && counter' == counter
    ensures full'.Keys == TimeSet(p + [b]) && counter' == |p + [b]| - |full'.Keys|
  {
    assert TimeSet(p + [b]) == TimeSet(p) + {b.datetime};
    if b.datetime !in full {
      assert full'.Keys == full.Keys + {b.datetime};
    }
  }

  /** One record of the duplicate scan: a new timestamp is remembered, a seen
      one joins (or opens) its group and counts once. */
  method DupVisit(xs: seq<Bar>, i: nat, full: map<Timestamp, Bar>,
                  groups: map<Timestamp, seq<Bar>>, counter: nat)
    returns (full': map<Timestamp, Bar>, groups': map<Timestamp, seq<Bar>>, counter': nat)
    requires i < |xs|
    requires DupScanned(xs[..i], full, groups, counter)
    ensures DupScanned(xs[..i + 1], full', groups', counter')
  {
    var b := xs[i];
    var ct := b.datetime;
    full', groups', counter' := full, groups, counter;
    if ct in full {
      counter' := counter + 1;
      if ct in groups {
        groups' := groups[ct := groups[ct] + [b]];
      } else {
        groups' := groups[ct := [b, full[ct]]];
      }
    } else {
      full' := full[ct := b];
    }
    assert xs[..i + 1] == xs[..i] + [b];
    DupScanStep(xs[..i], b, xs[..i + 1], full, groups, counter, full', groups', counter');
  }

  /** `checkDuplicatesForCollection`: one pass over the records remembering the
      first record per timestamp and collecting every later one into a group. */
  method CheckDuplicates(dbData: seq<Bar>) returns (groups: map<Timestamp, seq<Bar>>, counter: nat)
    ensures groups == DuplicateGroups(dbData)
    ensures counter == |dbData| - |TimeSet(dbData)|
  {
    var fullTimeList: map<Timestamp, Bar> := map[];
    groups := map[];
    counter := 0;
    var i := 0;
    assert dbData[..0] == [];
    while i < |dbData|
      invariant 0 <= i <= |dbData|
      invariant DupScanned(dbData[..i], fullTimeList, groups, counter)
    {
      fullTimeList, groups, counter := DupVisit(dbData, i, fullTimeList, groups, counter);
      i := i + 1;
    }
    DupScanDone(dbData, fullTimeList, groups, counter);
  }

  lemma DupScanDone(xs: seq<Bar>, full: map<Timestamp, Bar>, groups: map<Timestamp, seq<Bar>>, counter: int)
    requires DupScanned(xs[..|xs|], full, groups, counter)
    ensures groups == DuplicateGroups(xs)
    ensures counter == |xs| - |TimeSet(xs)|
  {
    assert xs[..|xs|] == xs;
    forall t | t in groups ensures t in TimeSet(xs) {
      TimesOcc(xs, t);
    }
  }

  /** The groups described without the scan: a timestamp is a key exactly when
      two or more records carry it, and its group holds exactly those records. */
  lemma DuplicateGroupsMeaning(xs: seq<Bar>)
    ensures forall t :: t in DuplicateGroups(xs) <==> |Occ(xs, t)| >= 2
    ensures forall t :: t in DuplicateGroups(xs) ==> multiset(DuplicateGroups(xs)[t]) == multiset(Occ(xs, t))
  {
    forall t | |Occ(xs, t)| >= 2 ensures t in TimeSet(xs) {
      TimesOcc(xs, t);
    }
    forall t | t in DuplicateGroups(xs) ensures multiset(DuplicateGroups(xs)[t]) == multiset(Occ(xs, t)) {
      var o := Occ(xs, t);
      assert o == [o[0], o[1]] + o[2..];
    }
  }

  lemma {:induction false} TimeSetBound(xs: seq<Bar>)
    ensures |TimeSet(xs)| <= |xs|
    decreases |xs|
  {
    if |xs| > 0 {
      TimeSetBound(xs[1..]);
      assert xs == [xs[0]] + xs[1..];
      assert TimeSet(xs) == TimeSet(xs[1..]) + {xs[0].datetime};
    } else {
      assert TimeSet(xs) == {};
    }
  }
}

=== FILE: sms.dfy ===
/** The Aliyun SMS alerter: the template parameter string, the fields of an
    order-fill message, the price-alert template choice, the V1 and V2
    request parameters, the canonical string-to-sign, and the one-request-
    per-recipient send loop.  HMAC-SHA1, base64, the nonce, the clock and the
    HTTP transport are parameters. */
module Sms {

  import opened Wrappers
  import opened Text
  import opened Events
  import opened Percent

  /** A dictionary's items in the order they are visited. */
  type Params = seq<(string, string)>

  predicate DistinctKeys(ps: Params) {
    forall i, j :: 0 <= i < j < |ps| ==> ps[i].0 != ps[j].0
  }

  /** `ps[k]`, None for a missing key; the first item with the key wins. */
  function Lookup(ps: Params, k: string): Option<string>
    decreases |ps|
  {
    if |ps| == 0 then None
    else if ps[0].0 == k then Some(ps[0].1)
    else Lookup(ps[1..], k)
  }

  /** The value under a key is that of its first item. */
  lemma {:induction false} LookupAt(ps: Params, i: nat, k: string)
    requires i < |ps| && ps[i].0 == k
    requires forall j :: 0 <= j < i ==> ps[j].0 != k
    ensures Lookup(ps, k) == Some(ps[i].1)
    decreases i
  {
    if i > 0 {
      LookupAt(ps[1..], i - 1, k);
    }
  }

  /** A key no item carries is missing. */
  lemma {:induction false} LookupAbsent(ps: Params, k: string)
    requires forall j :: 0 <= j < |ps| ==> ps[j].0 != k
    ensures Lookup(ps, k) == None
    decreases |ps|
  {
    if |ps| > 0 {
      LookupAbsent(ps[1..], k);
    }
  }

  /** Setting a key the items lack appends it. */
  lemma {:induction false} LookupAppend(ps: Params, p: (string, string), k: string)
    ensures Lookup(ps + [p], k) == if Lookup(ps, k).Some? then Lookup(ps, k) else if p.0 == k then Some(p.1) else None
    decreases |ps|
  {
    if |ps| > 0 {
      assert (ps + [p])[1..] == ps[1..] + [p];
      LookupAppend(ps[1..], p, k);
    }
  }

  /** The deployment's settings module: account, templates and recipients. */
  datatype SmsConfig = SmsConfig(
    apiVersion: string,
    accessKey: string,
    secret: string,
    signName: string,
    hostname: string,
    templateOrderOpenClose: string,
    templatePriceUp: string,
    templatePriceDown: string,
    recipients: seq<string>)

  // ------------------------------------------------------------ param string

  /** `"key":"value",` for one item. */
  function Entry(p: (string, string)): string {
    "\"" + p.0 + "\":\"" + p.1 + "\","
  }

  /** `"key":"value"`, the closing item without its comma. */
  function LastEntry(p: (string, string)): string {
    "\"" + p.0 + "\":\"" + p.1 + "\""
  }

  function Entries(items: Params): string
    decreases |items|
  {
    if |items| == 0 then "" else Entry(items[0]) + Entries(items[1..])
  }

  /** `_generateParamString`: a brace-wrapped object of every item, then the
      host name cut to fifteen characters. */
  function GenerateParamString(items: Params, hostname: string): (s: string)
    ensures |s| >= 2 && s[0] == '{' && s[|s| - 1] == '}'
  {
    "{" + Entries(items) + LastEntry(("host", Take(hostname, 15))) + "}"
  }

  /** The pieces between double quotes of a generated object. */
  function Body(ps: Params): (fs: seq<string>)
    requires |ps| >= 1
    ensures |fs| == 4 * |ps|
    decreases |ps|
  {
    if |ps| == 1 then [ps[0].0, ":", ps[0].1, ""]
    else [ps[0].0, ":", ps[0].1, ","] + Body(ps[1..])
  }

  function Tokens(ps: Params): seq<string>
    requires |ps| >= 1
  {
    [""] + Body(ps)
  }

  /** Reads the pieces back into items. */
  function ParseBody(fs: seq<string>): Option<Params>
    decreases |fs|
  {
    if |fs| == 4 && fs[1] == ":" && fs[3] == "" then Some([(fs[0], fs[2])])
    else if |fs| > 4 && fs[1] == ":" && fs[3] == "," then
      match ParseBody(fs[4..])
      case None => None
      case Some(rest) => Some([(fs[0], fs[2])] + rest)
    else None
  }

  /** Reads a generated object back: braces, then the quote-separated
      pieces. */
  function ParseParamString(s: string): Option<Params> {
    if |s| >= 2 && s[0] == '{' && s[|s| - 1] == '}' then
      var fs := Split(s[1..|s| - 1], '"');
      if fs[0] == "" then ParseBody(fs[1..]) else None
    else None
  }

  lemma {:induction false} ParseBodyOfBody(ps: Params)
    requires |ps| >= 1
    ensures ParseBody(Body(ps)) == Some(ps)
    decreases |ps|
  {
    var fs := Body(ps);
    assert (fs[0], fs[2]) == ps[0];
    if |ps| == 1 {
      assert ps == [ps[0]];
    } else {
      ParseBodyOfBody(ps[1..]);
      assert fs[4..] == Body(ps[1..]);
      assert ps == [ps[0]] + ps[1..];
    }
  }

  lemma JoinCons(x: string, xs: seq<string>, sep: char)
    requires |xs| >= 1
    ensures Join([x] + xs, sep) == x + [sep] + Join(xs, sep)
  {
    assert ([x] + xs)[1..] == xs;
  }

  /** Four pieces, then more, joined. */
  lemma Join4(a: string, b: string, c: string, d: string, rest: seq<string>, sep: char)
    requires |rest| >= 1
    ensures Join([a, b, c, d] + rest, sep) == a + [sep] + b + [sep] + c + [sep] + d + [sep] + Join(rest, sep)
  {
    assert [a, b, c, d] + rest == [a] + ([b] + ([c] + ([d] + rest)));
    JoinCons(d, rest, sep);
    JoinCons(c, [d] + rest, sep);
    assert Join([c] + ([d] + rest), sep) == c + [sep] + Join([d] + rest, sep);
    JoinCons(b, [c] + ([d] + rest), sep);
    JoinCons(a, [b] + ([c] + ([d] + rest)), sep);
  }

  lemma Join4Last(a: string, b: string, c: string, d: string, sep: char)
    ensures Join([a, b, c, d], sep) == a + [sep] + b + [sep] + c + [sep] + d
  {
    assert [a, b, c, d] == [a] + ([b] + ([c] + [d]));
    JoinCons(c, [d], sep);
    JoinCons(b, [c] + [d], sep);
    JoinCons(a, [b] + ([c] + [d]), sep);
  }

  lemma {:induction false} BodyNoQuote(ps: Params)
    requires |ps| >= 1
    requires forall i :: 0 <= i < |ps| ==> '"' !in ps[i].0 && '"' !in ps[i].1
    ensures forall i :: 0 <= i < |Body(ps)| ==> '"' !in Body(ps)[i]
    decreases |ps|
  {
    if |ps| > 1 {
      BodyNoQuote(ps[1..]);
      forall i | 4 <= i < |Body(ps)| ensures '"' !in Body(ps)[i] {
        assert Body(ps)[i] == Body(ps[1..])[i - 4];
      }
    }
  }

  /** `"` followed by the quote-joined pieces is every item but the last
      with its comma, then the last without. */
  lemma {:induction false} JoinBody(ps: Params)
    requires |ps| >= 1
    ensures "\"" + Join(Body(ps), '"') == Entries(ps[..|ps| - 1]) + LastEntry(ps[|ps| - 1])
    decreases |ps|
  {
    var k, v := ps[0].0, ps[0].1;
    if |ps| == 1 {
      QuotedLast(k, v);
      assert Entries(ps[..0]) == "";
    } else {
      var rest := ps[1..];
      JoinBody(rest);
      assert Body(ps) == [k, ":", v, ","] + Body(rest);
      QuotedEntry(k, v, Body(rest));
      EntriesInit(ps);
      assert rest[|rest| - 1] == ps[|ps| - 1];
      var e, es, l := Entry(ps[0]), Entries(rest[..|rest| - 1]), LastEntry(ps[|ps| - 1]);
      assert e + (es + l) == (e + es) + l;
    }
  }

  /** The closing item's four pieces spell its entry without a comma. */
  lemma QuotedLast(k: string, v: string)
    ensures "\"" + Join([k, ":", v, ""], '"') == LastEntry((k, v))
  {
    Join4Last(k, ":", v, "", '"');
    assert LastEntry((k, v)) == ['"'] + k + (['"'] + ":" + ['"']) + v + ['"'];
    RegroupLast(['"'], k, ":", v, "");
  }

  lemma RegroupLast<T>(q: seq<T>, k: seq<T>, c: seq<T>, v: seq<T>, m: seq<T>)
    requires m == []
    ensures q + (k + q + c + q + v + q + m) == q + k + (q + c + q) + v + q
  {
  }

  /** An item's four pieces, quote-joined after a leading quote, spell its entry. */
  lemma QuotedEntry(k: string, v: string, rest: seq<string>)
    requires |rest| >= 1
    ensures "\"" + Join([k, ":", v, ","] + rest, '"') == Entry((k, v)) + ("\"" + Join(rest, '"'))
  {
    Join4(k, ":", v, ",", rest, '"');
    EntryPieces(k, v);
    Regroup(['"'], k, ":", v, ",", Join(rest, '"'));
  }

  lemma EntryPieces(k: string, v: string)
    ensures Entry((k, v)) == ['"'] + k + (['"'] + ":" + ['"']) + v + (['"'] + ",")
  {
    assert "\":\"" == ['"'] + ":" + ['"'];
    assert "\"," == ['"'] + ",";
  }

  lemma Regroup<T>(q: seq<T>, k: seq<T>, c: seq<T>, v: seq<T>, m: seq<T>, j: seq<T>)
    ensures q + (k + q + c + q + v + q + m + q + j) == (q + k + (q + c + q) + v + (q + m)) + (q + j)
  {
  }

  lemma EntriesInit(ps: Params)
    requires |ps| >= 2
    ensures Entries(ps[..|ps| - 1]) == Entry(ps[0]) + Entries(ps[1..][..|ps| - 2])
  {
    var init := ps[..|ps| - 1];
    assert init[0] == ps[0];
    assert init[1..] == ps[1..][..|ps| - 2];
  }

  /** The generated string is the brace-wrapped, quote-joined pieces of the
      items followed by the host item. */
  lemma GenerateAsTokens(items: Params, hostname: string)
    ensures GenerateParamString(items, hostname)
            == "{" + Join(Tokens(items + [("host", Take(hostname, 15))]), '"') + "}"
  {
    var ps := items + [("host", Take(hostname, 15))];
    JoinBody(ps);
    JoinCons("", Body(ps), '"');
    assert ps[..|ps| - 1] == items;
    assert Join(Tokens(ps), '"') == "\"" + Join(Body(ps), '"');
  }

  /** With no double quote in any key, value or the host name, the
      parameter string parses back to the items followed by the host item. */
  lemma ParamStringRoundTrip(items: Params, hostname: string)
    requires forall i :: 0 <= i < |items| ==> '"' !in items[i].0 && '"' !in items[i].1
    requires '"' !in hostname
    ensures ParseParamString(GenerateParamString(items, hostname)) == Some(items + [("host", Take(hostname, 15))])
  {
    var h := Take(hostname, 15);
    var ps := items + [("host", h)];
    GenerateAsTokens(items, hostname);
    BodyNoQuote(ps);
    var toks := Tokens(ps);
    var s := GenerateParamString(items, hostname);
    var j := Join(toks, '"');
    assert s == "{" + j + "}";
    assert s[1..|s| - 1] == j;
    forall i | 0 <= i < |toks| ensures '"' !in toks[i] {
      if i > 0 {
        assert toks[i] == Body(ps)[i - 1];
      }
    }
    SplitJoin(toks, '"');
    ParseBodyOfBody(ps);
    assert toks[1..] == Body(ps);
  }

  // ----------------------------------------------------------- order fill

  /** The status code of an order-fill message. */
  function StatusCode(s: OrderStatus): (code: string)
    ensures code == "Opn" <==> s == NotTraded
    ensures code == "Esc" <==> s == Cancelled
    ensures code == "Done" <==> s != NotTraded && s != Cancelled
  {
    if s == NotTraded then "Opn" else if s == Cancelled then "Esc" else "Done"
  }

  /** The order type: the first `:`-field, the upper-cased first two
      characters of the second, and the upper-cased first character of the
      direction.  Fewer than two fields is the IndexError. */
  function OrderType(vtSymbol: string, direction: string): (t: Option<string>)
    ensures t.Some? <==> |Split(vtSymbol, ':')| >= 2
  {
    var keyInfo := Split(vtSymbol, ':');
    if |keyInfo| >= 2 then Some(keyInfo[0] + "_" + Upper(Take(keyInfo[1], 2)) + "_" + Upper(Take(direction, 1)))
    else None
  }

  /** The exchange: the second `.`-field of the third `:`-field. */
  function OrderExchange(vtSymbol: string): (x: Option<string>)
    ensures x.Some? <==> |Split(vtSymbol, ':')| >= 3 && |Split(Split(vtSymbol, ':')[2], '.')| >= 2
  {
    var keyInfo := Split(vtSymbol, ':');
    if |keyInfo| >= 3 then Field(keyInfo[2], '.', 1) else None
  }

  /** `sendOrderFillNotify` down to `_sendOrderFillNotify`'s items: the type
      is derived before the exchange, and either lookup may raise. */
  function OrderFillItems(o: Order): (r: Option<Params>)
    ensures r.Some? <==> OrderType(o.vtSymbol, o.direction).Some? && OrderExchange(o.vtSymbol).Some?
    ensures r.Some? ==>
              && Lookup(r.value, "prod_id") == Some("#" + o.orderID)
              && Lookup(r.value, "quantity") == Some(o.tradedVolume + "_" + StatusCode(o.status))
              && Lookup(r.value, "price") == Some(o.price)
              && Lookup(r.value, "from") == OrderExchange(o.vtSymbol)
              && Lookup(r.value, "total") == Some(o.totalVolume)
              && Lookup(r.value, "type") == OrderType(o.vtSymbol, o.direction)
  {
    match OrderType(o.vtSymbol, o.direction)
    case None => None
    case Some(t) =>
      match OrderExchange(o.vtSymbol)
      case None => None
      case Some(x) =>
        var items := [("prod_id", "#" + o.orderID), ("quantity", o.tradedVolume + "_" + StatusCode(o.status)),
                      ("price", o.price), ("from", x), ("total", o.totalVolume), ("type", t)];
        LookupAt(items, 0, "prod_id");
        LookupAt(items, 1, "quantity");
        LookupAt(items, 2, "price");
        LookupAt(items, 3, "from");
        LookupAt(items, 4, "total");
        LookupAt(items, 5, "type");
        Some(items)
  }

  /** For a symbol assembled from separator-free parts, the message names
      the assembled exchange and type. */
  lemma OrderFillOfParts(o: Order, sym: string, contract: string, venue: string, exchange: string)
    requires ':' !in sym && ':' !in contract && ':' !in venue && ':' !in exchange
    requires '.' !in venue && '.' !in exchange
    requires o.vtSymbol == sym + ":" + contract + ":" + venue + "." + exchange
    ensures OrderFillItems(o).Some?
    ensures Lookup(OrderFillItems(o).value, "from") == Some(exchange)
    ensures Lookup(OrderFillItems(o).value, "type") == Some(sym + "_" + Upper(Take(contract, 2)) + "_" + Upper(Take(o.direction, 1)))
  {
    var last := venue + "." + exchange;
    assert ':' !in ".";
    var parts := [sym, contract, last];
    SplitJoin(parts, ':');
    assert parts[1..] == [contract, last];
    assert parts[1..][1..] == [last];
    assert Join([contract, last], ':') == contract + ":" + last;
    assert Join(parts, ':') == sym + ":" + (contract + ":" + last);
    assert o.vtSymbol == sym + ":" + (contract + ":" + last);
    SplitJoin([venue, exchange], '.');
    assert [venue, exchange][1..] == [exchange];
    assert Join([venue, exchange], '.') == last;
  }

  // ------------------------------------------------------------ price alert

  /** `sendPriceNotify`'s template: up for `GE`, down for `LE`, empty
      otherwise. */
  function PriceTemplate(cfg: SmsConfig, operator: string): (t: string)
    ensures operator == "GE" ==> t == cfg.templatePriceUp
    ensures operator == "LE" ==> t == cfg.templatePriceDown
    ensures operator != "GE" && operator != "LE" ==> t == ""
  {
    if operator == "GE" then cfg.templatePriceUp
    else if operator == "LE" then cfg.templatePriceDown
    else ""
  }

  // ---------------------------------------------------------------- request

  /** The per-request values that come from the clock and the nonce. */
  datatype Stamp = Stamp(nonce: string, timestamp: string)

  /** `getFullParamsV1`. */
  function FullParamsV1(cfg: SmsConfig, template: string, number: string, paramValue: string, st: Stamp): Params {
    [("RegionId", "cn-hongkong"), ("AccessKeyId", cfg.accessKey), ("Format", "JSON"),
     ("SignatureMethod", "HMAC-SHA1"), ("SignatureVersion", "1.0"), ("SignatureNonce", st.nonce),
     ("Timestamp", st.timestamp), ("Version", "2016-09-27"), ("Action", "SingleSendSms"),
     ("SignName", cfg.signName), ("TemplateCode", template), ("RecNum", number), ("ParamString", paramValue)]
  }

  /** `getFullParamsV2`. */
  function FullParamsV2(cfg: SmsConfig, template: string, number: string, paramValue: string, st: Stamp): Params {
    [("RegionId", "cn-hongkong"), ("AccessKeyId", cfg.accessKey), ("Format", "JSON"),
     ("SignatureMethod", "HMAC-SHA1"), ("SignatureVersion", "1.0"), ("SignatureNonce", st.nonce),
     ("Timestamp", st.timestamp), ("Version", "2017-05-25"), ("Action", "SendSms"),
     ("SignName", cfg.signName), ("TemplateCode", template), ("PhoneNumbers", number), ("TemplateParam", paramValue)]
  }

  /** The keys in which the two API versions differ. */
  predicate VersionKey(k: string) {
    k in {"Version", "Action", "RecNum", "PhoneNumbers", "ParamString", "TemplateParam"}
  }

  /** Item lists that agree position by position outside the version keys
      give the same value for every other key. */
  lemma {:induction false} LookupAgree(a: Params, b: Params, k: string)
    requires |a| == |b|
    requires forall i :: 0 <= i < |a| ==> a[i] == b[i] || (VersionKey(a[i].0) && VersionKey(b[i].0))
    requires !VersionKey(k)
    ensures Lookup(a, k) == Lookup(b, k)
    decreases |a|
  {
    if |a| > 0 {
      LookupAgree(a[1..], b[1..], k);
    }
  }

  /** The V1 and V2 maps agree on every key but the version, the action,
      the recipient key and the template-parameter key. */
  lemma VersionsAgree(cfg: SmsConfig, template: string, number: string, paramValue: string, st: Stamp, k: string)
    requires !VersionKey(k)
    ensures Lookup(FullParamsV1(cfg, template, number, paramValue, st), k)
            == Lookup(FullParamsV2(cfg, template, number, paramValue, st), k)
  {
    LookupAgree(FullParamsV1(cfg, template, number, paramValue, st), FullParamsV2(cfg, template, number, paramValue, st), k);
  }

  /** V1 names the recipient `RecNum` and the template parameters
      `ParamString`; V2 names them `PhoneNumbers` and `TemplateParam`; and
      neither carries the other's keys. */
  lemma VersionsDiffer(cfg: SmsConfig, template: string, number: string, paramValue: string, st: Stamp)
    ensures Lookup(FullParamsV1(cfg, template, number, paramValue, st), "RecNum") == Some(number)
    ensures Lookup(FullParamsV2(cfg, template, number, paramValue, st), "PhoneNumbers") == Some(number)
    ensures Lookup(FullParamsV1(cfg, template, number, paramValue, st), "ParamString") == Some(paramValue)
    ensures Lookup(FullParamsV2(cfg, template, number, paramValue, st), "TemplateParam") == Some(paramValue)
    ensures Lookup(FullParamsV1(cfg, template, number, paramValue, st), "PhoneNumbers") == None
    ensures Lookup(FullParamsV2(cfg, template, number, paramValue, st), "RecNum") == None
    ensures Lookup(FullParamsV1(cfg, template, number, paramValue, st), "Version") == Some("2016-09-27")
    ensures Lookup(FullParamsV2(cfg, template, number, paramValue, st), "Version") == Some("2017-05-25")
  {
    V1Keys(cfg, template, number, paramValue, st);
    V2Keys(cfg, template, number, paramValue, st);
  }

  lemma V1Keys(cfg: SmsConfig, template: string, number: string, paramValue: string, st: Stamp)
    ensures var v1 := FullParamsV1(cfg, template, number, paramValue, st);
            && Lookup(v1, "RecNum") == Some(number) && Lookup(v1, "ParamString") == Some(paramValue)
            && Lookup(v1, "PhoneNumbers") == None && Lookup(v1, "Version") == Some("2016-09-27")
  {
    var v1 := FullParamsV1(cfg, template, number, paramValue, st);
    LookupAt(v1, 11, "RecNum");
    LookupAt(v1, 12, "ParamString");
    LookupAbsent(v1, "PhoneNumbers");
    LookupAt(v1, 7, "Version");
  }

  lemma V2Keys(cfg: SmsConfig, template: string, number: string, paramValue: string, st: Stamp)
    ensures var v2 := FullParamsV2(cfg, template, number, paramValue, st);
            && Lookup(v2, "PhoneNumbers") == Some(number) && Lookup(v2, "TemplateParam") == Some(paramValue)
            && Lookup(v2, "RecNum") == None && Lookup(v2, "Version") == Some("2017-05-25")
  {
    var v2 := FullParamsV2(cfg, template, number, paramValue, st);
    LookupAt(v2, 11, "PhoneNumbers");
    LookupAt(v2, 12, "TemplateParam");
    LookupAbsent(v2, "RecNum");
    LookupAt(v2, 7, "Version");
  }

  /** The map `_sendSMS` builds for the configured API version: it names
      the template and the recipient under the version's key, and has no
      signature yet. */
  function FullParams(cfg: SmsConfig, template: string, number: string, paramValue: string, st: Stamp): (ps: Params)
    ensures Lookup(ps, "Signature") == None
    ensures Lookup(ps, "TemplateCode") == Some(template)
    ensures Lookup(ps, NumberKey(cfg)) == Some(number)
  {
    var ps := if cfg.apiVersion == "V2" then FullParamsV2(cfg, template, number, paramValue, st)
              else FullParamsV1(cfg, template, number, paramValue, st);
    LookupAbsent(ps, "Signature");
    LookupAt(ps, 10, "TemplateCode");
    LookupAt(ps, 11, NumberKey(cfg));
    ps
  }

  /** The key under which the configured API version names the recipient. */
  function NumberKey(cfg: SmsConfig): string {
    if cfg.apiVersion == "V2" then "PhoneNumbers" else "RecNum"
  }

  // ---------------------------------------------------------- string to sign

  /** Inserts an item before the first item whose key it precedes. */
  function InsertByKey(p: (string, string), xs: Params): (r: Params)
    ensures multiset(r) == multiset(xs) + multiset{p}
    decreases |xs|
  {
    if |xs| == 0 then [p]
    else
      assert xs == [xs[0]] + xs[1..];
      if Less(xs[0].0, p.0) then [xs[0]] + InsertByKey(p, xs[1..]) else [p] + xs
  }

  /** The items in ascending key order (`sorted(params.keys())`). */
  function SortByKey(ps: Params): (r: Params)
    ensures multiset(r) == multiset(ps)
    decreases |ps|
  {
    if |ps| == 0 then []
    else
      assert ps == [ps[0]] + ps[1..];
      InsertByKey(ps[0], SortByKey(ps[1..]))
  }

  predicate KeysAscending(ps: Params) {
    forall i, j :: 0 <= i < j < |ps| ==> Less(ps[i].0, ps[j].0)
  }

  lemma {:induction false} InsertByKeyAscending(p: (string, string), xs: Params)
    requires KeysAscending(xs)
    requires forall i :: 0 <= i < |xs| ==> xs[i].0 != p.0
    ensures KeysAscending(InsertByKey(p, xs))
    decreases |xs|
  {
    if |xs| > 0 {
      if Less(xs[0].0, p.0) {
        InsertByKeyAscending(p, xs[1..]);
        var r := InsertByKey(p, xs);
        var rest := InsertByKey(p, xs[1..]);
        assert r == [xs[0]] + rest;
        forall j | 1 <= j < |r| ensures Less(xs[0].0, r[j].0) {
          assert r[j] in multiset(rest);
          assert r[j] in multiset(xs[1..]) + multiset{p};
          if r[j] != p {
            assert r[j] in xs[1..];
            var k :| 0 <= k < |xs[1..]| && xs[1..][k] == r[j];
            assert xs[k + 1] == r[j];
          }
        }
      } else {
        LessTotal(xs[0].0, p.0);
        forall j | 0 <= j < |xs| ensures Less(p.0, xs[j].0) {
          if j > 0 {
            LessTransitive(p.0, xs[0].0, xs[j].0);
          }
        }
      }
    }
  }

  lemma {:induction false} SortByKeyAscending(ps: Params)
    requires DistinctKeys(ps)
    ensures KeysAscending(SortByKey(ps))
    decreases |ps|
  {
    if |ps| > 0 {
      var rest := ps[1..];
      assert DistinctKeys(rest) by {
        forall i, j | 0 <= i < j < |rest| ensures rest[i].0 != rest[j].0 {
          assert rest[i] == ps[i + 1] && rest[j] == ps[j + 1];
        }
      }
      SortByKeyAscending(rest);
      var sorted := SortByKey(rest);
      forall i | 0 <= i < |sorted| ensures sorted[i].0 != ps[0].0 {
        assert sorted[i] in multiset(rest);
        var k :| 0 <= k < |rest| && rest[k] == sorted[i];
        assert rest[k] == ps[k + 1];
      }
      InsertByKeyAscending(ps[0], sorted);
    }
  }

  /** Two key-ascending item lists with the same items are the same list. */
  lemma {:induction false} AscendingUnique(xs: Params, ys: Params)
    requires KeysAscending(xs) && KeysAscending(ys) && multiset(xs) == multiset(ys)
    ensures xs == ys
    decreases |xs|
  {
    assert |ys| == |multiset(ys)| == |xs|;
    if |xs| > 0 {
      AscendingHead(xs, ys);
      SameTail(xs, ys);
      AscendingTail(xs);
      AscendingTail(ys);
      AscendingUnique(xs[1..], ys[1..]);
      assert xs == [xs[0]] + xs[1..] && ys == [ys[0]] + ys[1..];
    }
  }

  /** The least key of the same items heads both lists. */
  lemma AscendingHead(xs: Params, ys: Params)
    requires |xs| > 0 && |ys| > 0
    requires KeysAscending(xs) && KeysAscending(ys) && multiset(xs) == multiset(ys)
    ensures xs[0] == ys[0]
  {
    assert xs[0] in multiset(ys) && ys[0] in multiset(xs);
    var i :| 0 <= i < |ys| && ys[i] == xs[0];
    var j :| 0 <= j < |xs| && xs[j] == ys[0];
    if i > 0 {
      assert Less(ys[0].0, xs[0].0);
      if j > 0 {
        LessAsymmetric(ys[0].0, xs[0].0);
      }
    }
  }

  lemma SameTail(xs: Params, ys: Params)
    requires |xs| > 0 && |ys| > 0 && xs[0] == ys[0] && multiset(xs) == multiset(ys)
    ensures multiset(xs[1..]) == multiset(ys[1..])
  {
    assert xs == [xs[0]] + xs[1..] && ys == [ys[0]] + ys[1..];
    assert multiset(xs) == multiset{xs[0]} + multiset(xs[1..]);
    assert multiset(ys) == multiset{xs[0]} + multiset(ys[1..]);
    assert multiset(xs[1..]) == multiset(xs) - multiset{xs[0]};
    assert multiset(ys[1..]) == multiset(ys) - multiset{xs[0]};
  }

  lemma AscendingTail(xs: Params)
    requires |xs| > 0 && KeysAscending(xs)
    ensures KeysAscending(xs[1..])
  {
    forall i, j | 0 <= i < j < |xs[1..]| ensures Less(xs[1..][i].0, xs[1..][j].0) {
      assert xs[1..][i] == xs[i + 1] && xs[1..][j] == xs[j + 1];
    }
  }

  /** `key=quote(value)` for each item. */
  function Segments(ps: Params): Option<seq<string>>
    decreases |ps|
  {
    if |ps| == 0 then Some([])
    else
      match Quote(ps[0].1)
      case None => None
      case Some(q) =>
        match Segments(ps[1..])
        case None => None
        case Some(rest) => Some([ps[0].0 + "=" + q] + rest)
  }

  /** The string-to-sign of `_buildMySign`: the method, the quoted `/`, and
      the quoted canonical query of the items in ascending key order.  None
      where a value or the query holds a character wider than a byte. */
  function StringToSign(verb: string, ps: Params): (r: Option<string>)
  {
    match Segments(SortByKey(ps))
    case None => None
    case Some(segs) =>
      match Quote(Join(segs, '&'))
      case None => None
      case Some(q) => Some(verb + "&%2F&" + q)
  }

  /** The canonical query string of the items. */
  function CanonicalQuery(ps: Params): Option<string> {
    match Segments(SortByKey(ps))
    case None => None
    case Some(segs) => Some(Join(segs, '&'))
  }

  /** The literal `%2F` of the string-to-sign is `/` quoted. */
  lemma SlashQuoted()
    ensures Quote("/") == Some("%2F")
  {
    var c := '/';
    assert !Unreserved(c);
    assert c as int / 16 == 2 && c as int % 16 == 15;
    assert HexDigit(2) == '2' && HexDigit(15) == 'F';
    assert QuoteChar(c) == "%2F";
    var s := "/";
    assert s[0] == c && s[1..] == "";
    assert Quote(s[1..]) == Some("");
    assert Quote(s) == Some(QuoteChar(c) + "");
    assert QuoteChar(c) + "" == "%2F";
  }

  /** The string-to-sign starts with the method and the quoted `/`, and the
      canonical query is recoverable from it by unquoting what follows. */
  lemma StringToSignShape(verb: string, ps: Params)
    requires StringToSign(verb, ps).Some?
    ensures CanonicalQuery(ps).Some?
    ensures var s := StringToSign(verb, ps).value;
            && |s| >= |verb| + 5 && s[..|verb| + 5] == verb + "&%2F&"
            && Unquote(s[|verb| + 5..]) == CanonicalQuery(ps).value
  {
    var segs := Segments(SortByKey(ps)).value;
    var q := Quote(Join(segs, '&')).value;
    UnquoteQuote(Join(segs, '&'));
    var s := verb + "&%2F&" + q;
    assert s[..|verb| + 5] == verb + "&%2F&";
    assert s[|verb| + 5..] == q;
  }


  /** The string-to-sign depends only on the items, not on the order the
      dictionary visits them in. */
  lemma StringToSignOrderFree(verb: string, a: Params, b: Params)
    requires DistinctKeys(a) && DistinctKeys(b) && multiset(a) == multiset(b)
    ensures StringToSign(verb, a) == StringToSign(verb, b)
  {
    SortByKeyAscending(a);
    SortByKeyAscending(b);
    AscendingUnique(SortByKey(a), SortByKey(b));
  }

  /** `_buildMySign`: HMAC keyed with the secret and `&` over the
      string-to-sign, given as the `hmac` parameter. */
  function BuildMySign(cfg: SmsConfig, ps: Params, verb: string, hmac: (string, string) -> string): (r: Option<string>)
    ensures r.Some? <==> StringToSign(verb, ps).Some?
    ensures r.Some? ==> r.value == hmac(cfg.secret + "&", StringToSign(verb, ps).value)
  {
    match StringToSign(verb, ps)
    case None => None
    case Some(s) => Some(hmac(cfg.secret + "&", s))
  }

  // ------------------------------------------------------------- send loop

  /** What the transport does with a request: success, an HTTP error (which
      is logged), or any other failure (which raises). */
  datatype Response = Sent | HttpError(code: int) | TransportFailure

  datatype SmsEnv = SmsEnv(
    stamp: nat -> Stamp,
    hmac: (string, string) -> string,
    respond: Params -> Response)

  /** Why `_sendSMS` stopped: a map that cannot be quoted, a transport
      failure, or a nonce that could not be drawn. */
  datatype SmsFailure = UnencodableParams | TransportFailed | NonceFailed

  /** The requests issued, the HTTP error codes logged, and the failure that
      ended the loop, if any. */
  datatype SmsOutcome = SmsOutcome(requests: seq<Params>, httpErrors: seq<int>, failure: Option<SmsFailure>)

  /** The signed request for the `i`-th recipient: its map with the
      signature over that map added.  None exactly where the map cannot be
      quoted; otherwise the request names that recipient and the template
      and ends with the signature over everything before it. */
  function SignedRequest(cfg: SmsConfig, template: string, paramValue: string, env: SmsEnv, i: nat): (r: Option<Params>)
    requires i < |cfg.recipients|
    ensures r.None? <==> StringToSign("GET", FullParams(cfg, template, cfg.recipients[i], paramValue, env.stamp(i))).None?
    ensures r.Some? ==> RequestFor(cfg, template, env.hmac, i, r.value)
  {
    var ps := FullParams(cfg, template, cfg.recipients[i], paramValue, env.stamp(i));
    match BuildMySign(cfg, ps, "GET", env.hmac)
    case None => None
    case Some(sig) =>
      SignedItems(cfg, template, env.hmac, i, ps);
      Some(ps + [("Signature", sig)])
  }

  /** What the `k`-th recipient's request says: its recipient under the
      version's key, the template, and as its last item the signature of
      everything before it. */
  predicate RequestFor(cfg: SmsConfig, template: string, hmac: (string, string) -> string, k: nat, req: Params)
    requires k < |cfg.recipients|
  {
    && |req| >= 1
    && StringToSign("GET", req[..|req| - 1]).Some?
    && req[|req| - 1] == ("Signature", hmac(cfg.secret + "&", StringToSign("GET", req[..|req| - 1]).value))
    && Lookup(req, "Signature") == Some(req[|req| - 1].1)
    && Lookup(req, NumberKey(cfg)) == Some(cfg.recipients[k])
    && Lookup(req, "TemplateCode") == Some(template)
  }

  /** Any unsigned map naming the template and the `k`-th recipient, once its
      signature is appended, is that recipient's request. */
  lemma SignedItems(cfg: SmsConfig, template: string, hmac: (string, string) -> string, k: nat, ps: Params)
    requires k < |cfg.recipients|
    requires StringToSign("GET", ps).Some?
    requires Lookup(ps, "Signature") == None
    requires Lookup(ps, NumberKey(cfg)) == Some(cfg.recipients[k])
    requires Lookup(ps, "TemplateCode") == Some(template)
    ensures RequestFor(cfg, template, hmac, k, ps + [("Signature", hmac(cfg.secret + "&", StringToSign("GET", ps).value))])
  {
    var sig := ("Signature", hmac(cfg.secret + "&", StringToSign("GET", ps).value));
    var req := ps + [sig];
    assert req[..|req| - 1] == ps;
    LookupAppend(ps, sig, "Signature");
    LookupAppend(ps, sig, NumberKey(cfg));
    LookupAppend(ps, sig, "TemplateCode");
  }

  /** The requests of the recipients, in order, each already signed. */
  function SignedRequests(cfg: SmsConfig, template: string, paramValue: string, env: SmsEnv): (reqs: seq<Option<Params>>)
    ensures |reqs| == |cfg.recipients|
    ensures forall k :: 0 <= k < |reqs| ==> reqs[k] == SignedRequest(cfg, template, paramValue, env, k)
  {
    seq(|cfg.recipients|, k requires 0 <= k < |cfg.recipients| => SignedRequest(cfg, template, paramValue, env, k))
  }

  /** The body of `_sendSMS`'s loop over prepared requests: an unsignable
      request raises before it is sent, a transport failure raises after,
      and an HTTP error is logged and the loop goes on.  At most one request
      per recipient, an HTTP error only for a request made, and every
      recipient reached unless the loop ends in a failure. */
  function SendLoop(reqs: seq<Option<Params>>, respond: Params -> Response): (r: SmsOutcome)
    ensures |r.requests| <= |reqs|
    ensures |r.httpErrors| <= |r.requests|
    ensures r.failure == None ==> |r.requests| == |reqs|
    ensures forall k :: 0 <= k < |r.requests| ==> Some(r.requests[k]) == reqs[k]
    ensures r.failure != Some(NonceFailed)
    ensures r.failure == Some(UnencodableParams) ==> |r.requests| < |reqs| && reqs[|r.requests|] == None
    ensures r.failure == Some(TransportFailed) ==>
              |r.requests| >= 1 && respond(r.requests[|r.requests| - 1]).TransportFailure?
    decreases |reqs|
  {
    if |reqs| == 0 then SmsOutcome([], [], None)
    else
      match reqs[0]
      case None => SmsOutcome([], [], Some(UnencodableParams))
      case Some(req) =>
        match respond(req)
        case TransportFailure => SmsOutcome([req], [], Some(TransportFailed))
        case Sent =>
          var rest := SendLoop(reqs[1..], respond);
          rest.(requests := [req] + rest.requests)
        case HttpError(code) =>
          var rest := SendLoop(reqs[1..], respond);
          SmsOutcome([req] + rest.requests, [code] + rest.httpErrors, rest.failure)
  }

  /** `_sendSMS`: the recipients' signed requests, sent in recipient order
      until one cannot be signed or sent. */
  function SendSms(cfg: SmsConfig, template: string, paramValue: string, env: SmsEnv): (r: SmsOutcome)
    ensures |r.requests| <= |cfg.recipients|
    ensures forall k :: 0 <= k < |r.requests| ==> Some(r.requests[k]) == SignedRequest(cfg, template, paramValue, env, k)
    ensures r.failure == Some(UnencodableParams) ==>
              |r.requests| < |cfg.recipients| && SignedRequest(cfg, template, paramValue, env, |r.requests|).None?
    ensures r.failure == None ==> |r.requests| == |cfg.recipients|
  {
    SendLoop(SignedRequests(cfg, template, paramValue, env), env.respond)
  }

  /** A prepared request that can be sent without raising (the transport
      may still answer with an HTTP error). */
  predicate Deliverable(req: Option<Params>, respond: Params -> Response) {
    req.Some? && !respond(req.value).TransportFailure?
  }

  /** When every request is deliverable, each is sent once, in order, HTTP
      errors included. */
  lemma {:induction false} LoopReachesEveryone(reqs: seq<Option<Params>>, respond: Params -> Response)
    requires forall k :: 0 <= k < |reqs| ==> Deliverable(reqs[k], respond)
    ensures var r := SendLoop(reqs, respond);
            && r.failure == None
            && |r.requests| == |reqs|
            && forall k :: 0 <= k < |reqs| ==> Some(r.requests[k]) == reqs[k]
    decreases |reqs|
  {
    if |reqs| > 0 {
      assert Deliverable(reqs[0], respond);
      LoopReachesEveryone(reqs[1..], respond);
      var r := SendLoop(reqs, respond);
      var rest := SendLoop(reqs[1..], respond);
      assert r.requests == [reqs[0].value] + rest.requests;
      forall k | 0 < k < |reqs| ensures Some(r.requests[k]) == reqs[k] {
        assert r.requests[k] == rest.requests[k - 1];
        assert reqs[k] == reqs[1..][k - 1];
      }
    }
  }

  /** The first request that is not deliverable ends the loop with a
      failure: the ones before it are sent, it is sent only if it could be
      signed, and no later one is tried. */
  lemma {:induction false} LoopStopsAtFailure(reqs: seq<Option<Params>>, respond: Params -> Response, k: nat)
    requires k < |reqs|
    requires forall m :: 0 <= m < k ==> Deliverable(reqs[m], respond)
    requires !Deliverable(reqs[k], respond)
    ensures var r := SendLoop(reqs, respond);
            && r.failure.Some?
            && |r.requests| == k + (if reqs[k].Some? then 1 else 0)
    decreases k
  {
    if k > 0 {
      assert Deliverable(reqs[0], respond);
      forall m | 0 <= m < k - 1 ensures Deliverable(reqs[1..][m], respond) {
        assert reqs[1..][m] == reqs[m + 1];
      }
      LoopStopsAtFailure(reqs[1..], respond, k - 1);
    }
  }

  /** When every recipient's request can be signed and sent, `_sendSMS`
      sends each recipient exactly one request, in recipient order, naming
      that recipient and the template and signed over the rest of the
      request; an HTTP error on one does not skip the others. */
  lemma SendReachesEveryone(cfg: SmsConfig, template: string, paramValue: string, env: SmsEnv)
    requires forall k :: 0 <= k < |cfg.recipients| ==> Deliverable(SignedRequest(cfg, template, paramValue, env, k), env.respond)
    ensures var r := SendSms(cfg, template, paramValue, env);
            && r.failure == None
            && |r.requests| == |cfg.recipients|
            && forall k :: 0 <= k < |cfg.recipients| ==> RequestFor(cfg, template, env.hmac, k, r.requests[k])
  {
    var reqs := SignedRequests(cfg, template, paramValue, env);
    LoopReachesEveryone(reqs, env.respond);
    var r := SendLoop(reqs, env.respond);
    forall k | 0 <= k < |cfg.recipients| ensures RequestFor(cfg, template, env.hmac, k, r.requests[k]) {
      assert Some(r.requests[k]) == SignedRequest(cfg, template, paramValue, env, k);
    }
  }

  /** `_sendSMS` as the module is written.  `uniqid` reads `time.time()`,
      but the module imports neither `time` nor anything that provides it,
      so building the first recipient's parameter map raises NameError
      before any request is signed or sent.  `SendSms` is the intended loop,
      with the nonce drawn from `env.stamp`. */
  function SendSmsAsWritten(cfg: SmsConfig, template: string, paramValue: string, env: SmsEnv): SmsOutcome {
    if |cfg.recipients| == 0 then SmsOutcome([], [], None)
    else SmsOutcome([], [], Some(NonceFailed))
  }

  /** The discrepancy: whenever there is a recipient, the module as written
      sends nothing, while the intended loop reaches every recipient whose
      request can be signed and sent. */
  lemma UniqidNameErrorSendsNothing(cfg: SmsConfig, template: string, paramValue: string, env: SmsEnv)
    requires |cfg.recipients| > 0
    requires forall k :: 0 <= k < |cfg.recipients| ==> Deliverable(SignedRequest(cfg, template, paramValue, env, k), env.respond)
    ensures SendSmsAsWritten(cfg, template, paramValue, env).requests == []
    ensures SendSmsAsWritten(cfg, template, paramValue, env).failure == Some(NonceFailed)
    ensures SendSms(cfg, template, paramValue, env).failure == None
    ensures |SendSms(cfg, template, paramValue, env).requests| == |cfg.recipients|
  {
    SendReachesEveryone(cfg, template, paramValue, env);
  }

  // ------------------------------------------------------------- messages

  /** `sendOrderFillNotify`: the order-open-close template with the order's
      items; a malformed symbol raises before anything is sent. */
  function SendOrderFillNotify(cfg: SmsConfig, o: Order, env: SmsEnv): (r: Option<SmsOutcome>)
    ensures r.Some? <==> OrderFillItems(o).Some?
  {
    match OrderFillItems(o)
    case None => None
    case Some(items) => Some(SendSms(cfg, cfg.templateOrderOpenClose, GenerateParamString(items, cfg.hostname), env))
  }

  /** `sendPriceNotify`: the template the operator selects, with the type and
      the threshold. */
  function SendPriceNotify(cfg: SmsConfig, priceType: string, operator: string, threshold: string, env: SmsEnv): SmsOutcome {
    SendSms(cfg, PriceTemplate(cfg, operator), GenerateParamString([("type", priceType), ("price", threshold)], cfg.hostname), env)
  }
}

=== FILE: store.dfy ===
/** The document store the checker talks to, reduced to what it uses: a range
    query sorted by time, `insert_one` and `delete_one` on one database.  A
    collection is its records in natural (insertion) order; without a client
    every query is empty and every write is dropped. */
module Store {

  import opened Bars

  /** A `delete_one` filter: `{volume, datetime}` or `{volume, close, datetime}`. */
  datatype Filter =
    | VolumeAt(volume: int, datetime: Timestamp)
    | VolumeCloseAt(volume: int, close: int, datetime: Timestamp)

  predicate Matches(f: Filter, b: Bar) {
    match f
    case VolumeAt(v, t) => b.volume == v && b.datetime == t
    case VolumeCloseAt(v, c, t) => b.volume == v && b.close == c && b.datetime == t
  }

  /** One store write, addressed to a collection. */
  datatype Write =
    | Insert(collection: string, bar: Bar)
    | Delete(collection: string, filter: Filter)

  datatype Db = Db(connected: bool, collections: map<string, seq<Bar>>)

  function Records(db: Db, c: string): seq<Bar> {
    if c in db.collections then db.collections[c] else []
  }

  predicate SortedByTime(xs: seq<Bar>) {
    forall i, j :: 0 <= i < j < |xs| ==> xs[i].datetime <= xs[j].datetime
  }

  /** Places `x` in front of the first record not earlier than it. */
  function InsertByTime(s: seq<Bar>, x: Bar): (r: seq<Bar>)
    requires SortedByTime(s)
    ensures SortedByTime(r)
    ensures multiset(r) == multiset(s) + multiset{x}
    decreases |s|
  {
    if |s| == 0 || x.datetime <= s[0].datetime then
      [x] + s
    else
      var rest := InsertByTime(s[1..], x);
      assert s == [s[0]] + s[1..];
      LowerBoundKept(s[0].datetime, s[1..], x, rest);
      SortedCons(s[0], rest);
      [s[0]] + rest
  }

  /** A bound below every record and below `x` stays below every record of
      any rearrangement of them. */
  lemma LowerBoundKept(lo: Timestamp, s: seq<Bar>, x: Bar, r: seq<Bar>)
    requires forall i :: 0 <= i < |s| ==> lo <= s[i].datetime
    requires lo <= x.datetime
    requires multiset(r) == multiset(s) + multiset{x}
    ensures forall j :: 0 <= j < |r| ==> lo <= r[j].datetime
  {
    forall j | 0 <= j < |r| ensures lo <= r[j].datetime {
      assert r[j] in multiset(r);
      if r[j] != x {
        assert r[j] in multiset(s);
        var k :| 0 <= k < |s| && s[k] == r[j];
      }
    }
  }

  lemma SortedCons(b: Bar, r: seq<Bar>)
    requires SortedByTime(r)
    requires forall j :: 0 <= j < |r| ==> b.datetime <= r[j].datetime
    ensures SortedByTime([b] + r)
  {
    var a := [b] + r;
    forall i, j | 0 <= i < j < |a| ensures a[i].datetime <= a[j].datetime {
      assert a[j] == r[j - 1];
      if i > 0 {
        assert a[i] == r[i - 1];
      }
    }
  }

  /** The inserted record lands after every earlier-stamped one and before its
      equals, so each timestamp's records keep their relative order. */
  lemma {:induction false} InsertByTimeOcc(s: seq<Bar>, x: Bar, t: Timestamp)
    requires SortedByTime(s)
    ensures Occ(InsertByTime(s, x), t) == (if x.datetime == t then [x] else []) + Occ(s, t)
    decreases |s|
  {
    if |s| == 0 || x.datetime <= s[0].datetime {
      OccCons(x, s, t);
    } else {
      SortedTail(s);
      var rest := InsertByTime(s[1..], x);
      InsertByTimeOcc(s[1..], x, t);
      OccCons(s[0], rest, t);
      OccCons(s[0], s[1..], t);
      assert s == [s[0]] + s[1..];
      assert x.datetime == t ==> s[0].datetime != t;
    }
  }

  lemma OccCons(b: Bar, r: seq<Bar>, t: Timestamp)
    ensures Occ([b] + r, t) == (if b.datetime == t then [b] else []) + Occ(r, t)
  {
    assert ([b] + r)[0] == b && ([b] + r)[1..] == r;
  }

  lemma SortedTail(s: seq<Bar>)
    requires |s| > 0 && SortedByTime(s)
    ensures SortedByTime(s[1..])
  {
  }

  /** A stable sort by `datetime`: records sharing a timestamp keep their order. */
  function SortByTime(xs: seq<Bar>): (r: seq<Bar>)
    ensures SortedByTime(r)
    ensures multiset(r) == multiset(xs)
    decreases |xs|
  {
    if |xs| == 0 then []
    else
      assert xs == [xs[0]] + xs[1..];
      InsertByTime(SortByTime(xs[1..]), xs[0])
  }

  lemma {:induction false} SortByTimeOcc(xs: seq<Bar>, t: Timestamp)
    ensures Occ(SortByTime(xs), t) == Occ(xs, t)
    decreases |xs|
  {
    if |xs| > 0 {
      SortByTimeOcc(xs[1..], t);
      InsertByTimeOcc(SortByTime(xs[1..]), xs[0], t);
    }
  }

  function From(xs: seq<Bar>, since: Timestamp): (r: seq<Bar>)
    ensures forall t :: Occ(r, t) == if t >= since then Occ(xs, t) else []
    decreases |xs|
  {
    if |xs| == 0 then []
    else
      var rest := From(xs[1..], since);
      if xs[0].datetime >= since then [xs[0]] + rest else rest
  }

  /** `dbQuery(db, c, {"datetime": {"$gte": since}}, 'datetime')`. */
  function Query(db: Db, c: string, since: Timestamp): (r: seq<Bar>)
    ensures SortedByTime(r)
    ensures forall t :: Occ(r, t) == if db.connected && t >= since then Occ(Records(db, c), t) else []
    ensures forall b :: b in r ==> b.datetime >= since
  {
    if db.connected then
      var r := SortByTime(From(Records(db, c), since));
      forall t ensures Occ(r, t) == if t >= since then Occ(Records(db, c), t) else [] {
        SortByTimeOcc(From(Records(db, c), since), t);
      }
      forall b | b in r ensures b.datetime >= since {
        OccMembers(r, b.datetime);
      }
      r
    else []
  }

  /** `delete_one(f)`: the first matching record in natural order goes. */
  function DeleteOne(s: seq<Bar>, f: Filter): seq<Bar>
    decreases |s|
  {
    if |s| == 0 then []
    else if Matches(f, s[0]) then s[1..]
    else [s[0]] + DeleteOne(s[1..], f)
  }

  /** With no matching record, `delete_one` changes nothing. */
  lemma {:induction false} DeleteOneNoMatch(s: seq<Bar>, f: Filter)
    requires forall i :: 0 <= i < |s| ==> !Matches(f, s[i])
    ensures DeleteOne(s, f) == s
    decreases |s|
  {
    if |s| > 0 {
      DeleteOneNoMatch(s[1..], f);
      assert s == [s[0]] + s[1..];
    }
  }

  lemma {:induction false} DeleteOneSubset(s: seq<Bar>, f: Filter)
    ensures forall b :: b in DeleteOne(s, f) ==> b in s
    decreases |s|
  {
    if |s| > 0 && !Matches(f, s[0]) {
      DeleteOneSubset(s[1..], f);
    }
  }

  /** When some record matches, `delete_one` removes exactly the first match. */
  lemma {:induction false} DeleteOneRemovesFirst(s: seq<Bar>, f: Filter, i: nat)
    requires i < |s| && Matches(f, s[i])
    requires forall j :: 0 <= j < i ==> !Matches(f, s[j])
    ensures DeleteOne(s, f) == s[..i] + s[i + 1..]
    decreases |s|
  {
    if i == 0 {
      assert s[..0] + s[1..] == s[1..];
    } else {
      DeleteOneRemovesFirst(s[1..], f, i - 1);
      assert [s[0]] + (s[1..][..i - 1] + s[1..][i..]) == s[..i] + s[i + 1..];
    }
  }

  /** The timestamp a filter pins. */
  function FilterTime(f: Filter): Timestamp {
    match f
    case VolumeAt(_, t) => t
    case VolumeCloseAt(_, _, t) => t
  }

  /** The timestamp of the records a write can touch. */
  function WriteTime(w: Write): Timestamp {
    match w
    case Insert(_, b) => b.datetime
    case Delete(_, f) => FilterTime(f)
  }

  /** A write's effect on the records of the collection it addresses. */
  function Op(s: seq<Bar>, w: Write): seq<Bar> {
    match w
    case Insert(_, b) => s + [b]
    case Delete(_, f) => DeleteOne(s, f)
  }

  /** A sequence of writes replayed against one collection's records. */
  function Replay(s: seq<Bar>, ws: seq<Write>): seq<Bar>
    decreases |ws|
  {
    if |ws| == 0 then s else Replay(Op(s, ws[0]), ws[1..])
  }

  function Apply(db: Db, w: Write): Db {
    if !db.connected then db
    else db.(collections := db.collections[w.collection := Op(Records(db, w.collection), w)])
  }

  function ApplyAll(db: Db, ws: seq<Write>): Db
    decreases |ws|
  {
    if |ws| == 0 then db else ApplyAll(Apply(db, ws[0]), ws[1..])
  }

  /** The writes addressed to collection `c`, in issue order. */
  function Project(ws: seq<Write>, c: string): seq<Write>
    decreases |ws|
  {
    if |ws| == 0 then []
    else (if ws[0].collection == c then [ws[0]] else []) + Project(ws[1..], c)
  }

  /** The writes that can touch records stamped `t`, in issue order. */
  function At(ws: seq<Write>, t: Timestamp): seq<Write>
    decreases |ws|
  {
    if |ws| == 0 then []
    else (if WriteTime(ws[0]) == t then [ws[0]] else []) + At(ws[1..], t)
  }

  lemma {:induction false} ProjectAppend(a: seq<Write>, b: seq<Write>, c: string)
    ensures Project(a + b, c) == Project(a, c) + Project(b, c)
    decreases |a|
  {
    if |a| == 0 {
      assert a + b == b;
    } else {
      assert (a + b)[0] == a[0] && (a + b)[1..] == a[1..] + b;
      ProjectAppend(a[1..], b, c);
      var h := if a[0].collection == c then [a[0]] else [];
      assert Project(a + b, c) == h + Project(a[1..] + b, c);
      assert h + (Project(a[1..], c) + Project(b, c)) == (h + Project(a[1..], c)) + Project(b, c);
    }
  }

  lemma {:induction false} AtAppend(a: seq<Write>, b: seq<Write>, t: Timestamp)
    ensures At(a + b, t) == At(a, t) + At(b, t)
    decreases |a|
  {
    if |a| == 0 {
      assert a + b == b;
    } else {
      assert (a + b)[0] == a[0] && (a + b)[1..] == a[1..] + b;
      AtAppend(a[1..], b, t);
      var h := if WriteTime(a[0]) == t then [a[0]] else [];
      assert At(a + b, t) == h + At(a[1..] + b, t);
      assert h + (At(a[1..], t) + At(b, t)) == (h + At(a[1..], t)) + At(b, t);
    }
  }

  lemma {:induction false} ReplayAppend(s: seq<Bar>, a: seq<Write>, b: seq<Write>)
    ensures Replay(s, a + b) == Replay(Replay(s, a), b)
    decreases |a|
  {
    if |a| == 0 {
      assert a + b == b;
    } else {
      assert (a + b)[1..] == a[1..] + b;
      ReplayAppend(Op(s, a[0]), a[1..], b);
    }
  }

  /** Collections are independent: what a write sequence leaves in `c` is the
      replay of exactly the writes addressed to `c`; without a client nothing
      changes. */
  lemma {:induction false} ApplyAllRecords(db: Db, ws: seq<Write>, c: string)
    ensures ApplyAll(db, ws).connected == db.connected
    ensures Records(ApplyAll(db, ws), c) ==
              if db.connected then Replay(Records(db, c), Project(ws, c)) else Records(db, c)
    decreases |ws|
  {
    if |ws| > 0 {
      ApplyAllRecords(Apply(db, ws[0]), ws[1..], c);
      var rest := Project(ws[1..], c);
      if ws[0].collection == c {
        assert Project(ws, c) == [ws[0]] + rest;
        assert ([ws[0]] + rest)[1..] == rest;
      } else {
        assert Project(ws, c) == rest;
      }
    }
  }

  /** A matched record carries the filter's timestamp. */
  lemma MatchesTime(f: Filter, b: Bar)
    requires Matches(f, b)
    ensures b.datetime == FilterTime(f)
  {
  }

  /** `delete_one` only touches the records stamped with the filter's time, and
      among them it removes the first match. */
  lemma {:induction false} OccDeleteOne(s: seq<Bar>, f: Filter, t: Timestamp)
    ensures Occ(DeleteOne(s, f), t) == if FilterTime(f) == t then DeleteOne(Occ(s, t), f) else Occ(s, t)
    decreases |s|
  {
    if |s| > 0 {
      OccDeleteOne(s[1..], f, t);
      if Matches(f, s[0]) {
        OccDeleteOneHead(s, f, t);
      } else {
        OccDeleteOneSkip(s, f, t);
      }
    }
  }

  lemma OccDeleteOneHead(s: seq<Bar>, f: Filter, t: Timestamp)
    requires |s| > 0 && Matches(f, s[0])
    ensures Occ(DeleteOne(s, f), t) == if FilterTime(f) == t then DeleteOne(Occ(s, t), f) else Occ(s, t)
  {
    MatchesTime(f, s[0]);
    var o := Occ(s[1..], t);
    assert DeleteOne(s, f) == s[1..];
    if FilterTime(f) == t {
      assert Occ(s, t) == [s[0]] + o;
      assert ([s[0]] + o)[0] == s[0];
      assert DeleteOne([s[0]] + o, f) == ([s[0]] + o)[1..];
      assert ([s[0]] + o)[1..] == o;
    } else {
      assert Occ(s, t) == o;
    }
  }

  lemma OccDeleteOneSkip(s: seq<Bar>, f: Filter, t: Timestamp)
    requires |s| > 0 && !Matches(f, s[0])
    requires Occ(DeleteOne(s[1..], f), t) ==
               if FilterTime(f) == t then DeleteOne(Occ(s[1..], t), f) else Occ(s[1..], t)
    ensures Occ(DeleteOne(s, f), t) == if FilterTime(f) == t then DeleteOne(Occ(s, t), f) else Occ(s, t)
  {
    var o := Occ(s[1..], t);
    var d := DeleteOne(s[1..], f);
    var h := if s[0].datetime == t then [s[0]] else [];
    assert DeleteOne(s, f) == [s[0]] + d;
    assert ([s[0]] + d)[0] == s[0] && ([s[0]] + d)[1..] == d;
    assert Occ([s[0]] + d, t) == h + Occ(d, t);
    assert Occ(s, t) == h + o;
    if FilterTime(f) == t && s[0].datetime == t {
      assert (h + o)[0] == s[0] && (h + o)[1..] == o;
      assert DeleteOne(h + o, f) == h + DeleteOne(o, f);
    } else if FilterTime(f) == t {
      assert h + o == o;
    }
  }

  lemma OccOp(s: seq<Bar>, w: Write, t: Timestamp)
    ensures Occ(Op(s, w), t) == if WriteTime(w) == t then Op(Occ(s, t), w) else Occ(s, t)
  {
    match w
    case Insert(_, b) =>
      OccAppend(s, [b], t);
      assert Occ([b], t) == if b.datetime == t then [b] else [];
    case Delete(_, f) =>
      OccDeleteOne(s, f, t);
  }

  /** The records stamped `t` after a replay are the replay, on the records
      stamped `t`, of the writes that can touch them. */
  lemma {:induction false} OccReplay(s: seq<Bar>, ws: seq<Write>, t: Timestamp)
    ensures Occ(Replay(s, ws), t) == Replay(Occ(s, t), At(ws, t))
    decreases |ws|
  {
    if |ws| > 0 {
      OccReplay(Op(s, ws[0]), ws[1..], t);
      OccOp(s, ws[0], t);
      var rest := At(ws[1..], t);
      if WriteTime(ws[0]) == t {
        assert At(ws, t) == [ws[0]] + rest;
        assert ([ws[0]] + rest)[1..] == rest;
      } else {
        assert At(ws, t) == rest;
      }
    }
  }
}

=== FILE: text.dfy ===
/** The handful of Python 2 byte-string operations the core relies on:
    `split`, `join`, `startswith`, slicing `s[:n]`, ASCII `upper`, and the
    byte-wise ordering `sorted` uses. */
module Text {

  import opened Wrappers

  /** `sep.join(parts)`. */
  function Join(parts: seq<string>, sep: char): string
    decreases |parts|
  {
    if |parts| == 0 then ""
    else if |parts| == 1 then parts[0]
    else parts[0] + [sep] + Join(parts[1..], sep)
  }

  /** `s.split(sep)`: the maximal runs between separators, always at least one
      (an empty string splits into one empty field). */
  function Split(s: string, sep: char): (parts: seq<string>)
    ensures |parts| >= 1
    ensures forall i :: 0 <= i < |parts| ==> sep !in parts[i]
    ensures Join(parts, sep) == s
    decreases |s|
  {
    if |s| == 0 then [""]
    else
      var rest := Split(s[1..], sep);
      if s[0] == sep then
        assert Join([""] + rest, sep) == [sep] + Join(rest, sep) by {
          assert ([""] + rest)[1..] == rest;
        }
        [""] + rest
      else
        var parts := [[s[0]] + rest[0]] + rest[1..];
        assert Join(parts, sep) == [s[0]] + Join(rest, sep) by {
          if |rest| > 1 {
            assert parts[1..] == rest[1..];
          }
        }
        parts
  }

  /** The field of `s` at `index` once split at `sep`, or None where Python's
      `s.split(sep)[index]` raises IndexError. */
  function Field(s: string, sep: char, index: nat): (f: Option<string>)
    ensures f.Some? <==> index < |Split(s, sep)|
    ensures f.Some? ==> sep !in f.value
  {
    var parts := Split(s, sep);
    if index < |parts| then Some(parts[index]) else None
  }

  /** Splitting the join of separator-free fields gives the fields back. */
  lemma {:induction false} SplitJoin(parts: seq<string>, sep: char)
    requires |parts| >= 1
    requires forall i :: 0 <= i < |parts| ==> sep !in parts[i]
    ensures Split(Join(parts, sep), sep) == parts
    decreases |parts|
  {
    if |parts| == 1 {
      SplitNoSeparator(parts[0], sep);
    } else {
      SplitJoin(parts[1..], sep);
      SplitFirstField(parts[0], sep, Join(parts[1..], sep));
    }
  }

  lemma {:induction false} SplitNoSeparator(s: string, sep: char)
    requires sep !in s
    ensures Split(s, sep) == [s]
    decreases |s|
  {
    if |s| > 0 {
      SplitNoSeparator(s[1..], sep);
      assert [s[0]] + s[1..] == s;
    }
  }

  lemma {:induction false} SplitFirstField(p: string, sep: char, r: string)
    requires sep !in p
    ensures Split(p + [sep] + r, sep) == [p] + Split(r, sep)
    decreases |p|
  {
    var s := p + [sep] + r;
    if |p| == 0 {
      assert s[1..] == r;
    } else {
      assert s[1..] == p[1..] + [sep] + r;
      SplitFirstField(p[1..], sep, r);
      assert [p[0]] + p[1..] == p;
    }
  }

  /** Python's `s.startswith(prefix)`. */
  predicate StartsWith(s: string, prefix: string) {
    |prefix| <= |s| && s[..|prefix|] == prefix
  }

  /** Python's slice `s[:n]`. */
  function Take(s: string, n: nat): (t: string)
    ensures |t| <= n && StartsWith(s, t)
    ensures |s| >= n ==> |t| == n
    ensures |s| <= n ==> t == s
  {
    if n <= |s| then s[..n] else s
  }

  /** Python 2 `str.upper()` in the C locale: only ASCII letters change. */
  function UpperChar(c: char): char {
    if 'a' <= c <= 'z' then (c as int - 32) as char else c
  }

  function Upper(s: string): (u: string)
    ensures |u| == |s|
    ensures forall i :: 0 <= i < |s| ==> u[i] == UpperChar(s[i])
  {
    seq(|s|, i requires 0 <= i < |s| => UpperChar(s[i]))
  }

  /** Byte-wise lexicographic order of Python 2 strings: a proper prefix sorts first. */
  predicate Less(a: string, b: string)
    decreases |a|
  {
    if |a| == 0 then |b| > 0
    else if |b| == 0 then false
    else if a[0] == b[0] then Less(a[1..], b[1..])
    else a[0] < b[0]
  }

  lemma {:induction false} LessIrreflexive(a: string)
    ensures !Less(a, a)
    decreases |a|
  {
    if |a| > 0 {
      LessIrreflexive(a[1..]);
    }
  }

  lemma {:induction false} LessTransitive(a: string, b: string, c: string)
    requires Less(a, b) && Less(b, c)
    ensures Less(a, c)
    decreases |a|
  {
    if |a| > 0 && |b| > 0 && |c| > 0 && a[0] == b[0] == c[0] {
      LessTransitive(a[1..], b[1..], c[1..]);
    }
  }

  lemma {:induction false} LessTotal(a: string, b: string)
    requires a != b
    ensures Less(a, b) || Less(b, a)
    decreases |a|
  {
    if |a| > 0 && |b| > 0 && a[0] == b[0] {
      assert a == [a[0]] + a[1..] && b == [b[0]] + b[1..];
      LessTotal(a[1..], b[1..]);
    }
  }

  lemma LessAsymmetric(a: string, b: string)
    requires Less(a, b)
    ensures !Less(b, a)
  {
    if Less(b, a) {
      LessTransitive(a, b, a);
      LessIrreflexive(a);
    }
  }
}

=== FILE: wrappers.dfy ===
/** Failure-carrying values shared by every module of the model. */
module Wrappers {

  /** A value that may be absent (a missing dictionary key, an index out of range). */
  datatype Option<+T> = None | Some(value: T) {
    function GetOr(default: T): T {
      match this
      case Some(v) => v
      case None => default
    }
  }

  /** The outcome of a step that may raise instead of returning. */
  datatype Result<+R, +E> = Ok(value: R) | Err(error: E) {
    predicate IsFailure() {
      Err?
    }
  }
}
